=== FILE: README.md ===
# carsawa dealer onboarding, bearer gate and listings — a Dafny model

This project models the decision logic of the carsawa backend, a Go service
for a car marketplace:

- **Dealer onboarding.** A four-step registration (basic data → OTP → KYP
  documents → service catalogue) over a key/value session cache and a
  dealer store, and the HTTP handler that dispatches the steps.
- **Dealer sign-in.** A device-bound policy: at most three devices, an OTP
  gate for new devices, and per-device token rotation.
- **The bearer gate.** JWTAuthDealerMiddleware, as a pure
  accept / refuse / pass-through decision together with its cache effect.
- **Validators and normalisers.** Phone numbers, password strength,
  registration data, slugs, car details and listing ids.
- **Dealer profile field rules.** Stripping protected keys, the access
  projections, and the order of dealer deletion.
- **Listing rules.**
  - Create normalisation by type.
  - The status transition table.
  - Update, delete, publish and close guards.
  - Adding and accepting bids.
  - The active feed: filtering, ordering, paging, promotions, banners and
    search.
  - Page/offset arithmetic in the HTTP handlers.
- **Notifications.** The notification collection and service.

**How state is modelled.** All state is immutable values threaded through
pure functions:

- the dealer store is a `map<string, Dealer>`;
- the cache is one `map<string, Entry>` shared by registration sessions,
  sign-in sessions, OTP records and token hashes;
- listings and notifications are sequences in insertion order.

**What the code does not see directly.** Everything the code calls but does
not contain is passed in:

- bcrypt, token hashing and token parsing (the `Crypto` record);
- per-request outcomes of the cache, the store, the OTP sender and the
  token generator, plus the clock and a fresh id (the `Env` and
  `ListingEnv` records);
- the VIN registry, the notifier, the text index and the feed's promotion
  and banner sources.

Token hashing is a function, so it is deterministic. Generated ids are taken
to be fresh where a property needs it.

**Gate lemmas.** The `GateFlow` module relates the gate to what registration,
sign-in and revocation write:

- A freshly registered dealer's token is refused by the gate as written,
  because the gate compares a dealer-level hash that nothing writes.
- The same token is accepted by a per-device comparison.
- Revocation and sign-in clear cache keys that differ from the gate's key.

## Model

| member | source | states |
|---|---|---|
| Utils.SaveRegistrationSession | utils/utils.go:23-39 | a successful save stores the session under its id with the requested lifetime and leaves every other key as it was; it succeeds exactly when the cache write does |
| Utils.GetRegistrationSession | utils/utils.go:41-62 | an absent key fails as "session expired or invalid"; a hit returns exactly the stored registration session |
| Utils.DeleteRegistrationSession | utils/utils.go:64-74 | a successful delete removes that key only and keeps the rest of the cache |
| Utils.SessionMapContract | utils/utils.go:23-74 | Get after Save returns the saved session, Save does not disturb other ids, and Get after Delete fails |
| Utils.SaveAuthSession | services/dealer/signin.go:78-80 | the sign-in session is stored under the session id when the write works; the rest of the cache is untouched |
| Utils.GetAuthSession | services/dealer/signin.go:84-87 | finds a sign-in session exactly when one is stored under the id |
| Utils.OtpKey | services/dealer/signin.go:108 | the OTP key is "otp:" followed by the key it guards |
| Utils.InitiateDeviceOtp | services/dealer/signin.go:110-115 | a sent OTP records a challenge under OtpKey of the first argument; nothing else changes |
| Utils.DigitsOf | utils/utils.go:78-79 | keeps exactly the decimal digits of the input, and a digit string is unchanged |
| Utils.DigitsOfAppend | utils/utils.go:78-79 | digit extraction distributes over concatenation |
| Utils.NormalizePhoneNumber | utils/utils.go:76-95 | the result is always "+" followed only by digits |
| Utils.NormalizeKeepsDigits | utils/utils.go:82-94 | ten digits with a leading 0 give +254 and the last nine; nine digits give +254 and those nine; any other digit string d gives "+" + d |
| Utils.NormalizePhoneIdempotent | utils/utils.go:76-95 | normalising a normalised number changes nothing |
| Utils.KenyanFormsAgree | utils/utils.go:82-92 | the national, bare-subscriber and international spellings of a Kenyan number normalise to the same value |
| Utils.NoDigitsNormalizeToPlus | utils/utils.go:94 | input without digits normalises to "+" |
| Security.HashPassword | utils/security.go:14-17 | the stored hash is what bcrypt produced for the password, and the call fails exactly when bcrypt fails |
| Security.CheckPasswordHash | utils/security.go:19-22 | true exactly when bcrypt's comparison accepts the password against the hash |
| Security.HashThenCheck | utils/security.go:14-22 | under a sound bcrypt, whatever HashPassword stores is accepted by CheckPasswordHash for the same password |
| Security.Classify | utils/security.go:36-47 | a rune counts only toward the first class that holds, in the order upper, lower, number, punctuation/symbol |
| Security.ValidatePasswordStrength | utils/security.go:24-54 | under 8 bytes is "too short" before any class check; otherwise the password is accepted exactly when it has an upper, a lower, a number and a special rune |
| DealerModels.FindDevice | services/dealer/signin.go:90-98 | the index of the first device with the id, and none exactly when no device has it |
| DealerUtils.ReplaceSpaces | services/dealer/utils.go:19-21 | every space becomes a hyphen and nothing else changes |
| DealerUtils.GenerateSlug | services/dealer/utils.go:18-25 | the slug contains only lower-case ASCII letters, digits, '_' and '-', and is no longer than the name |
| DealerUtils.SlugStepsFix | services/dealer/utils.go:19-21 | trimming, hyphenating and lower-casing leave a string of slug characters unchanged |
| DealerUtils.NoSpaceInSlug | services/dealer/utils.go:19 | a string of slug characters has nothing to trim |
| DealerUtils.GenerateSlugIdempotent | services/dealer/utils.go:18-25 | generating a slug from a slug gives the same slug |
| DealerUtils.EnsureUniqueSlug | services/dealer/utils.go:27-39 | returns the first of base, base-1 … base-10 whose lookup errors (any error counts as free); fails exactly when all eleven are found |
| DealerUtils.ValidateBasicRegistrationData | services/dealer/utils.go:86-133 | accepts exactly the data meeting every rule: name, email pattern, password length/upper/digit, phone pattern, address length, GeoJSON point in range; the first failing rule's message otherwise |
| DealerUtils.NormalizedPhoneCheck | services/dealer/utils.go:112-116 | a normalised phone number passes the phone pattern exactly when it has 7 to 14 digits |
| DealerUtils.UpdateDeviceToken | services/dealer/utils.go:196-211 | a present id gets the new hash and login time in its first entry, with length and all other entries kept; otherwise exactly one new device is appended; no cap is enforced |
| DealerUtils.UpdateDeviceTokenKeepsDistinct | services/dealer/utils.go:196-211 | never introduces a second device with the same id |
| DealerUtils.ClearDeviceToken | services/dealer/utils.go:48-59 | only the first device with the id loses its token hash; an absent id changes nothing |
| DealerUtils.RevocationKey | services/dealer/utils.go:73 | the key revocation deletes: the dealer id, a colon and the device id, with no prefix |
| DealerUtils.RevokeDealerAuthToken | services/dealer/utils.go:42-83 | succeeds exactly when the dealer and device exist and the write works; an unknown device gives "device not registered" with no write; a failed cache delete is ignored |
| DealerUtils.CreateDealerFromSession | services/dealer/utils.go:150-186 | the dealer copies the session devices, name, phone (also as WhatsApp), email, address and geolocation and catalogue, gets the slug generated from the name, rating 0, documents [document, selfie], no security data, and the creation time as created, updated and verified time |
| DealerUtils.GenerateAuthToken | services/dealer/utils.go:188-194 | returns the generator's token with its hash, failing exactly when generation fails |
| Signup.Sanitize | services/dealer/signup.go:17-18 | the email is trimmed and lower-cased and the phone normalised; no other field changes |
| Signup.StartSession | services/dealer/signup.go:32-53 | no OTP means no session and no cache change; a failed save leaves at most the OTP record behind; on success the stored session is "pending", holds just the registering device, lives 30 minutes, and the code is 100 |
| Signup.RegisterBasic | services/dealer/signup.go:15-54 | validation sees the sanitised data; invalid data, a store error or a taken email or name leaves the cache unchanged; with valid, unclaimed data the outcome is StartSession's, where an unsent OTP changes nothing and a failed save leaves only the OTP record behind |
| Signup.VerifyOtp | services/dealer/signup.go:56-75 | a missing session or a rejected OTP changes nothing; success changes only the OTP status to "verified" (and the timestamp) and returns 105 |
| Signup.VerifyKyp | services/dealer/signup.go:77-103 | fails unless the OTP is verified and all three documents are present; success records the documents, status "verified", level "basic", and returns 101 |
| Signup.CompleteRegistration | services/dealer/signup.go:121-162 | a failure leaves cache and store unchanged; success needs an unused id and a dealer name whose name and slug no stored dealer has (the unique indexes), and inserts one dealer whose device holds the returned token's hash and whose password is only a bcrypt hash |
| Signup.Finalize | services/dealer/signup.go:105-163 | no store write unless the session exists, is KYP-verified and names at least one service; failures leave everything unchanged |
| Signup.StartSessionPreserves | services/dealer/signup.go:39-51 | every stored registration session keeps exactly one device, and "verified" KYP implies verified OTP |
| Signup.RegisterBasicPreserves | services/dealer/signup.go:15-54 | RegisterBasic keeps the session invariant |
| Signup.VerifyOtpPreserves | services/dealer/signup.go:56-75 | VerifyOTP keeps the session invariant |
| Signup.VerifyKypPreserves | services/dealer/signup.go:77-103 | VerifyKYP keeps the session invariant |
| Signup.FinalizeSuccessIff | services/dealer/signup.go:105-163 | finalisation inserts a dealer exactly when the session exists and is KYP-verified, the catalogue is non-empty, bcrypt hashes the password, the session holds a device, a token is generated, and the store accepts an unused id and a name and slug not yet stored |
| Signup.FinalizePreserves | services/dealer/signup.go:105-163 | FinalizeRegistration keeps the session invariant |
| Signup.FinalizeOnlyAfterOtpAndKyp | services/dealer/signup.go:113-119 | a successful finalisation implies the session passed both OTP and KYP verification |
| Signup.RegisteredDealerShape | services/dealer/signup.go:140-147 | a single-device session yields a dealer with that one device, its creator flag and every other field kept, carrying the new token hash and login time |
| Signup.FinalizedDealerShape | services/dealer/signup.go:129-162 | the finalised dealer has exactly one device, the registering one, whose hash is HashToken of the returned token |
| Signup.FinalizeIsSingleShot | services/dealer/signup.go:150-160 | once cleanup succeeds the session is gone and a second finalisation fails at session lookup |
| Signup.FinalizeRetryRefusedWhenCleanupFails | services/dealer/signup.go:150-160 | when cleanup fails the session survives and can be finalised again, but the unique name and slug indexes refuse the second insert ("database creation failed" once a token is issued), so the store keeps one dealer |
| Signup.RegisteredDealerNamed | services/dealer/utils.go:150-156 | the inserted dealer carries the session's dealer name and the slug generated from it |
| Signin.StampToken | services/dealer/signin.go:143-158 | the first device with the current id becomes that device with the new hash and login time; every other device is unchanged; an absent device is appended with them |
| Signin.IssueToken | services/dealer/signin.go:130-180 | only a success writes the store, and then it persists the stamped devices; the cache only loses keys: the token key when the delete works, and on success the sign-in session as well; every other key is kept |
| Signin.ChallengeNewDevice | services/dealer/signin.go:101-121 | at 3 or more devices: "maximum 3 devices allowed"; otherwise OTP pending, with an OTP started and status "pending_otp" only when no "otp:<session>" key exists; never a store write |
| Signin.ContinueSignin | services/dealer/signin.go:84-127 | a missing sign-in session fails "authentication session expired"; only a success writes the store, and then only the signing-in dealer's record, answering with that dealer's id and deleting the sign-in session |
| Signin.AuthenticateDealer | services/dealer/signin.go:25-181 | an unknown email, a store error or a bcrypt mismatch fails before any session or device change; a success touches only that dealer and deletes the sign-in session it worked under |
| Signin.DefaultSessionId | services/dealer/signin.go:62-65 | the sign-in session id used when the client sends none: "dealer:", the dealer id, a colon and the device id |
| Signin.SigninTokenKey | services/dealer/signin.go:130 | the key sign-in clears before issuing a token: the prefix, a colon, the dealer id, a colon and the device id |
| Signin.StampTokenFacts | services/dealer/signin.go:143-152 | stamping a present device keeps the length and keeps device ids distinct |
| Signin.IssueTokenRotates | services/dealer/signin.go:89-170 | issuing a token on the prepared device list stores the rotation: a known device keeps its place with the current IP and location, the new hash and the login time; an unknown one is appended as a non-creator with the hash and login time; every other device is unchanged; ids stay distinct |
| Signin.RefreshKeepsIndex | services/dealer/signin.go:90-98 | refreshing IP and location keeps the device at the index where it was found |
| Signin.KnownDeviceRotates | services/dealer/signin.go:90-152 | stamping a refreshed known device gives that rotation |
| Signin.EnrolledDeviceRotates | services/dealer/signin.go:123-158 | stamping an enrolled device gives that rotation |
| Signin.ContinueSigninRotates | services/dealer/signin.go:90-170 | the same rotation holds for both the known-device and the OTP-enrolment paths |
| Signin.SigninRotatesOnlyCurrentDevice | services/dealer/signin.go:89-180 | a successful sign-in stores the rotation for the current device, with the hash of the returned token and the login time (and, for a known device, the current IP and location); every other device is unchanged and ids stay distinct |
| Signin.NewDeviceNeedsVerifiedSession | services/dealer/signin.go:101-127 | an unknown device is signed in only through an "otp_verified" sign-in session |
| Signin.VerifiedSessionBypassesCap | services/dealer/signin.go:123-127 | with an OTP-verified session a dealer already at the cap gets a fourth device |
| Signin.ChallengeResendsOtp | services/dealer/signin.go:108-119 | the OTP is filed under the dealer id but looked for under the session id, so each challenge starts a new OTP |
| AuthGate.CheckRequest | middleware/dealerAuth.go:35-129 | rejects, each with its own message and in the source's order, a missing or non-"Bearer " header, an empty token, missing ids, a missing, non-string or empty context device, a device mismatch and an empty hash; success exactly on well-formed requests |
| AuthGate.GateKey | middleware/dealerAuth.go:131 | the gate's cache key: the auth-cache prefix, the dealer id, a colon and the token's device id, with no separator after the prefix |
| AuthGate.Deny | middleware/dealerAuth.go:37-45 | a failure aborts with its message unless the gate is optional, in which case it passes through without full access |
| AuthGate.CheckHash | middleware/dealerAuth.go:131-190 | accepts exactly on a cache hit or a stored hash equal to the token hash; a cache hit refreshes the TTL to one hour; a store match caches the hash; full access exactly on acceptance |
| AuthGate.SecurityHash | middleware/dealerAuth.go:153-168 | the fallback reads the dealer-level Security.TokenHash, when the dealer is found |
| AuthGate.Authorize | middleware/dealerAuth.go:19-192 | full access exactly on acceptance, an optional gate never refuses, and a malformed request is never accepted |
| AuthGate.AuthorizeAcceptsIff | middleware/dealerAuth.go:102-190 | accepted exactly when the request is well formed and the cached hash or Security.TokenHash equals the token hash; acceptance names the token's dealer and the context device equals the token device |
| AuthGate.DeviceHash | middleware/dealerAuth.go:153-168 | the per-device hash the fallback evidently means: that of the token's device |
| AuthGate.AuthorizeByDevice | middleware/dealerAuth.go:19-192 | the corrected gate keeps the same guarantees as the one as written |
| GateFlow.QuietGateRefusesAll | middleware/dealerAuth.go:136-179 | with no cached hash and no dealer-level hash stored, the gate as written accepts no request |
| GateFlow.RegisterBasicKeepsQuiet | services/dealer/signup.go:15-54 | registration writes no token hash into the cache |
| GateFlow.StartSessionKeepsQuiet | services/dealer/signup.go:32-53 | starting a registration session writes no token hash into the cache |
| GateFlow.VerifyOtpKeepsQuiet | services/dealer/signup.go:56-75 | OTP verification writes no token hash into the cache |
| GateFlow.VerifyKypKeepsQuiet | services/dealer/signup.go:77-103 | KYP verification writes no token hash into the cache |
| GateFlow.FinalizeKeepsQuiet | services/dealer/signup.go:140-152 | finalisation stores a dealer whose Security.TokenHash is empty |
| GateFlow.SigninKeepsQuiet | services/dealer/signin.go:143-173 | sign-in writes only per-device hashes, never Security.TokenHash or a cached hash |
| GateFlow.ContinueSigninKeepsQuiet | services/dealer/signin.go:84-173 | the same for the part of sign-in after the session lookup |
| GateFlow.RevokeKeepsQuiet | services/dealer/utils.go:42-83 | revocation clears a per-device hash and deletes a key, so the quiet state persists |
| GateFlow.BearerHeader | middleware/dealerAuth.go:36-48 | the header a client sends carries the "Bearer " prefix and yields the token back |
| GateFlow.ValidTokenWellFormed | middleware/dealerAuth.go:35-129 | a valid token presented from its own device passes every request check |
| GateFlow.JustRegisteredRefused | middleware/dealerAuth.go:168-178 | a dealer holding the token hash only on its device is refused with "Token mismatch" on a cache miss |
| GateFlow.JustRegisteredAcceptedByDevice | middleware/dealerAuth.go:153-190 | the corrected gate accepts that dealer's token |
| GateFlow.FinalizedIsJustRegistered | services/dealer/signup.go:140-152 | registration leaves the dealer holding the returned token's hash only on its single device |
| GateFlow.FreshTokenRefused | middleware/dealerAuth.go:168 | the token FinalizeRegistration returns is refused by the gate as written on a cache miss |
| GateFlow.FreshTokenAcceptedByDevice | middleware/dealerAuth.go:153-190 | the corrected gate accepts that token |
| GateFlow.RotatedHashFound | services/dealer/signin.go:143-158 | the per-device lookup finds the hash a rotation stored for the current device |
| GateFlow.SignedInTokenAcceptedByDevice | services/dealer/signin.go:135-170 | the corrected gate accepts the token a successful sign-in returns |
| GateFlow.RevokedTokenStillCached | services/dealer/utils.go:73 | revocation deletes the unprefixed key, so with a prefix a cached hash survives and the revoked token still passes |
| GateFlow.RevocationRefusesWhenUnprefixed | services/dealer/utils.go:61-80 | with an empty prefix the keys coincide and the corrected gate refuses the revoked token |
| GateFlow.SigninKeepsGateEntry | services/dealer/signin.go:130-133 | sign-in clears "prefix:dealer:device", not the gate's key, so the previous token's cached hash outlives the rotation |
| GateFlow.ContinueSigninFrame | services/dealer/signin.go:61-173 | sign-in writes or deletes only the session key, the OTP key and its own token key |
| GateFlow.KeysSeparateDevices | middleware/dealerAuth.go:131 | for one dealer, two different devices never share a gate key, a sign-in token key, a default session id or a revocation key |
| DealerAuthHandler.RegistrationDevice | handlers/dealerAuth.go:20-40 | the registering device exists exactly when all four context values are strings, and it is marked creator |
| DealerAuthHandler.BasicStep | handlers/dealerAuth.go:50-74 | 200 with the session id and "otp_verification" on success, 400 with the detail otherwise; the store is untouched |
| DealerAuthHandler.VerifyStep | handlers/dealerAuth.go:76-130 | 200 with the next step on success, 400 with the detail otherwise; the store is untouched |
| DealerAuthHandler.CatalogueStep | handlers/dealerAuth.go:132-154 | 201 with the auth response exactly on a successful finalisation, 500 on a failure |
| DealerAuthHandler.RegisterDealerHandler | handlers/dealerAuth.go:16-164 | a missing device id or name is a 400 before the body is read; a bad body, an unknown step or missing step fields is a 400 with no state change |
| DealerAuthHandler.HandlerKeepsSessionsWellFormed | handlers/dealerAuth.go:49-163 | the handler keeps every registration session well formed |
| DealerAuthHandler.NoPanicOnceDeviceIsRead | handlers/dealerAuth.go:33-40 | with well-formed sessions the only panics are the device type assertions |
| DealerAuthHandler.RegistrationStatuses | handlers/dealerAuth.go:16-164 | the registration handler answers only 200, 201, 400 or 500 (the 500 covers both a failed finalisation and the recovered panic) |
| DealerAuthHandler.CreatedOnlyByCatalogue | handlers/dealerAuth.go:132-154 | 201 is only the catalogue step's success |
| DealerAuthHandler.OkOnlyFromEarlySteps | handlers/dealerAuth.go:70-126 | a 200 comes only from a successful basic, otp or kyp step and carries the step body |
| DealerAuthHandler.ContextString | handlers/dealerAuth.go:181-187 | a context value reads as its string, or "" when absent or not a string |
| DealerAuthHandler.SigninResponse | handlers/dealerAuth.go:197-211 | 200 exactly on success; OTP pending is a 401 carrying the session id and "otp_verification"; every other error is a plain 401 |
| DealerAuthHandler.AuthenticateDealerHandler | handlers/dealerAuth.go:166-212 | a bad body is a 400; otherwise 200 or 401; only a 200 changes the store |
| DealerCrud.Sanitize | services/dealer/crud.go:14-20 | the protected keys are removed, updatedAt is the current time, and every other key passes through unchanged |
| DealerCrud.SetFields | database/repository/dealer/dealerMongoCrud.go:34-39 | setting fields overwrites exactly those keys and keeps the rest |
| DealerCrud.AccessLevel | services/dealer/crud.go:64-69 | the context flag when it is a bool, false when absent, a panic when another type |
| DealerCrud.DealerProjection | services/dealer/crud.go:71-83 | full access excludes only security; partial access includes only _id, profile and store |
| DealerCrud.Project | services/dealer/crud.go:71-83 | an exclusion drops the listed keys, an inclusion keeps only them |
| DealerCrud.ProjectionHidesSecurity | services/dealer/crud.go:71-83 | neither projection ever exposes security |
| DealerCrud.GetDealer | services/dealer/crud.go:30-39 | a non-bool access flag panics; otherwise a failed read and a missing dealer are both ErrDealerNotFound, and the dealer is found exactly when the read works and it is stored; full access returns every stored field but security, partial access exactly _id, profile and store, with the stored values |
| DealerCrud.GetDealerIsListed | services/dealer/crud.go:30-60 | the document GetDealer returns is one of those ListDealers returns under the same access level |
| DealerCrud.UpdateDealer | services/dealer/crud.go:12-27 | protected keys keep their stored values, updatedAt is set, other dealers are untouched, a failed write changes nothing, and after a write the result is GetDealer of the updated record, read-back failure included |
| DealerCrud.ProfileIsNotProtected | services/dealer/crud.go:14-17 | a nested "profile" document replaces the stored profile, email and slug included |
| DealerCrud.UpdateIdempotent | services/dealer/crud.go:12-27 | applying the same update twice at the same time equals applying it once |
| DealerCrud.ListDealers | services/dealer/crud.go:52-61 | a non-bool access flag panics; otherwise success exactly when the read works, with every stored dealer present under the access projection and none exposing security |
| DealerCrud.DeleteDealer | services/dealer/crud.go:85-96 | listings go first; a listing failure changes nothing; a dealer failure leaves the listings deleted; with both deletes working, success exactly when the dealer existed, and a missing dealer is "dealer not found" |
| ListingModels.ObjectIdFromHex | services/listing/utils.go:19-25 | parses exactly the 24-digit hex strings of either case into the canonical lower-case id |
| ListingModels.ObjectIdRoundTrip | services/listing/utils.go:19-25 | parsing an id's hex form gives the id back |
| ListingModels.ParseStatus | models/listing.go:17-26 | the status read from a stored string prints back as that string |
| ListingModels.ParseStatusName | models/listing.go:17-26 | a status is read back as the status it was stored as |
| ListingModels.FindListing | database/repository/listing/listingMongoCrud.go:51-66 | the index of the first listing with the id, none exactly when absent |
| ListingUtils.ConvertAndValidateId | services/listing/utils.go:19-25 | fails "invalid ID format" exactly when the string is not an ObjectID hex |
| ListingUtils.Allows | services/listing/utils.go:40-45 | the loop answers membership in the allowed list |
| ListingUtils.IsValidStatusTransition | services/listing/utils.go:27-46 | allowed exactly for draft→{active,closed}, active→{sold,closed}, open→{accepted,closed}, accepted→{closed} |
| ListingUtils.TerminalHasNoSuccessor | services/listing/utils.go:35-38 | closed and sold go nowhere |
| ListingUtils.NoSelfOrInitialTargets | services/listing/utils.go:28-33 | no status moves to itself, and draft and open are never targets |
| ListingUtils.ClosableFromEveryTableStatus | services/listing/utils.go:28-33 | every status in the table can be closed in one step |
| ListingValidation.LocalCheck | services/listing/validateListing.go:21-53 | VIN, make, model required in that order; year in [1886, current+1]; price > 0 for dealer, == 0 for user_bid, any other type rejected |
| ListingValidation.ValidateCarDetails | services/listing/validateListing.go:21-82 | valid exactly when the local checks pass and the registry reports the VIN valid with matching make and model (case-insensitive) and an equal parsed year |
| ListingValidation.RegistryConsultedLast | services/listing/validateListing.go:56 | when a local check fails the registry's answer is irrelevant |
| ListingValidation.PatchCarDetails | services/listing/validateListing.go:84-102 | only keys present with the expected dynamic type override the existing details; a non-document changes nothing |
| ListingValidation.ValidateAndUpdateCarDetails | services/listing/validateListing.go:84-107 | validates a copy of the listing carrying the patched details |
| ListingValidation.NonDocumentRevalidatesExisting | services/listing/validateListing.go:86 | a "carDetails" that is not a document re-validates the existing details |
| ListingRepo.NormalizeNew | database/repository/listing/listingMongoCrud.go:18-41 | a fresh id only for the zero id, both timestamps set; dealer requires price > 0 and becomes draft with no bids; user_bid requires price == 0 and becomes open with empty bids; other types fail ErrInvalidType |
| ListingRepo.CreateListing | database/repository/listing/listingMongoCrud.go:18-48 | a rejected listing or failed insert stores nothing; success appends the normalised listing and returns its hex id |
| ListingRepo.CreateKeepsIdsDistinct | database/repository/listing/listingMongoCrud.go:43-47 | a successful insert keeps listing ids distinct |
| ListingRepo.GetListingById | database/repository/listing/listingMongoCrud.go:51-66 | invalid hex is ErrInvalidID, an absent id ErrNotFound, otherwise the stored listing with that id |
| ListingRepo.StoredCarDetails | database/repository/listing/listingMongoCrud.go:81-85 | a "carDetails" document replaces the whole sub-document: missing fields become zero values, strings are taken as given, an integer or integral float year is read as that integer, and an integer or float price as that number |
| ListingRepo.ApplySet | database/repository/listing/listingMongoCrud.go:81-85 | identity, type, views, creation time and owners never change; status, updatedAt and car details change only when their keys are set |
| ListingRepo.UpdateListing | database/repository/listing/listingMongoCrud.go:69-93 | invalid hex is ErrInvalidID, a "type" key is refused, no match is ErrNotFound; success stamps updatedAt and changes only the matched listing |
| ListingRepo.DeleteListing | database/repository/listing/listingMongoCrud.go:96-110 | removes exactly the listing with that id; nothing deleted is ErrNotFound |
| ListingRepo.WithoutDealer | database/repository/listing/listingMongoCrud.go:112-121 | exactly the listings of other dealers remain |
| ListingRepo.DeleteListingsByDealerId | database/repository/listing/listingMongoCrud.go:112-121 | succeeds whenever the delete call does, even when nothing matched, and leaves only other dealers' listings |
| ListingRepo.DeleteNoneKeepsStore | database/repository/listing/listingMongoCrud.go:112-121 | deleting for a dealer without listings leaves the collection as it was |
| ListingRepo.SameIdsSameFind | database/repository/listing/listingMongoCrud.go:51-66 | in-place updates keep what lookup by id finds |
| ListingRepo.AddBid | database/repository/listing/listingMongoQueries.go:15-47 | the bid gets a fresh id and both timestamps; it is appended only to an open user_bid listing; otherwise ErrNotFound with no change |
| ListingRepo.AcceptBid | database/repository/listing/listingMongoQueries.go:50-99 | both ids must be hex; a session that does not start is "failed to start session"; inside the transaction a failed read, or a listing that is missing, not open or without the bid, is "not found" before the write is tried; a failed write is "failed to accept bid"; success sets status accepted and the accepted bid together and changes nothing else |
| ListingRepo.AcceptedListingIsClosedToBids | database/repository/listing/listingMongoQueries.go:33-35 | after acceptance neither AddBid nor AcceptBid can succeed on that listing |
| ListingService.Notify | services/listing/notify.go:11-48 | a failed send is only logged: the inbox either gains one unread notification to the target with the title and data payload, or stays as it was |
| ListingService.DealerDraft | services/listing/crud.go:29-39 | type dealer, status draft, the dealer id set and the car details copied; the price argument itself is not stored |
| ListingService.Persist | services/listing/crud.go:44-53 | a failed create stores nothing and wraps its error; after a stored create, success exactly when the read-back works, returning the appended listing; a failed read-back is "failed to get listing" (wrapped with the caller's context where it adds one) and the listing stays stored |
| ListingService.FreshIdIsLast | services/listing/crud.go:46-53 | a listing appended under a fresh id is the one found by that id |
| ListingService.CreateDealerListing | services/listing/crud.go:15-66 | an invalid dealer id and a price ≤ 0 are rejected first; the details are validated before anything is stored; a failure never notifies; a failure before the insert changes nothing; a failure after it is the read-back error, with exactly the new draft appended |
| ListingService.DealerListingReloadFailureKeepsInsert | services/listing/crud.go:44-53 | when the insert works and the read-back fails, the caller gets the read error, nobody is notified, and the normalised draft stays appended to the listings |
| ListingService.UserBidDraft | services/listing/userBid.go:23-35 | type user_bid, status open, no bids, no accepted bid, the user id set |
| ListingService.CreateUserBidListing | services/listing/userBid.go:12-63 | an invalid user id is rejected; the details are validated before anything is stored; a failure never notifies; a failure after the insert is "failed to fetch new listing" with exactly the new open user_bid listing appended |
| ListingService.GetListing | services/listing/crud.go:69-82 | invalid hex is rejected; success returns the stored listing with that id |
| ListingService.NotifyBidders | services/listing/crud.go:125-141 | at most one notification per bid, each carrying the listing id and the new price, appended after the existing inbox |
| ListingService.UpdateChecks | services/listing/crud.go:102-111 | an update passes exactly when its car details validate once patched and it carries no "type" key |
| ListingService.WriteUpdate | services/listing/crud.go:112-123 | a failed write changes nothing; a working write stores the update stamped with updatedAt at that listing; success exactly when the write and the read-back work, returning the stored listing; a failed read-back is "failed to get listing" with the write kept |
| ListingService.UpdateListing | services/listing/crud.go:85-144 | the id, the read, the car details and "type" are checked before any write, and a failure there changes nothing; otherwise the stamped update is stored, and the call succeeds exactly when the read-back works, returning that listing with its kind kept |
| ListingService.StatusWriteEffect | services/listing/crud.go:113-116 | writing a named status with its updatedAt stamp stores that status |
| ListingService.DeleteListing | services/listing/crud.go:147-162 | invalid hex is rejected, an accepted listing is refused, otherwise exactly that listing is removed |
| ListingService.PublishListing | services/listing/crud.go:165-194 | the dealer hex is checked first with nothing changed; the listings are exactly what the status update left, so a failed read-back still leaves the listing active; success sets status active; failures never notify |
| ListingService.PublishReloadFailureKeepsStatus | services/listing/crud.go:114-123 | when publishing writes and the read-back fails, the caller gets "failed to get listing", nobody is notified, and the listing is stored active |
| ListingService.CloseListing | services/listing/crud.go:197-244 | only the owner (the dealer of a dealer listing, the user otherwise) may close; a mismatch writes nothing; success sets status closed; a failure after the write leaves that listing closed; failures never notify |
| ListingService.AddBid | services/listing/userBid.go:65-105 | the listing id is checked before the store; a refused push changes nothing; after a stored push, success exactly when the reload works, and a failed reload is "reload listing" with the bid kept; a failure never notifies |
| ListingService.AcceptedBid | services/listing/userBid.go:129-136 | the bid whose id matches, or Go's zero bid when none does |
| ListingService.AcceptBid | services/listing/userBid.go:107-158 | both ids are checked before the store; a refused accept changes nothing; after a stored accept, success exactly when the reload works, and a failed reload keeps the acceptance; success accepts exactly the bid with that id |
| ListingService.CreationIgnoresNotifier | services/listing/crud.go:56-63 | whatever the notifier does, creating a dealer listing returns the same result and the same listings |
| ListingService.UserBidCreationIgnoresNotifier | services/listing/userBid.go:51-59 | whatever the notifier does, creating a user bid listing returns the same result and the same listings |
| ListingService.UpdateIgnoresNotifier | services/listing/crud.go:126-141 | whatever the notifier does, an update returns the same result and listings |
| ListingService.PublishIgnoresNotifier | services/listing/crud.go:182-191 | whatever the notifier does, publishing returns the same result and listings |
| ListingService.CloseIgnoresNotifier | services/listing/crud.go:232-241 | whatever the notifier does, closing returns the same result and listings |
| ListingService.AddBidIgnoresNotifier | services/listing/userBid.go:101-102 | whatever the notifier does, placing a bid returns the same result and listings |
| ListingService.AcceptBidIgnoresNotifier | services/listing/userBid.go:155 | whatever the notifier does, accepting a bid returns the same result and listings |
| ListingService.PublishIgnoresTransitionTable | services/listing/crud.go:175-180 | publishing succeeds from every status, closed and sold included |
| ListingService.CloseIgnoresTransitionTable | services/listing/crud.go:224-229 | the owner can close from every status |
| ListingService.PublishSucceeds | services/listing/crud.go:169-180 | with well-formed ids, an existing listing and a healthy store, publishing always succeeds |
| ListingService.CloseSucceedsForOwner | services/listing/crud.go:202-229 | with well-formed ids, an existing listing, a healthy store and the caller as its owner, closing always succeeds |
| ListingService.StatusUpdateEffect | services/listing/crud.go:175-180 | a successful status-only update returns and stores the listing with exactly that status, and keeps the number of listings |
| FeedRepo.Selected | database/repository/listing/feed.go:12-36 | exactly the visible listings matching the filter |
| FeedRepo.FindPage | database/repository/listing/feed.go:38-41 | a negative offset is a store error; otherwise the window of the sorted input that starts at the offset, at most limit long, empty past the end |
| FeedRepo.MatchesFilter | database/repository/listing/feed.go:13-36 | the feed query: status active or open, make and model matched exactly when given, the year bounds applied when positive; the filter's type and price bounds are never consulted |
| FeedRepo.GetActiveListings | database/repository/listing/feed.go:12-54 | only active or open listings matching make/model exactly and the year bounds, newest first; the page is the window of that order starting at the offset, at most limit long |
| FeedRepo.ActivePagesTile | database/repository/listing/feed.go:38-41 | the page at an offset followed by the next page equals the double-size page at that offset |
| FeedRepo.PriceAndTypeIgnored | database/repository/listing/feed.go:20-36 | the filter's type and price bounds never change the result |
| FeedRepo.SelectedSame | database/repository/listing/feed.go:20-36 | the selection depends only on make, model and the year bounds |
| FeedRepo.TextMatches | database/repository/listing/feed.go:56-81 | exactly the stored listings that are active or open and that the text index matches |
| FeedRepo.TextSearch | database/repository/listing/feed.go:56-81 | fails exactly on a read error or negative offset; success is the window at the offset of the active or open matched listings, best text score first |
| FeedRepo.TextPagesTile | database/repository/listing/feed.go:56-81 | two consecutive search pages concatenate to the double-size page |
| FeedRepo.Distinct | database/repository/listing/feed.go:121-134 | the same values as the input, each exactly once |
| FeedRepo.AnyTextMatches | database/repository/listing/feed.go:83-120 | only stored listings the text index matches, whatever their status |
| FeedRepo.AsSuggestions | database/repository/listing/feed.go:121-134 | one suggestion per value, in order, with the given kind and score |
| FeedRepo.SuggestionsOf | database/repository/listing/feed.go:121-134 | each distinct value becomes exactly one suggestion of that kind and score |
| FeedRepo.GetSearchSuggestions | database/repository/listing/feed.go:83-137 | every make (score 1.0) precedes every model (score 0.8), and every suggestion comes from a matched listing |
| FeedRepo.SuggestionsComeFromMatches | database/repository/listing/feed.go:121-134 | suggestions are drawn from the matched listings' makes and models |
| FeedRepo.SuggestionsCoverMatches | database/repository/listing/feed.go:121-134 | every matched make and model is suggested |
| FeedRepo.AnyTextMatchesComplete | database/repository/listing/feed.go:83-120 | every listing the text index matches is considered |
| FeedService.PrioritizeListings | services/listing/feed.go:67-76 | a permutation of the input sorted by views then creation time, both descending |
| FeedService.FilterActivePromotions | services/listing/feed.go:78-90 | at most 3, each live (from < now < to) and from the input, in input order; a live promotion is dropped only once 3 are kept |
| FeedService.PositionBanners | services/listing/feed.go:92-103 | at most 2, each "top" or "bottom", in input order; a placed banner is dropped only once 2 are kept |
| FeedService.FeedPage | services/listing/feed.go:18-20 | limit 0 becomes 20; nothing else changes |
| FeedService.GetFeed | services/listing/feed.go:17-65 | fails exactly when any of the three sources fails; the listings are the active page reordered by popularity, with filtered promotions and banners |
| FeedService.FeedPageBounded | services/listing/feed.go:18-20 | a feed holds at most the page size (20 when the limit is 0), and every listing is a stored one matching the filter |
| FeedService.WindowNegativeLimit | database/repository/listing/feed.go:38-41 | a negative limit bounds the page by its absolute value |
| FeedService.Search | services/listing/feed.go:105-132 | fails exactly on a read error or a negative offset; an all-space query gives the filtered active listings page, any other query exactly the text search page; failed suggestions become an empty list, otherwise the suggestions of the raw query |
| FeedService.TextSearchIgnoresFilter | services/listing/feed.go:116-120 | with a non-blank query the filter has no effect on the listings |
| ListingHandlers.QueryCount | handlers/listingUtil.go:46-55 | only a positive integer overrides the default |
| Common.ParseInt | handlers/listingUtil.go:47-52 | strconv.Atoi: a parsed value fits in 64 bits and comes from a non-empty string, and a non-empty decimal numeral within range parses to its value |
| ListingHandlers.QueryCountReadsDecimal | handlers/listingUtil.go:46-55 | a positive number written in decimal overrides the default |
| ListingHandlers.Offset | handlers/listingUtil.go:57 | the offset is non-negative and exactly (page-1) multiples of the limit |
| ListingHandlers.OffsetAsWritten | handlers/listingUtil.go:93 | the same product wrapped to 64 bits |
| ListingHandlers.RequestedPage | handlers/listingUtil.go:78-93 | the limit handed on is at least 1 and the offset a non-negative multiple of it |
| ListingHandlers.RequestedPageAsWritten | handlers/listingUtil.go:78-93 | as written the offset is only known to be some 64-bit value |
| ListingHandlers.FeedReply | handlers/listingUtil.go:97-108 | 400 "Invalid filter" for a bad body, 500 with the service's error on a service error, otherwise 200 whose body is the feed the service returned |
| ListingHandlers.GetFeedHandler | handlers/listingUtil.go:74-109 | the corrected handler: an invalid filter is a 400 "Invalid filter" before the service runs; otherwise 200 exactly when the store and both feed sources answer, with the body the feed of the requested page, and a 500 with the service's error otherwise |
| ListingHandlers.GetFeedHandlerAsWritten | handlers/listingUtil.go:74-109 | the handler with the wrapping offset: 400 "Invalid filter" for a bad body; otherwise 200 exactly when the service succeeds at the wrapped page, with that feed as the body, and a 500 with the service's error otherwise |
| ListingHandlers.AsWrittenAgreesWhenInRange | handlers/listingUtil.go:93 | when the product fits in 64 bits both handlers answer the same |
| ListingHandlers.FarFeedPageFails | handlers/listingUtil.go:93 | page 2^62+1 with limit 2 gives offset -2^63 and a 500 |
| ListingHandlers.FarFeedPageServesFirstPage | handlers/listingUtil.go:93 | page 2^62+1 with limit 4 wraps to offset 0 and serves the first page again |
| ListingHandlers.FarFeedPageIsEmpty | handlers/listingUtil.go:93 | the corrected handler answers that far page with an empty feed |
| ListingHandlers.FarRequestedPage | handlers/listingUtil.go:78-93 | page 2^62+1 yields offset 2^62 times the limit |
| ListingHandlers.FeedPastTheEndIsEmpty | services/listing/feed.go:17-65 | a feed requested past the end of the store has no listings |
| ListingHandlers.SearchListingsHandler | handlers/listingUtil.go:39-73 | an unbound filter is a 400 "Invalid filter data" before the search runs; otherwise the search gets the page with the 64-bit wrapping offset, its error is a 500 and its results a 200 |
| ListingHandlers.SearchGetsRequestedPageWhenInRange | handlers/listingUtil.go:43-58 | while (page-1)*limit fits in 64 bits the search gets exactly the requested page |
| ListingHandlers.PublishListingHandler | handlers/listingUtil.go:12-23 | a 200 carries the listing, now active; a 500 never notifies and changes no listing unless the failure came after the stored write; a bad dealer id is a 500 |
| ListingHandlers.PublishErrorAfterStoredWrite | handlers/listingUtil.go:12-23 | a read-back failure after the status write answers 500 with the read error while the listing is stored active |
| ListingHandlers.CloseListingHandler | handlers/listingUtil.go:25-37 | 200 with no body exactly when the close succeeds, the caller counting as a dealer only for the exact value "true"; otherwise a 500 that never notifies and changes no listing unless the failure came after the stored write |
| ListingHandlers.OnlyExactTrueMeansDealer | handlers/listingUtil.go:27 | "True" closes as a user would |
| NotificationRepo.CreateNotification | database/repository/notifications/notifications.go:14-22 | a fresh id, both timestamps and read = false whatever the input; appended at the end |
| NotificationRepo.Mine | database/repository/notifications/notifications.go:25 | exactly the notifications for that recipient and target |
| NotificationRepo.Inbox | database/repository/notifications/notifications.go:25-27 | the same, newest first |
| NotificationRepo.PageOf | database/repository/notifications/notifications.go:28-29 | a negative skip is a store error; otherwise the window of the inbox starting at the skip, at most limit long, empty past the end |
| NotificationRepo.FindByRecipient | database/repository/notifications/notifications.go:24-42 | only that recipient's notifications of that target, newest first, skipping (page-1)*limit and at most limit of them |
| NotificationRepo.PageIsWindow | database/repository/notifications/notifications.go:24-42 | a readable page is the inbox window at (page-1)*limit |
| NotificationRepo.InboxPagesTile | database/repository/notifications/notifications.go:24-42 | page n followed by page n+1 is the double-size window at page n's skip |
| NotificationRepo.FindByRecipientAsWritten | database/repository/notifications/notifications.go:24-42 | the query as written: succeeds exactly when the read works and the wrapped 64-bit skip is not negative, returning newest first the inbox window at that wrapped skip |
| NotificationRepo.FarPageOverflows | database/repository/notifications/notifications.go:28 | page 2^62 with 100 per page makes the skip negative and the query fail |
| NotificationRepo.FarPageIsEmpty | database/repository/notifications/notifications.go:24-42 | the corrected query returns an empty page for it |
| NotificationRepo.FindNotification | database/repository/notifications/notifications.go:47 | the index of a notification with the id, none exactly when absent |
| NotificationRepo.MarkOneRead | database/repository/notifications/notifications.go:44-57 | marks exactly that notification read and stamps it; no match is ErrNoDocuments |
| NotificationRepo.MarkAll | database/repository/notifications/notifications.go:60-64 | the recipient's unread notifications of that target become read; every other item is unchanged |
| NotificationRepo.MarkAllRead | database/repository/notifications/notifications.go:59-66 | succeeds exactly when the write does, with that effect |
| NotificationRepo.MarkAllIdempotent | database/repository/notifications/notifications.go:60-64 | marking everything read a second time changes nothing |
| NotificationService.SendNotification | services/notification/crud.go:34-67 | empty title or body fails before the recipient check; a bad recipient stores nothing; success stores one unread notification with the given fields, data payload included |
| NotificationService.CreateUserNotification | services/notification/crud.go:14-22 | the stored notification targets the user |
| NotificationService.CreateDealerNotification | services/notification/crud.go:24-32 | the stored notification targets the dealer |
| NotificationService.UserAndDealerDifferOnlyInTarget | services/notification/crud.go:14-32 | both variants succeed or fail together and store the same notification apart from the target |
| NotificationService.ClampPage | services/notification/crud.go:91-93 | the page is at least 1, unchanged when already valid |
| NotificationService.ClampLimit | services/notification/crud.go:94-96 | the limit is within [1, 100], unchanged when valid, otherwise 20 |
| NotificationService.FetchNotifications | services/notification/crud.go:81-98 | the corrected query (see Findings): a bad recipient fails; success returns, newest first, the window of the recipient's inbox at the clamped page and limit |
| NotificationService.FetchNotificationsAsWritten | services/notification/crud.go:81-98 | the service as written: a bad recipient fails; success exactly when the read works and the wrapped skip of the clamped page is not negative, returning newest first the inbox window at that wrapped skip |
| NotificationService.FetchAgreesWhenInRange | services/notification/crud.go:81-98 | while the clamped skip fits in 64 bits the service as written and the corrected one give the same answer |
| NotificationService.FarFetchFails | services/notification/crud.go:91-97 | page 2^62 with limit 100 passes the clamps and the service as written fails with a store error |
| NotificationService.FarFetchIsEmpty | services/notification/crud.go:81-98 | the corrected service answers that request with an empty page |
| NotificationService.MarkNotificationRead | services/notification/crud.go:100-112 | invalid hex is reported as an invalid recipient; no document is "not found"; success marks that one read |
| NotificationService.MarkAllNotificationsRead | services/notification/crud.go:114-136 | invalid hex fails; success marks all of the recipient's notifications of the target read |

## Left out

- **Opaque primitives.** bcrypt, token generation, HashToken, ExtractIDsFromToken, uuid and ObjectID generation, and the OTP sender are parameters. The auth-session and OTP helpers in utils are not part of this model; they are modelled as the cache operations their call sites imply.
- **VIN registry.** The HTTP lookup (services/listing/verifyVIN.go) is an oracle from VIN to reply.
- **Time.** The clock is an integer parameter, and one clock value stands for every `time.Now()` read within a call. The source reads the clock separately for createdAt and updatedAt (database/repository/listing/listingMongoCrud.go:23-24, database/repository/listing/listingMongoQueries.go:22-23, database/repository/notifications/notifications.go:16-17, services/notification/crud.go:59-60, services/dealer/utils.go:179-184), so its timestamps can differ by the time between reads where the model's are equal. A TTL is recorded with each cache entry; expiry is modelled as the key being absent.
- **Concurrency.** The parallel feed fetch, the asynchronous view increment, search recording and the read-modify-write race on the device list are not modelled.
- **Store field paths.** Several queries use Mongo field paths that do not match the bson tags:
  - the availability check ("profile.email");
  - the lookup by email ("email");
  - the sign-in and gate projections;
  - the dealer-listing delete ("dealerId" against a string);
  - the bid push ("bids");
  - the accepted-bid filter;
  - dealer ids filtered as strings.

  The model uses the field each query evidently means. GetDealerByEmail is folded into the sign-in lookup result `found`.
- **Access level.** getAccessLevelFromContext reads the request context, but the gate stores the flag in the gin context. So in practice every caller gets partial access. The model takes the context value as a parameter.
- **Dealer updates.** UpdateDealer wraps `$set` twice, once in the service and once in the repository. The model treats the service's document as the set of fields.
- Signin.IssueToken: the device write hands repo.UpdateDealer a document that is already a `$set`, and the repository wraps it in a second one (services/dealer/signin.go:161-167 into database/repository/dealer/dealerMongoCrud.go:35). Whether the server refuses that update or stores a literal "$set" field depends on the server, so the model treats it as the intended device update, gated only by the store-write outcome.
- DealerUtils.RevokeDealerAuthToken: the same double `$set` (services/dealer/utils.go:61-68 into database/repository/dealer/dealerMongoCrud.go:35) is treated as the intended device update.
- Signin.ContinueSignin: the source reads the clock twice, for the enrolled device's login time (signin.go:124) and for the stamp (signin.go:144); the model uses one clock value for both.
- **Sort ties.** Go's sort.Slice is unstable and the store's tie order is unspecified. Orders are stated as sortedness plus permutation, not as one fixed order.
- **Feed sources.** GetPromotions, GetBanners and the repository's SearchListings exist only in interfaces, so they are oracles. A banner's isActive flag is never checked.
- **Notification texts.** Bodies, `%.2f` price formatting and the user/dealer name lookups in bid notifications come from a `compose` parameter. Titles and data payloads are modelled; a payload's values are typed as the update fields are (string, integer, float).
- **Numbers.** Prices, offers, ratings and coordinates are `real`. NaN and float rounding are not modelled.
- **Updates.** An update's effect is tracked only on status, updatedAt and carDetails. Other keys are passed through to the store without being interpreted. Two server-side outcomes of the `$set` are not modelled. The server refuses an update whose "_id" changes the immutable id, which the source reports as "failed to update listing". A non-string "status" is stored as sent and makes later reads of the listing fail to decode. In the model both are a successful write that leaves the tracked fields unchanged.
- **Case and unicode.** ToLower and EqualFold use ASCII case mapping. Byte lengths are exact UTF-8 lengths. The unicode category tables the password check uses are a parameter.
- **Logging.** Logging is not modelled.
- **Out of scope.** Storage, encryption, e-mail and configuration are not part of this model, and neither are the user and listing CRUD handlers.
- ListingValidation.PatchCarDetails: a JSON-decoded "year" is a float64, so the `int` type switch never fires for it. An update therefore keeps the old year during validation, while the store keeps the new one. This is modelled as written and not listed as a finding.
- ListingRepo.StoredCarDetails: a fractional float year is stored as sent, but the driver refuses to decode a non-integral double into the int field, so every later read of that listing fails. The listing collection here holds decoded listings and cannot represent an undecodable one; the model reads such a year as its floor, and its contract promises nothing about fractional years.
- FeedService.PositionBanners: the banner's isActive flag and its placement order are not checked, as in the source.

## Findings

| source | as written | input that shows it | evidently intended | confidence | as-written member | corrected member |
|---|---|---|---|---|---|---|
| middleware/dealerAuth.go:168 | the store fallback compares the token hash with the dealer-level Security.TokenHash, which registration and sign-in never write | the token FinalizeRegistration returns, presented from the registering device when the cache holds no entry for it | compare with the hash stored on the token's own device | not executed | GateFlow.FreshTokenRefused | GateFlow.FreshTokenAcceptedByDevice |
| database/repository/notifications/notifications.go:28 | the skip (page-1)*limit is computed in a 64-bit int and wraps | page 2^62 with limit 100 (fetchNotifications lets any page ≥ 1 through) | an empty page past the end of the inbox | not executed | NotificationRepo.FarPageOverflows | NotificationRepo.FarPageIsEmpty |
| handlers/listingUtil.go:93 | the feed offset (page-1)*limit is computed in a 64-bit int and wraps | page 4611686018427387905 with limit 2 (offset -2^63, a 500), or with limit 4 (offset 0, page 1 served again) | an empty feed page | not executed | ListingHandlers.FarFeedPageServesFirstPage | ListingHandlers.FarFeedPageIsEmpty |

=== FILE: authgate.dfy ===
/** middleware/dealerAuth.go: JWTAuthDealerMiddleware as a decision over one
    request — accept (and set the dealer id), refuse (abort with 401), or
    let the request through unauthenticated when the gate is optional —
    together with the change it makes to the token cache. */
module AuthGate {
  import opened Common
  import opened DealerModels
  import opened Utils
  import opened Environment

  /** What the request context holds under "deviceID". */
  datatype CtxValue = Absent | StrValue(s: string) | OtherValue

  datatype Verdict =
    | Accepted(dealerId: string)
    | Refused(message: string)     // 401 with this error
    | PassThrough                  // optional gate: c.Next() without a dealer

  /** The gate's outcome: the verdict, the final value of
      isDealerFullAccess, and the token cache afterwards. */
  datatype Gate = Gate(verdict: Verdict, fullAccess: bool, cache: Cache)

  /** The token cache client's state for this request: whether a client
      exists, whether its read and writes succeed, and whether the store
      read succeeds. */
  datatype Backend = Backend(cacheUp: bool, cacheReadOk: bool, cacheWriteOk: bool, storeReadOk: bool)

  /** What the request checks establish about the bearer token. */
  datatype Claims = Claims(token: string, dealerId: string, deviceId: string, tokenHash: string)

  /** The RFC 6750 (section 2.1) credential prefix, compared case-sensitively. */
  const BearerPrefix: string := "Bearer "

  /** One hour, the lifetime the gate gives a cached token hash. */
  const AuthTtl: Ttl := Seconds(3600)

  /** The gate's cache key: AuthCachePrefix, the dealer id, ':', the device id. */
  function GateKey(prefix: string, dealerId: string, deviceId: string): string {
    prefix + dealerId + ":" + deviceId
  }

  /** Everything the gate demands of the request before it looks at any
      stored hash, as one conjunction. */
  predicate WellFormedRequest(header: string, ctx: CtxValue, crypto: Crypto) {
    && StartsWith(header, BearerPrefix)
    && var token := header[|BearerPrefix|..];
       && token != ""
       && crypto.extractIds(token).Some?
       && crypto.extractIds(token).value.0 != ""
       && crypto.extractIds(token).value.1 != ""
       && ctx == StrValue(crypto.extractIds(token).value.1)
       && crypto.hashToken(token) != ""
  }

  /** The header carries a non-empty bearer token from which both a dealer
      id and a device id, neither empty, are extracted. */
  predicate IdsPresent(header: string, crypto: Crypto) {
    && StartsWith(header, BearerPrefix) && header != BearerPrefix
    && var ids := crypto.extractIds(header[|BearerPrefix|..]);
       ids.Some? && ids.value.0 != "" && ids.value.1 != ""
  }

  /** Lines 35-129: header, token, ids, device context, device match and
      hash, each failing with its own message. */
  function CheckRequest(header: string, ctx: CtxValue, crypto: Crypto): (r: Result<Claims, string>)
    ensures r.Success? <==> WellFormedRequest(header, ctx, crypto)
    ensures r.Success? ==>
      && header == BearerPrefix + r.value.token
      && crypto.extractIds(r.value.token) == Some((r.value.dealerId, r.value.deviceId))
      && ctx == StrValue(r.value.deviceId)
      && r.value.tokenHash == crypto.hashToken(r.value.token)
    ensures !StartsWith(header, BearerPrefix) ==> r == Failure("Missing or invalid Authorization header")
    ensures header == BearerPrefix ==> r == Failure("Invalid token")
    ensures (StartsWith(header, BearerPrefix) && header != BearerPrefix && !IdsPresent(header, crypto))
            ==> r == Failure("Invalid or missing dealer/device ID")
    ensures IdsPresent(header, crypto) && ctx.Absent? ==> r == Failure("Missing device context")
    ensures IdsPresent(header, crypto) && (ctx.OtherValue? || ctx == StrValue(""))
            ==> r == Failure("Invalid device context")
    ensures (IdsPresent(header, crypto) && ctx == StrValue(crypto.extractIds(header[|BearerPrefix|..]).value.1)
             && crypto.hashToken(header[|BearerPrefix|..]) == "")
            ==> r == Failure("Invalid token hash")
    ensures (StartsWith(header, BearerPrefix) && header != BearerPrefix && ctx.StrValue? && ctx.s != ""
             && crypto.extractIds(header[|BearerPrefix|..]).Some?
             && crypto.extractIds(header[|BearerPrefix|..]).value.0 != ""
             && crypto.extractIds(header[|BearerPrefix|..]).value.1 != ""
             && crypto.extractIds(header[|BearerPrefix|..]).value.1 != ctx.s)
            ==> r == Failure("Device mismatch")
  {
    if !StartsWith(header, BearerPrefix) then Failure("Missing or invalid Authorization header")
    else
      var token := header[|BearerPrefix|..];
      assert header == BearerPrefix + token;
      if token == "" then Failure("Invalid token")
      else match crypto.extractIds(token)
        case None => Failure("Invalid or missing dealer/device ID")
        case Some((dealerId, deviceId)) =>
          if dealerId == "" || deviceId == "" then Failure("Invalid or missing dealer/device ID")
          else match ctx
            case Absent => Failure("Missing device context")
            case OtherValue => Failure("Invalid device context")
            case StrValue(ctxDevice) =>
              if ctxDevice == "" then Failure("Invalid device context")
              else if deviceId != ctxDevice then Failure("Device mismatch")
              else
                var h := crypto.hashToken(token);
                if h == "" then Failure("Invalid token hash")
                else Success(Claims(token, dealerId, deviceId, h))
  }

  /** A failed check: abort with the message, or pass through unauthenticated. */
  function Deny(optional: bool, message: string, cache: Cache): (g: Gate)
    ensures !g.fullAccess && g.cache == cache
    ensures g.verdict == (if optional then PassThrough else Refused(message))
  {
    Gate(if optional then PassThrough else Refused(message), false, cache)
  }

  /** The cache holds exactly this hash under the key and the read works. */
  predicate CacheHit(cache: Cache, b: Backend, key: string, tokenHash: string) {
    b.cacheUp && b.cacheReadOk && key in cache && cache[key].value == TextValue(tokenHash)
  }

  /** Lines 131-190: the cache-first check with the store fallback.
      `stored` is the hash the store fallback compares against, or None
      when the dealer lookup fails. */
  function CheckHash(cache: Cache, prefix: string, c: Claims, b: Backend, optional: bool, stored: Option<string>): (g: Gate)
    ensures g.fullAccess <==> g.verdict.Accepted?
    ensures g.verdict.Accepted? <==> CacheHit(cache, b, GateKey(prefix, c.dealerId, c.deviceId), c.tokenHash) || stored == Some(c.tokenHash)
    ensures g.verdict.Accepted? ==> g.verdict.dealerId == c.dealerId
    ensures optional ==> !g.verdict.Refused?
    ensures !g.verdict.Accepted? ==> g.cache == cache
    ensures CacheHit(cache, b, GateKey(prefix, c.dealerId, c.deviceId), c.tokenHash) ==>
      var key := GateKey(prefix, c.dealerId, c.deviceId);
      g.cache == if b.cacheWriteOk then cache[key := Entry(cache[key].value, AuthTtl)] else cache
    ensures !CacheHit(cache, b, GateKey(prefix, c.dealerId, c.deviceId), c.tokenHash) && stored == Some(c.tokenHash) ==>
      var key := GateKey(prefix, c.dealerId, c.deviceId);
      g.cache == if b.cacheUp && b.cacheWriteOk then cache[key := Entry(TextValue(c.tokenHash), AuthTtl)] else cache
  {
    var key := GateKey(prefix, c.dealerId, c.deviceId);
    if CacheHit(cache, b, key, c.tokenHash) then
      Gate(Accepted(c.dealerId), true, if b.cacheWriteOk then cache[key := Entry(cache[key].value, AuthTtl)] else cache)
    else match stored
      case None => Deny(optional, "Dealer not found", cache)
      case Some(h) =>
        if c.tokenHash != h then Deny(optional, "Token mismatch", cache)
        else Gate(Accepted(c.dealerId), true, if b.cacheUp && b.cacheWriteOk then cache[key := Entry(TextValue(c.tokenHash), AuthTtl)] else cache)
  }

  /** The dealer-level hash the store fallback reads (line 168). */
  function SecurityHash(store: DealerStore, b: Backend, dealerId: string): (r: Option<string>)
    ensures r.Some? <==> b.storeReadOk && dealerId in store
    ensures r.Some? ==> r.value == store[dealerId].security.tokenHash
  {
    if b.storeReadOk && dealerId in store then Some(store[dealerId].security.tokenHash) else None
  }

  /** JWTAuthDealerMiddleware as written. */
  function Authorize(optional: bool, header: string, ctx: CtxValue, cache: Cache, store: DealerStore, prefix: string,
                     b: Backend, crypto: Crypto): (g: Gate)
    ensures g.fullAccess <==> g.verdict.Accepted?
    ensures optional ==> !g.verdict.Refused?
    ensures !g.verdict.Accepted? ==> g.cache == cache
    ensures !WellFormedRequest(header, ctx, crypto) ==> !g.verdict.Accepted?
  {
    match CheckRequest(header, ctx, crypto)
    case Failure(msg) => Deny(optional, msg, cache)
    case Success(c) => CheckHash(cache, prefix, c, b, optional, SecurityHash(store, b, c.dealerId))
  }

  /** The token of a well-formed request and the ids it carries. */
  function TokenOf(header: string): string
    requires StartsWith(header, BearerPrefix)
  {
    header[|BearerPrefix|..]
  }

  /** The gate accepts exactly the well-formed requests whose token hash is
      cached under the dealer/device key or equals the dealer's stored
      Security.TokenHash; it then names the token's dealer. */
  lemma AuthorizeAcceptsIff(optional: bool, header: string, ctx: CtxValue, cache: Cache, store: DealerStore, prefix: string,
                            b: Backend, crypto: Crypto)
    ensures var g := Authorize(optional, header, ctx, cache, store, prefix, b, crypto);
      g.verdict.Accepted? <==>
        && WellFormedRequest(header, ctx, crypto)
        && var t := TokenOf(header);
           var (dealerId, deviceId) := crypto.extractIds(t).value;
           || CacheHit(cache, b, GateKey(prefix, dealerId, deviceId), crypto.hashToken(t))
           || (b.storeReadOk && dealerId in store && store[dealerId].security.tokenHash == crypto.hashToken(t))
    ensures var g := Authorize(optional, header, ctx, cache, store, prefix, b, crypto);
      g.verdict.Accepted? ==> g.verdict.dealerId == crypto.extractIds(TokenOf(header)).value.0
                              && ctx == StrValue(crypto.extractIds(TokenOf(header)).value.1)
  {
    if WellFormedRequest(header, ctx, crypto) {
      var c := CheckRequest(header, ctx, crypto).value;
      assert c.token == TokenOf(header);
    }
  }

  /* ------------------------------------------------- per-device variant */

  /** The hash the store fallback evidently means: the one stored on the
      token's device; a dealer without that device has none (""). */
  function DeviceHash(store: DealerStore, b: Backend, dealerId: string, deviceId: string): (r: Option<string>)
    ensures r.Some? <==> b.storeReadOk && dealerId in store
    ensures r.Some? && r.value != "" ==>
      exists k | 0 <= k < |store[dealerId].devices| ::
        store[dealerId].devices[k].deviceId == deviceId && store[dealerId].devices[k].tokenHash == r.value
  {
    if !(b.storeReadOk && dealerId in store) then None
    else match FindDevice(store[dealerId].devices, deviceId)
      case Some(k) => Some(store[dealerId].devices[k].tokenHash)
      case None => Some("")
  }

  /** The gate with the store fallback comparing the token device's own
      hash, everything else as written. */
  function AuthorizeByDevice(optional: bool, header: string, ctx: CtxValue, cache: Cache, store: DealerStore, prefix: string,
                             b: Backend, crypto: Crypto): (g: Gate)
    ensures g.fullAccess <==> g.verdict.Accepted?
    ensures optional ==> !g.verdict.Refused?
    ensures !g.verdict.Accepted? ==> g.cache == cache
    ensures !WellFormedRequest(header, ctx, crypto) ==> !g.verdict.Accepted?
  {
    match CheckRequest(header, ctx, crypto)
    case Failure(msg) => Deny(optional, msg, cache)
    case Success(c) => CheckHash(cache, prefix, c, b, optional, DeviceHash(store, b, c.dealerId, c.deviceId))
  }
}

=== FILE: common.dfy ===
/** Shared failure-compatible wrappers and the string primitives the Go
    standard library provides to the service code (strings.TrimSpace,
    strings.ToLower, len on a UTF-8 string, strconv.Atoi, "%d"). */
module Common {

  datatype Option<+T> = None | Some(value: T)

  datatype Result<+T, +E> = Success(value: T) | Failure(error: E)

  /** Go's `int` on the 64-bit targets the service is built for. */
  const MinInt64: int := -0x8000_0000_0000_0000
  const MaxInt64: int := 0x7FFF_FFFF_FFFF_FFFF

  const TwoTo64: int := 0x1_0000_0000_0000_0000

  /** The two's-complement wrap-around of a Go `int` expression: the value
      in [MinInt64, MaxInt64] congruent to `x` modulo 2^64. */
  function Wrap64(x: int): (r: int)
    ensures MinInt64 <= r <= MaxInt64
    ensures MinInt64 <= x <= MaxInt64 ==> r == x
    ensures (x - r) % TwoTo64 == 0
  {
    var m := (x - MinInt64) % TwoTo64;
    assert x - MinInt64 == (x - MinInt64) / TwoTo64 * TwoTo64 + m;
    m + MinInt64
  }

  predicate IsDigit(c: char) { '0' <= c <= '9' }
  predicate IsUpperAscii(c: char) { 'A' <= c <= 'Z' }
  predicate IsLowerAscii(c: char) { 'a' <= c <= 'z' }
  predicate IsLetterAscii(c: char) { IsUpperAscii(c) || IsLowerAscii(c) }
  predicate IsHexDigit(c: char) { IsDigit(c) || 'a' <= c <= 'f' || 'A' <= c <= 'F' }

  predicate AllDigits(s: string) { forall i | 0 <= i < |s| :: IsDigit(s[i]) }

  /** strings.HasPrefix: a case-sensitive prefix test. */
  predicate StartsWith(s: string, p: string) { |p| <= |s| && s[..|p|] == p }

  /** unicode.IsSpace: the ASCII white space, NEL, NBSP and the
      White_Space code points outside Latin-1. */
  predicate IsSpace(c: char) {
    var n := c as int;
    || (9 <= n <= 13) || n == 32 || n == 0x85 || n == 0xA0
    || n == 0x1680 || (0x2000 <= n <= 0x200A) || n == 0x2028 || n == 0x2029
    || n == 0x202F || n == 0x205F || n == 0x3000
  }

  /** unicode.ToLower restricted to ASCII; other code points are kept. */
  function LowerChar(c: char): (r: char)
    ensures !IsUpperAscii(r)
    ensures IsLetterAscii(c) <==> IsLetterAscii(r)
    ensures !IsUpperAscii(c) ==> r == c
  {
    if IsUpperAscii(c) then (c as int + 32) as char else c
  }

  function ToLower(s: string): (r: string)
    ensures |r| == |s|
    ensures forall i | 0 <= i < |s| :: r[i] == LowerChar(s[i])
  {
    if |s| == 0 then [] else [LowerChar(s[0])] + ToLower(s[1..])
  }

  lemma {:induction false} ToLowerIdentity(s: string)
    requires forall i | 0 <= i < |s| :: !IsUpperAscii(s[i])
    ensures ToLower(s) == s
  {
    if |s| > 0 {
      ToLowerIdentity(s[1..]);
    }
  }

  function TrimLeft(s: string): (r: string)
    ensures |r| <= |s| && r == s[|s| - |r|..]
    ensures |r| > 0 ==> !IsSpace(r[0])
    ensures forall i | 0 <= i < |s| - |r| :: IsSpace(s[i])
    ensures (forall i | 0 <= i < |s| :: !IsSpace(s[i])) ==> r == s
  {
    if |s| > 0 && IsSpace(s[0]) then
      var r := TrimLeft(s[1..]);
      assert forall i | 1 <= i < |s| - |r| :: s[i] == s[1..][i - 1];
      assert s[1..][|s| - 1 - |r|..] == s[|s| - |r|..];
      r
    else s
  }

  function TrimRight(s: string): (r: string)
    ensures |r| <= |s| && r == s[..|r|]
    ensures |r| > 0 ==> !IsSpace(r[|r| - 1])
    ensures forall i | |r| <= i < |s| :: IsSpace(s[i])
    ensures (forall i | 0 <= i < |s| :: !IsSpace(s[i])) ==> r == s
  {
    if |s| > 0 && IsSpace(s[|s| - 1]) then
      var r := TrimRight(s[..|s| - 1]);
      assert forall i | |r| <= i < |s| - 1 :: s[i] == s[..|s| - 1][i];
      r
    else s
  }

  /** strings.TrimSpace: the longest infix without leading or trailing
      white space that is left once white space is cut from both ends. */
  function TrimSpace(s: string): (r: string)
    ensures |r| <= |s|
    ensures |r| > 0 ==> !IsSpace(r[0]) && !IsSpace(r[|r| - 1])
    ensures (forall i | 0 <= i < |s| :: !IsSpace(s[i])) ==> r == s
  {
    TrimRight(TrimLeft(s))
  }

  /** TrimSpace leaves nothing exactly when the string is all white space. */
  lemma TrimSpaceEmpty(s: string)
    ensures TrimSpace(s) == "" <==> forall i | 0 <= i < |s| :: IsSpace(s[i])
  {
  }

  /** Number of bytes of the UTF-8 encoding of one code point. */
  function Utf8Width(c: char): nat {
    if c as int < 0x80 then 1
    else if c as int < 0x800 then 2
    else if c as int < 0x1_0000 then 3
    else 4
  }

  /** Go's len(s): the byte length of the UTF-8 encoding. */
  function ByteLen(s: string): (n: nat)
    ensures n >= |s|
    ensures n <= 4 * |s|
  {
    if |s| == 0 then 0 else Utf8Width(s[0]) + ByteLen(s[1..])
  }

  function DigitChar(d: nat): (c: char)
    requires d < 10
    ensures IsDigit(c)
  {
    ('0' as int + d) as char
  }

  function DigitValue(c: char): (d: nat)
    requires IsDigit(c)
    ensures d < 10 && DigitChar(d) == c
  {
    c as int - '0' as int
  }

  /** fmt's "%d" for a non-negative integer. */
  function NatToString(n: nat): (r: string)
    ensures |r| > 0 && AllDigits(r)
    ensures |r| > 1 ==> r[0] != '0'
    decreases n
  {
    if n < 10 then [DigitChar(n)] else NatToString(n / 10) + [DigitChar(n % 10)]
  }

  /** Value of a decimal digit string, most significant digit first. */
  function DecimalValue(s: string): nat
    requires AllDigits(s)
  {
    if |s| == 0 then 0 else DecimalValue(s[..|s| - 1]) * 10 + DigitValue(s[|s| - 1])
  }

  /** strconv.Atoi with base 10 on a 64-bit int: an optional sign followed
      by at least one decimal digit, in range. */
  function ParseInt(s: string): (r: Option<int>)
    ensures r.Some? ==> MinInt64 <= r.value <= MaxInt64
    ensures r.Some? ==> |s| > 0
    ensures AllDigits(s) && |s| > 0 && DecimalValue(s) <= MaxInt64 ==> r == Some(DecimalValue(s))
  {
    if |s| == 0 then None
    else
      var neg := s[0] == '-';
      var body := if s[0] == '-' || s[0] == '+' then s[1..] else s;
      if |body| == 0 || !AllDigits(body) then None
      else
        var v := if neg then -(DecimalValue(body) as int) else DecimalValue(body) as int;
        if MinInt64 <= v <= MaxInt64 then Some(v) else None
  }

  lemma {:induction false} DecimalOfNatToString(n: nat)
    ensures DecimalValue(NatToString(n)) == n
    decreases n
  {
    var r := NatToString(n);
    if n >= 10 {
      DecimalOfNatToString(n / 10);
      assert r[..|r| - 1] == NatToString(n / 10);
    }
  }

  /** strconv.Atoi reads back what "%d" prints. */
  lemma ParseIntOfNatToString(n: nat)
    requires n <= MaxInt64
    ensures ParseInt(NatToString(n)) == Some(n)
  {
    DecimalOfNatToString(n);
  }
}

=== FILE: dealer_auth_handler.dfy ===
/** handlers/dealerAuth.go: the HTTP face of registration and sign-in. The
    registration handler reads the device from the request context,
    dispatches on the request's "step" and maps each service outcome to a
    status and a JSON body; the sign-in handler maps sign-in outcomes to
    200 or 401. A failed type assertion panics; gin's recovery middleware
    turns that into an empty 500. */
module DealerAuthHandler {
  import opened Common
  import opened DealerModels
  import opened Utils
  import opened Environment
  import opened Signup
  import opened Signin
  import opened AuthGate

  datatype Body =
    | ErrorBody(error: string)
    | ErrorDetail(error: string, detail: string)
    | StepBody(sessionId: string, status: int, nextStep: string)
    | InvalidStep(error: string, validSteps: seq<string>)
    | AuthBody(response: AuthResponse)
    | OtpPendingBody(error: string, sessionId: string, nextStep: string)
    | Recovered

  datatype Response = Response(status: int, body: Body)

  /** The response together with the cache and store after the request. */
  datatype Handled = Handled(response: Response, cache: Cache, store: DealerStore)

  /** The device fields the device middleware leaves in the request context. */
  datatype DeviceContext = DeviceContext(deviceId: CtxValue, deviceName: CtxValue, ip: CtxValue, location: CtxValue)

  /** DealerRegistrationRequest; the optional parts are the JSON pointers. */
  datatype RegistrationRequest = RegistrationRequest(
    step: string,
    sessionId: string,
    otp: string,
    basicData: Option<BasicData>,
    kypData: Option<KypData>,
    serviceCatalogue: Option<ServiceCatalogue>)

  const ValidSteps: seq<string> := ["basic", "otp", "kyp", "catalogue"]

  const PanicResponse := Response(500, Recovered)

  /** The registering device, or None when one of the four type assertions
      panics (a present non-string value, or an absent IP or location). */
  function RegistrationDevice(ctx: DeviceContext, now: int): (d: Option<Device>)
    ensures d.Some? <==> ctx.deviceId.StrValue? && ctx.deviceName.StrValue? && ctx.ip.StrValue? && ctx.location.StrValue?
    ensures d.Some? ==>
      && d.value.deviceId == ctx.deviceId.s && d.value.deviceName == ctx.deviceName.s
      && d.value.ip == ctx.ip.s && d.value.location == ctx.location.s
      && d.value.creator && d.value.tokenHash == "" && d.value.lastLogin == now
  {
    match (ctx.deviceId, ctx.deviceName, ctx.ip, ctx.location)
    case (StrValue(id), StrValue(name), StrValue(ip), StrValue(loc)) => Some(Device(id, name, ip, loc, "", now, true))
    case _ => None
  }

  /** Whether the request carries what its step needs (lines 52, 78, 106, 134). */
  predicate HasStepFields(req: RegistrationRequest) {
    match req.step
    case "basic" => req.basicData.Some?
    case "otp" => req.sessionId != "" && req.otp != ""
    case "kyp" => req.sessionId != "" && req.kypData.Some?
    case "catalogue" => req.sessionId != "" && req.serviceCatalogue.Some?
    case _ => false
  }

  /** The 400 a step returns when its fields are missing. */
  function MissingFieldsError(step: string): string {
    match step
    case "basic" => "Missing basic registration data"
    case "otp" => "Session ID and OTP required"
    case "kyp" => "Session ID and KYP data required"
    case _ => "Session ID and service catalogue required"
  }

  /** The "basic" arm once its data is present. */
  function BasicStep(req: RegistrationRequest, device: Device, cache: Cache, store: DealerStore, env: Env): (h: Handled)
    requires req.basicData.Some?
    ensures h.store == store
    ensures h.response.status in {200, 400}
    ensures var s := RegisterBasic(cache, store, req.basicData.value, device, env);
      && h.cache == s.cache
      && (h.response.status == 200 <==> s.result.Success?)
      && (s.result.Success? ==> h.response.body == StepBody(s.result.value.0, BasicDoneCode, "otp_verification"))
      && (s.result.Failure? ==> h.response.body == ErrorDetail("Basic registration failed", s.result.error))
  {
    var s := RegisterBasic(cache, store, req.basicData.value, device, env);
    match s.result
    case Failure(e) => Handled(Response(400, ErrorDetail("Basic registration failed", e)), s.cache, store)
    case Success((sid, code)) => Handled(Response(200, StepBody(sid, code, "otp_verification")), s.cache, store)
  }

  /** The "otp" and "kyp" arms once their fields are present. */
  function VerifyStep(req: RegistrationRequest, device: Device, cache: Cache, store: DealerStore, env: Env): (h: Handled)
    requires req.step in {"otp", "kyp"} && HasStepFields(req)
    ensures h.store == store
    ensures h.response.status in {200, 400}
    ensures var s := if req.step == "otp" then VerifyOtp(cache, req.sessionId, device.deviceId, req.otp, env)
                     else VerifyKyp(cache, req.sessionId, req.kypData.value, env);
      && h.cache == s.cache
      && (h.response.status == 200 <==> s.result.Success?)
      && (s.result.Success? ==> h.response.body.StepBody? && h.response.body.sessionId == req.sessionId)
  {
    if req.step == "otp" then
      var s := VerifyOtp(cache, req.sessionId, device.deviceId, req.otp, env);
      match s.result
      case Failure(e) => Handled(Response(400, ErrorDetail("OTP verification failed", e)), s.cache, store)
      case Success(code) => Handled(Response(200, StepBody(req.sessionId, code, "kyp_verification")), s.cache, store)
    else
      var s := VerifyKyp(cache, req.sessionId, req.kypData.value, env);
      match s.result
      case Failure(e) => Handled(Response(400, ErrorDetail("KYP verification failed", e)), s.cache, store)
      case Success(code) => Handled(Response(200, StepBody(req.sessionId, code, "service_catalogue")), s.cache, store)
  }

  /** The "catalogue" arm once its fields are present: 201 with the auth
      response, 500 on failure, and the recovered panic when the service
      aborts. */
  function CatalogueStep(req: RegistrationRequest, cache: Cache, store: DealerStore, env: Env, crypto: Crypto): (h: Handled)
    requires req.serviceCatalogue.Some?
    ensures var f := Finalize(cache, store, req.sessionId, req.serviceCatalogue.value, env, crypto);
      && (f.Aborted? ==> h == Handled(PanicResponse, cache, store))
      && (f.Finalized? ==> h.cache == f.cache && h.store == f.store)
      && (h.response.status == 201 <==> f.Finalized? && f.result.Success?)
      && (f.Finalized? && f.result.Success? ==> h.response.body == AuthBody(f.result.value))
      && (f.Finalized? && f.result.Failure? ==> h.response == Response(500, ErrorDetail("Registration completion failed", f.result.error)))
  {
    match Finalize(cache, store, req.sessionId, req.serviceCatalogue.value, env, crypto)
    case Aborted => Handled(PanicResponse, cache, store)
    case Finalized(Failure(e), c, s) => Handled(Response(500, ErrorDetail("Registration completion failed", e)), c, s)
    case Finalized(Success(resp), c, s) => Handled(Response(201, AuthBody(resp)), c, s)
  }

  /** RegisterDealerHandler. `body` is the bound request, or None when
      binding fails. */
  function RegisterDealerHandler(ctx: DeviceContext, body: Option<RegistrationRequest>, cache: Cache, store: DealerStore,
                                 env: Env, crypto: Crypto): (h: Handled)
    ensures ctx.deviceId.Absent? ==> h == Handled(Response(400, ErrorBody("Missing device ID")), cache, store)
    ensures !ctx.deviceId.Absent? && ctx.deviceName.Absent? ==> h == Handled(Response(400, ErrorBody("Missing device name")), cache, store)
    ensures !ctx.deviceId.Absent? && !ctx.deviceName.Absent? && RegistrationDevice(ctx, env.now).None? ==> h == Handled(PanicResponse, cache, store)
    ensures RegistrationDevice(ctx, env.now).Some? && body.None? ==> h == Handled(Response(400, ErrorBody("Invalid request format")), cache, store)
    ensures RegistrationDevice(ctx, env.now).Some? && body.Some? && body.value.step !in ValidSteps ==>
      h == Handled(Response(400, InvalidStep("Invalid registration step", ValidSteps)), cache, store)
    ensures RegistrationDevice(ctx, env.now).Some? && body.Some? && body.value.step in ValidSteps && !HasStepFields(body.value) ==>
      h == Handled(Response(400, ErrorBody(MissingFieldsError(body.value.step))), cache, store)
    ensures h.cache != cache || h.store != store ==> RegistrationDevice(ctx, env.now).Some? && body.Some? && HasStepFields(body.value)
  {
    if ctx.deviceId.Absent? then Handled(Response(400, ErrorBody("Missing device ID")), cache, store)
    else if ctx.deviceName.Absent? then Handled(Response(400, ErrorBody("Missing device name")), cache, store)
    else match RegistrationDevice(ctx, env.now)
      case None => Handled(PanicResponse, cache, store)
      case Some(device) =>
        match body
        case None => Handled(Response(400, ErrorBody("Invalid request format")), cache, store)
        case Some(req) =>
          if req.step !in ValidSteps then Handled(Response(400, InvalidStep("Invalid registration step", ValidSteps)), cache, store)
          else if !HasStepFields(req) then Handled(Response(400, ErrorBody(MissingFieldsError(req.step))), cache, store)
          else if req.step == "basic" then BasicStep(req, device, cache, store, env)
          else if req.step == "catalogue" then CatalogueStep(req, cache, store, env, crypto)
          else VerifyStep(req, device, cache, store, env)
  }

  /** The handler keeps every stored registration session well formed
      (one device; KYP only after OTP). */
  lemma HandlerKeepsSessionsWellFormed(ctx: DeviceContext, body: Option<RegistrationRequest>, cache: Cache, store: DealerStore,
                                       env: Env, crypto: Crypto)
    requires SessionsWellFormed(cache)
    ensures SessionsWellFormed(RegisterDealerHandler(ctx, body, cache, store, env, crypto).cache)
  {
    var h := RegisterDealerHandler(ctx, body, cache, store, env, crypto);
    if RegistrationDevice(ctx, env.now).Some? && body.Some? && HasStepFields(body.value) {
      var req := body.value;
      var device := RegistrationDevice(ctx, env.now).value;
      match req.step {
        case "basic" => RegisterBasicPreserves(cache, store, req.basicData.value, device, env);
        case "otp" => VerifyOtpPreserves(cache, req.sessionId, device.deviceId, req.otp, env);
        case "kyp" => VerifyKypPreserves(cache, req.sessionId, req.kypData.value, env);
        case "catalogue" => FinalizePreserves(cache, store, req.sessionId, req.serviceCatalogue.value, env, crypto);
      }
    }
  }

  /** While sessions are well formed, the only panics are the device
      context's type assertions: finalisation always has a device to
      issue the first token for. */
  lemma NoPanicOnceDeviceIsRead(ctx: DeviceContext, body: Option<RegistrationRequest>, cache: Cache, store: DealerStore,
                                env: Env, crypto: Crypto)
    requires SessionsWellFormed(cache)
    requires RegistrationDevice(ctx, env.now).Some?
    ensures RegisterDealerHandler(ctx, body, cache, store, env, crypto).response != PanicResponse
  {
    if body.Some? && body.value.step == "catalogue" && HasStepFields(body.value) {
      var req := body.value;
      FinalizePreserves(cache, store, req.sessionId, req.serviceCatalogue.value, env, crypto);
    }
  }

  /** The registration handler answers 200, 201, 400 or 500 only. */
  lemma RegistrationStatuses(ctx: DeviceContext, body: Option<RegistrationRequest>, cache: Cache, store: DealerStore,
                             env: Env, crypto: Crypto)
    ensures RegisterDealerHandler(ctx, body, cache, store, env, crypto).response.status in {200, 201, 400, 500}
  {
  }

  /** 201 is the catalogue step's success and nothing else. */
  lemma CreatedOnlyByCatalogue(ctx: DeviceContext, body: Option<RegistrationRequest>, cache: Cache, store: DealerStore,
                               env: Env, crypto: Crypto)
    ensures var h := RegisterDealerHandler(ctx, body, cache, store, env, crypto);
      h.response.status == 201 ==> body.Some? && body.value.step == "catalogue" && h.response.body.AuthBody?
  {
  }

  /** Every 200 is the success of one of the first three steps. */
  lemma OkOnlyFromEarlySteps(ctx: DeviceContext, body: Option<RegistrationRequest>, cache: Cache, store: DealerStore,
                             env: Env, crypto: Crypto)
    ensures var h := RegisterDealerHandler(ctx, body, cache, store, env, crypto);
      h.response.status == 200 ==> body.Some? && body.value.step in {"basic", "otp", "kyp"} && h.response.body.StepBody?
  {
  }

  /* --------------------------------------------------------------- sign-in */

  /** The sign-in body after binding ("required,email" on email,
      "required" on password). */
  datatype SigninRequest = SigninRequest(email: string, password: string, sessionId: string)

  /** gin's GetString: the string stored under the key, or "". */
  function ContextString(v: CtxValue): (s: string)
    ensures v.StrValue? ==> s == v.s
    ensures !v.StrValue? ==> s == ""
  {
    match v
    case StrValue(s) => s
    case _ => ""
  }

  /** Sign-in outcomes as responses: 200 with the auth response, 401 with
      the session id for a pending OTP, a plain 401 otherwise. */
  function SigninResponse(o: SigninOutcome): (r: Response)
    ensures r.status == 200 <==> o.Authenticated?
    ensures !o.Authenticated? ==> r.status == 401
    ensures o.OtpPending? ==> r.body == OtpPendingBody(OtpPendingMessage, o.sessionId, "otp_verification")
    ensures o.Rejected? ==> r.body == ErrorBody(o.reason)
  {
    match o
    case Authenticated(resp) => Response(200, AuthBody(resp))
    case OtpPending(sid) => Response(401, OtpPendingBody(OtpPendingMessage, sid, "otp_verification"))
    case Rejected(reason) => Response(401, ErrorBody(reason))
  }

  /** AuthenticateDealerHandler. */
  function AuthenticateDealerHandler(ctx: DeviceContext, body: Option<SigninRequest>, cache: Cache, store: DealerStore,
                                     prefix: string, found: Option<string>, env: Env, crypto: Crypto): (h: Handled)
    requires body.Some? ==> LookupAgrees(store, body.value.email, found)
    ensures body.None? ==> h == Handled(Response(400, ErrorBody("Invalid request format")), cache, store)
    ensures h.response.status in {200, 400, 401}
    ensures h.response.status != 200 ==> h.store == store
    ensures body.Some? ==>
      var device := Device(ContextString(ctx.deviceId), ContextString(ctx.deviceName), ContextString(ctx.ip),
                           ContextString(ctx.location), "", env.now, false);
      var s := AuthenticateDealer(store, cache, prefix, body.value.email, body.value.password, device,
                                  body.value.sessionId, found, env, crypto);
      h == Handled(SigninResponse(s.outcome), s.cache, s.store)
  {
    match body
    case None => Handled(Response(400, ErrorBody("Invalid request format")), cache, store)
    case Some(req) =>
      var device := Device(ContextString(ctx.deviceId), ContextString(ctx.deviceName), ContextString(ctx.ip),
                           ContextString(ctx.location), "", env.now, false);
      var s := AuthenticateDealer(store, cache, prefix, req.email, req.password, device, req.sessionId, found, env, crypto);
      Handled(SigninResponse(s.outcome), s.cache, s.store)
  }
}

=== FILE: dealer_crud.dfy ===
/** services/dealer/crud.go: updating, reading and deleting dealers. The
    dealer collection is seen here as raw documents (field name to value),
    because updates and projections work on field names; the store's
    replies are parameters. */
module DealerCrud {
  import opened Common
  import opened ListingModels
  import opened ListingRepo

  /** A document value; `Stamp` is a time. Sub-documents are values too, so
      a top-level `$set` of "profile" replaces the whole profile. */
  datatype Bson = Text(s: string) | Stamp(t: int) | Doc(fields: map<string, Bson>) | Scalar(tag: string)

  type Document = map<string, Bson>

  /** The dealers collection keyed by `_id`. */
  type DealerDocs = map<string, Document>

  /** The keys UpdateDealer strips from a client's update. */
  const ProtectedKeys: set<string> := {"_id", "email", "createdAt", "slug"}

  /** The `$set` document UpdateDealer sends: the protected keys removed,
      "updatedAt" set to now, every other key passed through unchanged. */
  function Sanitize(updates: Document, now: int): (r: Document)
    ensures forall k | k in ProtectedKeys :: k !in r
    ensures "updatedAt" in r && r["updatedAt"] == Stamp(now)
    ensures forall k | k in updates && k !in ProtectedKeys && k != "updatedAt" :: k in r && r[k] == updates[k]
    ensures forall k | k in r :: k == "updatedAt" || (k in updates && k !in ProtectedKeys)
  {
    (map k | k in updates && k !in ProtectedKeys :: updates[k])["updatedAt" := Stamp(now)]
  }

  /** `$set` on one document: the given top-level fields are replaced or
      added, the others kept. */
  function SetFields(doc: Document, fields: Document): (r: Document)
    ensures forall k | k in fields :: k in r && r[k] == fields[k]
    ensures forall k | k in doc && k !in fields :: k in r && r[k] == doc[k]
    ensures r.Keys == doc.Keys + fields.Keys
  {
    doc + fields
  }

  /** getAccessLevelFromContext: the context value "isDealerFullAccess".
      Absent means partial access; a value that is not a boolean makes the
      type assertion panic, written None. */
  datatype ContextValue = Missing | BoolValue(b: bool) | NonBool

  function AccessLevel(v: ContextValue): (r: Option<bool>)
    ensures r.None? <==> v.NonBool?
    ensures r == Some(true) <==> v == BoolValue(true)
  {
    match v
    case Missing => Some(false)
    case BoolValue(b) => Some(b)
    case NonBool => None
  }

  /** buildDealerProjection: an exclusion of "security" for full access, an
      inclusion of "_id", "profile" and "store" otherwise. */
  datatype Projection = Excluding(fields: set<string>) | Including(fields: set<string>)

  function DealerProjection(fullAccess: bool): (p: Projection)
    ensures fullAccess <==> p.Excluding?
  {
    if fullAccess then Excluding({"security"}) else Including({"_id", "profile", "store"})
  }

  /** What a projection lets through of a document; `_id` is always kept
      by an inclusion. */
  function Project(doc: Document, p: Projection): (r: Document)
    ensures r.Keys <= doc.Keys
    ensures forall k | k in r :: r[k] == doc[k]
    ensures p.Excluding? ==> forall k | k in doc :: k in r <==> k !in p.fields
    ensures p.Including? ==> forall k | k in doc :: k in r <==> (k in p.fields || k == "_id")
  {
    match p
    case Excluding(fs) => map k | k in doc && k !in fs :: doc[k]
    case Including(fs) => map k | k in doc && (k in fs || k == "_id") :: doc[k]
  }

  /** Neither access level ever exposes the credentials; full access
      exposes everything else, partial access only the identity, profile
      and store. */
  lemma ProjectionHidesSecurity(doc: Document, fullAccess: bool)
    ensures "security" !in Project(doc, DealerProjection(fullAccess))
    ensures fullAccess ==> forall k | k in doc && k != "security" :: k in Project(doc, DealerProjection(fullAccess))
    ensures !fullAccess ==> Project(doc, DealerProjection(fullAccess)).Keys <= {"_id", "profile", "store"}
  {
  }

  datatype DealerError =
    | NotFound(cause: string)          // ErrDealerNotFound wrapping the store's error
    | UpdateFailed                     // "failed to update dealer: %w"
    | ListFailed                       // "failed to list dealers: %w"
    | ListingsNotDeleted(listingCause: ListingError) // "failed to delete listings for dealer: %w"
    | DealerNotDeleted(cause: string)  // "failed to delete dealer: %w"
    | Panic                            // the access-level type assertion failed

  /** GetDealer: the dealer's document through the caller's projection.
      Any store error, a failed read as much as a missing dealer, comes
      back as ErrDealerNotFound wrapping that error. */
  function GetDealer(docs: DealerDocs, id: string, ctx: ContextValue, readOk: bool): (r: Result<Document, DealerError>)
    ensures ctx.NonBool? ==> r == Failure(Panic)
    ensures !ctx.NonBool? ==> (r.Success? <==> readOk && id in docs)
    ensures !ctx.NonBool? && !readOk ==> r == Failure(NotFound("store read failed"))
    ensures !ctx.NonBool? && readOk && id !in docs ==> r == Failure(NotFound("mongo: no documents in result"))
    ensures r.Success? ==> "security" !in r.value && r.value.Keys <= docs[id].Keys
    ensures r.Success? ==> forall k | k in r.value :: r.value[k] == docs[id][k]
    ensures r.Success? && ctx == BoolValue(true) ==> forall k | k in docs[id] :: k in r.value <==> k != "security"
    ensures r.Success? && ctx != BoolValue(true) ==>
      forall k | k in docs[id] :: k in r.value <==> k in {"_id", "profile", "store"}
  {
    match AccessLevel(ctx)
    case None => Failure(Panic)
    case Some(full) =>
      if !readOk then Failure(NotFound("store read failed"))
      else if id !in docs then Failure(NotFound("mongo: no documents in result"))
      else
        ProjectionHidesSecurity(docs[id], full);
        Success(Project(docs[id], DealerProjection(full)))
  }

  /** UpdateDealer: the sanitised `$set` applied to the dealer's document,
      then the dealer read back. A missing dealer matches nothing, so the
      update succeeds and the read-back reports it missing; a failed
      read-back is an error although the update is stored. */
  function UpdateDealer(docs: DealerDocs, id: string, updates: Document, now: int, writeOk: bool, readOk: bool,
                        ctx: ContextValue)
    : (r: (Result<Document, DealerError>, DealerDocs))
    ensures !writeOk ==> r == (Failure(UpdateFailed), docs)
    ensures writeOk ==> r.1.Keys == docs.Keys
    ensures writeOk && id in docs ==>
      && (forall k | k in ProtectedKeys && k in docs[id] :: k in r.1[id] && r.1[id][k] == docs[id][k])
      && "updatedAt" in r.1[id] && r.1[id]["updatedAt"] == Stamp(now)
    ensures forall other | other in docs && other != id :: other in r.1 && r.1[other] == docs[other]
    ensures writeOk ==> r.0 == GetDealer(r.1, id, ctx, readOk)
  {
    if !writeOk then (Failure(UpdateFailed), docs)
    else
      var set' := Sanitize(updates, now);
      var docs' := if id in docs then docs[id := SetFields(docs[id], set')] else docs;
      (GetDealer(docs', id, ctx, readOk), docs')
  }

  /** The protected keys are top-level names only: a client's "profile"
      still replaces the profile, and with it the nested slug and email. */
  lemma ProfileIsNotProtected(docs: DealerDocs, id: string, profile: Bson, now: int, ctx: ContextValue)
    requires id in docs
    ensures UpdateDealer(docs, id, map["profile" := profile], now, true, true, ctx).1[id]["profile"] == profile
  {
    var u: Document := map["profile" := profile];
    assert "profile" in u && "profile" !in ProtectedKeys;
  }

  /** Updating twice with the same fields at the same time is the same as
      updating once. */
  lemma UpdateIdempotent(docs: DealerDocs, id: string, updates: Document, now: int, ctx: ContextValue)
    ensures var once := UpdateDealer(docs, id, updates, now, true, true, ctx);
      UpdateDealer(once.1, id, updates, now, true, true, ctx) == once
  {
    var once := UpdateDealer(docs, id, updates, now, true, true, ctx);
    if id in docs {
      var s := Sanitize(updates, now);
      assert SetFields(SetFields(docs[id], s), s) == SetFields(docs[id], s);
      assert once.1[id := SetFields(once.1[id], s)] == once.1;
    }
  }

  /** ListDealers: every dealer through the caller's projection, in some
      order; documents that do not decode are skipped by the store. */
  function ListDealers(docs: DealerDocs, ctx: ContextValue, readOk: bool): (r: Result<set<Document>, DealerError>)
    ensures ctx.NonBool? ==> r == Failure(Panic)
    ensures !ctx.NonBool? ==> (r.Success? <==> readOk)
    ensures r.Success? ==> forall d | d in r.value :: "security" !in d
    ensures r.Success? ==> forall id | id in docs :: Project(docs[id], DealerProjection(AccessLevel(ctx).value)) in r.value
  {
    match AccessLevel(ctx)
    case None => Failure(Panic)
    case Some(full) =>
      if !readOk then Failure(ListFailed)
      else
        var p := DealerProjection(full);
        var all := set id | id in docs :: Project(docs[id], p);
        assert forall d | d in all :: "security" !in d by {
          forall d | d in all ensures "security" !in d {
            var id :| id in docs && d == Project(docs[id], p);
            ProjectionHidesSecurity(docs[id], full);
          }
        }
        Success(all)
  }

  /** Reading one dealer and listing them all use the same projection: the
      document GetDealer returns is among the ones ListDealers returns. */
  lemma GetDealerIsListed(docs: DealerDocs, id: string, ctx: ContextValue)
    requires GetDealer(docs, id, ctx, true).Success?
    ensures ListDealers(docs, ctx, true).Success?
    ensures GetDealer(docs, id, ctx, true).value in ListDealers(docs, ctx, true).value
  {
  }

  /** DeleteDealer: the dealer's listings first, then the dealer. A failed
      listings delete leaves both collections as they were; a failed dealer
      delete comes after the listings are already gone. */
  function DeleteDealer(listings: ListingStore, docs: DealerDocs, id: string, listingsOk: bool, dealerOk: bool)
    : (r: (Result<(), DealerError>, ListingStore, DealerDocs))
    ensures !listingsOk ==> r.0.Failure? && r.0.error.ListingsNotDeleted? && r.1 == listings && r.2 == docs
    ensures listingsOk ==> forall l | l in r.1 :: !OwnedByDealer(l, id)
    ensures listingsOk ==> forall l | l in listings && !OwnedByDealer(l, id) :: l in r.1
    ensures listingsOk && !dealerOk ==> r.0 == Failure(DealerNotDeleted("delete failed")) && r.2 == docs
    ensures listingsOk && dealerOk ==>
      (r.0.Success? <==> id in docs) && r.2 == docs - {id}
    ensures listingsOk && dealerOk && id !in docs ==> r.0 == Failure(DealerNotDeleted("dealer not found"))
    ensures r.0.Success? ==> id !in r.2 && forall l | l in r.1 :: !OwnedByDealer(l, id)
  {
    match DeleteListingsByDealerId(listings, id, listingsOk)
    case Failure(e) => (Failure(ListingsNotDeleted(e)), listings, docs)
    case Success(rest) =>
      if !dealerOk then (Failure(DealerNotDeleted("delete failed")), rest, docs)
      else if id !in docs then (Failure(DealerNotDeleted("dealer not found")), rest, docs)
      else (Success(()), rest, docs - {id})
  }
}

=== FILE: dealer_models.dfy ===
/** The dealer records of models/dealer.go and models/dealerReg.go, with the
    fields the authentication and onboarding logic reads or writes.
    Timestamps are integers supplied by the caller; float64 fields are
    reals. */
module DealerModels {
  import opened Common

  datatype GeoPoint = GeoPoint(kind: string, coordinates: seq<real>)

  datatype BasicData = BasicData(
    dealerName: string,
    email: string,
    password: string,
    phoneNumber: string,
    address: string,
    locationGeo: GeoPoint,
    city: string)

  datatype KypData = KypData(legalName: string, documentUrl: string, selfieUrl: string)

  datatype Service = Service(name: string, description: string, iconUrl: string, isFeatured: bool)

  datatype ServiceCatalogue = ServiceCatalogue(services: seq<Service>)

  datatype Device = Device(
    deviceId: string,
    deviceName: string,
    ip: string,
    location: string,
    tokenHash: string,
    lastLogin: int,
    creator: bool)

  /** The transient record of a registration in progress. */
  datatype RegistrationSession = RegistrationSession(
    tempId: string,
    basicData: BasicData,
    kypData: KypData,
    serviceCatalogue: ServiceCatalogue,
    otpStatus: string,
    verificationStatus: string,
    verificationLevel: string,
    createdAt: int,
    lastUpdatedAt: int,
    devices: seq<Device>)

  datatype Contact = Contact(email: string, phone: string, whatsApp: string)

  datatype Location = Location(address: string, city: string, geoPoint: GeoPoint)

  datatype Profile = Profile(
    dealerName: string,
    slug: string,
    contact: Contact,
    location: Location,
    rating: real)

  datatype Branding = Branding(primaryColor: string, secondaryColor: string, fontFamily: string)

  datatype Store = Store(serviceCatalog: ServiceCatalogue, branding: Branding)

  datatype Security = Security(passwordHash: string, tokenHash: string)

  datatype Verification = Verification(
    level: string,
    documents: seq<string>,
    status: string,
    verifiedAt: int)

  datatype Dealer = Dealer(
    id: string,
    profile: Profile,
    store: Store,
    security: Security,
    verification: Verification,
    createdAt: int,
    updatedAt: int,
    devices: seq<Device>)

  /** What sign-in and finalization return to the client. */
  datatype AuthResponse = AuthResponse(id: string, token: string, profile: Profile, createdAt: int)

  /** The durable dealer collection, keyed by dealer id. */
  type DealerStore = map<string, Dealer>

  /** Go zero values of the nested records. */
  const NoGeo := GeoPoint("", [])
  const NoKyp := KypData("", "", "")
  const NoCatalogue := ServiceCatalogue([])
  const NoSecurity := Security("", "")
  const NoProfile := Profile("", "", Contact("", "", ""), Location("", "", NoGeo), 0.0)
  const NoStore := Store(NoCatalogue, Branding("", "", ""))
  const NoVerification := Verification("", [], "", 0)

  /** Maximum number of devices sign-in enrols (services/dealer/signin.go). */
  const MaxDevices: nat := 3

  /** Device ids occur at most once in the list. */
  ghost predicate DistinctDeviceIds(devices: seq<Device>) {
    forall i, j | 0 <= i < j < |devices| :: devices[i].deviceId != devices[j].deviceId
  }

  predicate HasDevice(devices: seq<Device>, id: string) {
    exists i | 0 <= i < |devices| :: devices[i].deviceId == id
  }

  /** Index of the first device with the given id, as the `for ... break`
      loops of the dealer service find it. */
  function FindDevice(devices: seq<Device>, id: string): (r: Option<nat>)
    ensures r.Some? ==> r.value < |devices| && devices[r.value].deviceId == id
    ensures r.Some? ==> forall k | 0 <= k < r.value :: devices[k].deviceId != id
    ensures r.None? <==> !HasDevice(devices, id)
  {
    if |devices| == 0 then None
    else if devices[0].deviceId == id then Some(0)
    else
      match FindDevice(devices[1..], id)
      case None => None
      case Some(k) => Some(k + 1)
  }
}

=== FILE: dealer_utils.dfy ===
/** services/dealer/utils.go: the slug helpers, the basic-registration
    validator, the per-device token helpers, token revocation and the
    construction of a dealer from a finished registration session. */
module DealerUtils {
  import opened Common
  import opened Sequences
  import opened DealerModels
  import opened Utils

  /* ---------------------------------------------------------------- slugs */

  function ReplaceSpaces(s: string): (r: string)
    ensures |r| == |s|
    ensures forall i | 0 <= i < |s| :: r[i] == (if s[i] == ' ' then '-' else s[i])
  {
    if |s| == 0 then [] else [if s[0] == ' ' then '-' else s[0]] + ReplaceSpaces(s[1..])
  }

  /** The characters the pattern `[^\w-]` spares: RE2's `\w` is ASCII. */
  predicate IsWordOrHyphen(c: char) { IsLetterAscii(c) || IsDigit(c) || c == '_' || c == '-' }

  /** What can appear in a generated slug. */
  predicate IsSlugChar(c: char) { IsLowerAscii(c) || IsDigit(c) || c == '_' || c == '-' }

  /** generateSlug: trim, turn spaces into hyphens, lower-case, then drop
      every character outside `\w` and '-'. */
  function GenerateSlug(name: string): (r: string)
    ensures forall i | 0 <= i < |r| :: IsSlugChar(r[i])
    ensures |r| <= |name|
  {
    var hyphenated := ReplaceSpaces(TrimSpace(name));
    var lowered := ToLower(hyphenated);
    assert forall j | 0 <= j < |lowered| :: !IsUpperAscii(lowered[j]) by {
      forall j | 0 <= j < |lowered|
        ensures !IsUpperAscii(lowered[j])
      {
        assert lowered[j] == LowerChar(hyphenated[j]);
      }
    }
    var r := Filter(lowered, IsWordOrHyphen);
    assert forall i | 0 <= i < |r| :: IsSlugChar(r[i]) by {
      forall i | 0 <= i < |r|
        ensures IsSlugChar(r[i])
      {
        assert r[i] in lowered && IsWordOrHyphen(r[i]);
        var j :| 0 <= j < |lowered| && lowered[j] == r[i];
      }
    }
    r
  }

  /** Trimming, hyphenation and lower-casing leave slug characters alone. */
  lemma SlugStepsFix(s: string)
    requires forall i | 0 <= i < |s| :: IsSlugChar(s[i])
    ensures ToLower(ReplaceSpaces(TrimSpace(s))) == s
  {
    NoSpaceInSlug(s);
    var replaced := ReplaceSpaces(s);
    assert forall i | 0 <= i < |s| :: replaced[i] == s[i];
    assert replaced == s;
    ToLowerIdentity(s);
  }

  lemma NoSpaceInSlug(s: string)
    requires forall i | 0 <= i < |s| :: IsSlugChar(s[i])
    ensures TrimSpace(s) == s
  {
    forall i | 0 <= i < |s|
      ensures !IsSpace(s[i])
    {
      assert IsSlugChar(s[i]);
    }
  }

  /** A slug is a fixed point of generateSlug. */
  lemma GenerateSlugIdempotent(name: string)
    ensures GenerateSlug(GenerateSlug(name)) == GenerateSlug(name)
  {
    var s := GenerateSlug(name);
    SlugStepsFix(s);
    assert forall i | 0 <= i < |s| :: IsWordOrHyphen(s[i]) by {
      forall i | 0 <= i < |s|
        ensures IsWordOrHyphen(s[i])
      {
        assert IsSlugChar(s[i]);
      }
    }
    FilterKeepsAll(s, IsWordOrHyphen);
  }

  /** Reply of the store to GetDealerBySlug. */
  datatype SlugLookup = SlugFound | SlugNotFound | SlugLookupFailed

  /** The k-th slug ensureUniqueSlug tries: the base, then "base-k". */
  function SlugCandidate(base: string, k: nat): string {
    if k == 0 then base else base + "-" + NatToString(k)
  }

  /** ensureUniqueSlug: probe base, base-1, ..., base-10 and return the first
      candidate the store does not report as taken. Any lookup error, not
      only "not found", counts as free. */
  method EnsureUniqueSlug(lookup: string -> SlugLookup, base: string) returns (r: Result<string, string>)
    ensures r.Success? ==>
      exists k | 0 <= k <= 10 :: r.value == SlugCandidate(base, k)
        && !lookup(SlugCandidate(base, k)).SlugFound?
        && forall j | 0 <= j < k :: lookup(SlugCandidate(base, j)).SlugFound?
    ensures r.Failure? <==> forall k | 0 <= k <= 10 :: lookup(SlugCandidate(base, k)).SlugFound?
    ensures r.Failure? ==> r.error == "failed to generate unique slug after 10 attempts"
  {
    var slug := base;
    var i := 1;
    while true
      invariant 1 <= i <= 11
      invariant slug == SlugCandidate(base, i - 1)
      invariant forall j | 0 <= j < i - 1 :: lookup(SlugCandidate(base, j)).SlugFound?
      decreases 11 - i
    {
      if !lookup(slug).SlugFound? {
        return Success(slug);
      }
      slug := base + "-" + NatToString(i);
      if i > 10 {
        return Failure("failed to generate unique slug after 10 attempts");
      }
      i := i + 1;
    }
  }

  /* ----------------------------------------------------------- validation */

  predicate IsEmailLocalChar(c: char) {
    IsLetterAscii(c) || IsDigit(c) || c == '.' || c == '_' || c == '%' || c == '+' || c == '-'
  }

  predicate IsEmailDomainChar(c: char) { IsLetterAscii(c) || IsDigit(c) || c == '.' || c == '-' }

  /** `^[a-zA-Z0-9._%+-]+@[a-zA-Z0-9.-]+\.[a-zA-Z]{2,}$`: a non-empty local
      part, '@', a non-empty domain, '.', and at least two letters. */
  predicate MatchesEmailPattern(s: string) {
    exists at, dot | 0 < at && at + 1 < dot && dot + 2 < |s| ::
      && s[at] == '@' && s[dot] == '.'
      && (forall k | 0 <= k < at :: IsEmailLocalChar(s[k]))
      && (forall k | at < k < dot :: IsEmailDomainChar(s[k]))
      && (forall k | dot < k < |s| :: IsLetterAscii(s[k]))
  }

  /** `^\+?[0-9]{7,14}$`. */
  predicate MatchesPhonePattern(s: string) {
    var d := if |s| > 0 && s[0] == '+' then s[1..] else s;
    7 <= |d| <= 14 && AllDigits(d)
  }

  predicate ContainsUpperAscii(s: string) { exists i | 0 <= i < |s| :: IsUpperAscii(s[i]) }
  predicate ContainsDigit(s: string) { exists i | 0 <= i < |s| :: IsDigit(s[i]) }

  predicate IsPointPair(g: GeoPoint) { g.kind == "Point" && |g.coordinates| == 2 }

  /** GeoJSON order: longitude first, latitude second. */
  predicate InCoordinateRange(g: GeoPoint)
    requires IsPointPair(g)
  {
    var lat, lng := g.coordinates[1], g.coordinates[0];
    -90.0 <= lat <= 90.0 && -180.0 <= lng <= 180.0
  }

  /** The dealer-name rules: present after trimming, at most 100 bytes. */
  predicate NameOk(b: BasicData) { TrimSpace(b.dealerName) != "" && ByteLen(b.dealerName) <= 100 }

  /** The password rules: 8 bytes, an ASCII capital and a digit. */
  predicate PasswordOk(b: BasicData) {
    ByteLen(b.password) >= 8 && ContainsUpperAscii(b.password) && ContainsDigit(b.password)
  }

  /** Everything validateBasicRegistrationData demands, as one predicate. */
  predicate BasicDataValid(b: BasicData) {
    && NameOk(b)
    && MatchesEmailPattern(b.email)
    && PasswordOk(b)
    && MatchesPhonePattern(b.phoneNumber)
    && ByteLen(b.address) >= 10
    && IsPointPair(b.locationGeo) && InCoordinateRange(b.locationGeo)
  }

  /** validateBasicRegistrationData: the first failing check's message, or
      None when every check passes. */
  function ValidateBasicRegistrationData(b: BasicData): (err: Option<string>)
    ensures err.None? <==> BasicDataValid(b)
    ensures TrimSpace(b.dealerName) == "" ==> err == Some("dealer name required")
    ensures TrimSpace(b.dealerName) != "" && ByteLen(b.dealerName) <= 100 && !MatchesEmailPattern(b.email)
      ==> err == Some("invalid email format")
    ensures ByteLen(b.password) < 8 && err.Some? ==>
      err.value in {"dealer name required", "dealer name too long (max 100 chars)", "invalid email format",
                    "password must be at least 8 characters"}
    ensures err == Some("invalid geolocation coordinates") ==> IsPointPair(b.locationGeo)
    ensures TrimSpace(b.dealerName) != "" && ByteLen(b.dealerName) > 100 ==> err == Some("dealer name too long (max 100 chars)")
    ensures NameOk(b) && MatchesEmailPattern(b.email) && ByteLen(b.password) < 8
      ==> err == Some("password must be at least 8 characters")
    ensures NameOk(b) && MatchesEmailPattern(b.email) && ByteLen(b.password) >= 8 && !ContainsUpperAscii(b.password)
      ==> err == Some("password must contain uppercase letter")
    ensures NameOk(b) && MatchesEmailPattern(b.email) && ByteLen(b.password) >= 8 && ContainsUpperAscii(b.password)
            && !ContainsDigit(b.password)
      ==> err == Some("password must contain number")
    ensures NameOk(b) && MatchesEmailPattern(b.email) && PasswordOk(b) && !MatchesPhonePattern(b.phoneNumber)
      ==> err == Some("invalid phone number format")
    ensures NameOk(b) && MatchesEmailPattern(b.email) && PasswordOk(b) && MatchesPhonePattern(b.phoneNumber)
            && ByteLen(b.address) < 10
      ==> err == Some("address too short")
    ensures NameOk(b) && MatchesEmailPattern(b.email) && PasswordOk(b) && MatchesPhonePattern(b.phoneNumber)
            && ByteLen(b.address) >= 10 && !IsPointPair(b.locationGeo)
      ==> err == Some("invalid geolocation format")
    ensures NameOk(b) && MatchesEmailPattern(b.email) && PasswordOk(b) && MatchesPhonePattern(b.phoneNumber)
            && ByteLen(b.address) >= 10 && IsPointPair(b.locationGeo) && !InCoordinateRange(b.locationGeo)
      ==> err == Some("invalid geolocation coordinates")
  {
    if TrimSpace(b.dealerName) == "" then Some("dealer name required")
    else if ByteLen(b.dealerName) > 100 then Some("dealer name too long (max 100 chars)")
    else if !MatchesEmailPattern(b.email) then Some("invalid email format")
    else if ByteLen(b.password) < 8 then Some("password must be at least 8 characters")
    else if !ContainsUpperAscii(b.password) then Some("password must contain uppercase letter")
    else if !ContainsDigit(b.password) then Some("password must contain number")
    else if !MatchesPhonePattern(b.phoneNumber) then Some("invalid phone number format")
    else if ByteLen(b.address) < 10 then Some("address too short")
    else if !IsPointPair(b.locationGeo) then Some("invalid geolocation format")
    else if !InCoordinateRange(b.locationGeo) then Some("invalid geolocation coordinates")
    else None
  }

  /** A normalised phone number passes the phone check exactly when it
      carries 7 to 14 digits. */
  lemma NormalizedPhoneCheck(phone: string)
    ensures var n := NormalizePhoneNumber(phone);
      MatchesPhonePattern(n) <==> 7 <= |n| - 1 <= 14
  {
    var n := NormalizePhoneNumber(phone);
    assert n[0] == '+';
  }

  /* ------------------------------------------------------ device helpers */

  /** updateDeviceToken: the first device with the id gets the new hash and
      login time; an unknown id is appended as a new entry. No cap. */
  function UpdateDeviceToken(devices: seq<Device>, deviceId: string, deviceName: string, tokenHash: string, now: int)
    : (r: seq<Device>)
    ensures |r| == |devices| + (if HasDevice(devices, deviceId) then 0 else 1)
    ensures forall k | 0 <= k < |devices| :: r[k].deviceId == devices[k].deviceId
    ensures forall k | 0 <= k < |devices| && devices[k].deviceId != deviceId :: r[k] == devices[k]
    ensures forall k | 0 <= k < |devices| ::
      r[k] == devices[k] || r[k] == devices[k].(tokenHash := tokenHash, lastLogin := now)
    ensures HasDevice(devices, deviceId) ==>
      var k := FindDevice(devices, deviceId).value;
      r[k] == devices[k].(tokenHash := tokenHash, lastLogin := now)
    ensures exists k | 0 <= k < |r| :: r[k].deviceId == deviceId && r[k].tokenHash == tokenHash
    ensures !HasDevice(devices, deviceId) ==> r[|devices|] == Device(deviceId, deviceName, "", "", tokenHash, now, false)
  {
    match FindDevice(devices, deviceId)
    case Some(k) => devices[k := devices[k].(tokenHash := tokenHash, lastLogin := now)]
    case None =>
      var r := devices + [Device(deviceId, deviceName, "", "", tokenHash, now, false)];
      assert r[|devices|].deviceId == deviceId;
      r
  }

  /** updateDeviceToken never introduces a second device with the same id. */
  lemma UpdateDeviceTokenKeepsDistinct(devices: seq<Device>, deviceId: string, deviceName: string, tokenHash: string, now: int)
    requires DistinctDeviceIds(devices)
    ensures DistinctDeviceIds(UpdateDeviceToken(devices, deviceId, deviceName, tokenHash, now))
  {
    var r := UpdateDeviceToken(devices, deviceId, deviceName, tokenHash, now);
    if !HasDevice(devices, deviceId) {
      assert forall k | 0 <= k < |devices| :: r[k].deviceId != deviceId;
    }
  }

  /** The token half of revocation: the first device with the id loses its
      hash; nothing else changes. */
  function ClearDeviceToken(devices: seq<Device>, deviceId: string): (r: seq<Device>)
    ensures |r| == |devices|
    ensures forall k | 0 <= k < |devices| :: r[k] == devices[k] || (devices[k].deviceId == deviceId && r[k] == devices[k].(tokenHash := ""))
    ensures HasDevice(devices, deviceId) ==> exists k | 0 <= k < |r| :: r[k].deviceId == deviceId && r[k].tokenHash == ""
    ensures !HasDevice(devices, deviceId) ==> r == devices
  {
    match FindDevice(devices, deviceId)
    case Some(k) => devices[k := devices[k].(tokenHash := "")]
    case None => devices
  }

  /** The outcome of a revocation: the error (if any) and the new state. */
  datatype Revocation = Revocation(err: Option<string>, store: DealerStore, cache: Cache)

  /** Cache key revocation deletes: the dealer and device ids, unprefixed. */
  function RevocationKey(dealerId: string, deviceId: string): string {
    dealerId + ":" + deviceId
  }

  /** RevokeDealerAuthToken: clear the device's hash, persist the device
      list, then delete the cache entry; a failed delete is only logged. */
  function RevokeDealerAuthToken(store: DealerStore, cache: Cache, dealerId: string, deviceId: string,
                                 now: int, readOk: bool, writeOk: bool, deleteOk: bool): (r: Revocation)
    ensures r.err.None? <==> readOk && dealerId in store && HasDevice(store[dealerId].devices, deviceId) && writeOk
    ensures r.err.Some? ==> r.store == store && r.cache == cache
    ensures readOk && dealerId in store && !HasDevice(store[dealerId].devices, deviceId) ==> r.err == Some("device not registered")
    ensures r.err.None? ==>
      && r.store.Keys == store.Keys
      && (forall id | id in store && id != dealerId :: r.store[id] == store[id])
      && r.store[dealerId].devices == ClearDeviceToken(store[dealerId].devices, deviceId)
      && r.store[dealerId].security == store[dealerId].security
    ensures r.err.None? ==> r.cache == (if deleteOk then cache - {RevocationKey(dealerId, deviceId)} else cache)
  {
    if !readOk || dealerId !in store then Revocation(Some("dealer lookup failed"), store, cache)
    else
      var dealer := store[dealerId];
      if !HasDevice(dealer.devices, deviceId) then Revocation(Some("device not registered"), store, cache)
      else if !writeOk then Revocation(Some("database update failed"), store, cache)
      else
        var updated := dealer.(devices := ClearDeviceToken(dealer.devices, deviceId), updatedAt := now);
        var cache' := if deleteOk then cache - {RevocationKey(dealerId, deviceId)} else cache;
        Revocation(None, store[dealerId := updated], cache')
  }

  /* -------------------------------------------------- dealer construction */

  const PrimaryBrandColor := "#2563eb"
  const SecondaryBrandColor := "#1d4ed8"

  /** createDealerFromSession: the durable dealer record built from a
      finished registration session, under a freshly generated id. */
  function CreateDealerFromSession(session: RegistrationSession, id: string, now: int): (d: Dealer)
    ensures d.id == id
    ensures d.devices == session.devices
    ensures d.profile.dealerName == session.basicData.dealerName
    ensures d.profile.slug == GenerateSlug(session.basicData.dealerName)
    ensures forall i | 0 <= i < |d.profile.slug| :: IsSlugChar(d.profile.slug[i])
    ensures d.profile.location == Location(session.basicData.address, session.basicData.city, session.basicData.locationGeo)
    ensures d.createdAt == d.updatedAt == d.verification.verifiedAt == now
    ensures d.profile.contact.whatsApp == d.profile.contact.phone == session.basicData.phoneNumber
    ensures d.profile.contact.email == session.basicData.email
    ensures d.profile.rating == 0.0
    ensures d.verification.documents == [session.kypData.documentUrl, session.kypData.selfieUrl]
    ensures d.verification.level == "basic" && d.verification.status == session.verificationStatus
    ensures d.security == NoSecurity
    ensures d.store.serviceCatalog == session.serviceCatalogue
  {
    var b := session.basicData;
    Dealer(
      id := id,
      profile := Profile(
        dealerName := b.dealerName,
        slug := GenerateSlug(b.dealerName),
        contact := Contact(email := b.email, phone := b.phoneNumber, whatsApp := b.phoneNumber),
        location := Location(address := b.address, city := b.city, geoPoint := b.locationGeo),
        rating := 0.0),
      store := Store(session.serviceCatalogue, Branding(PrimaryBrandColor, SecondaryBrandColor, "")),
      security := NoSecurity,
      verification := Verification(
        level := "basic",
        documents := [session.kypData.documentUrl, session.kypData.selfieUrl],
        status := session.verificationStatus,
        verifiedAt := now),
      createdAt := now,
      updatedAt := now,
      devices := session.devices)
  }

  /** generateAuthToken: the token from the generator and its hash; a
      generator failure is wrapped. `token` is the generator's reply. */
  function GenerateAuthToken(token: Option<string>, hashToken: string -> string): (r: Result<(string, string), string>)
    ensures r.Success? <==> token.Some?
    ensures r.Success? ==> r.value.0 == token.value && r.value.1 == hashToken(r.value.0)
  {
    match token
    case Some(t) => Success((t, hashToken(t)))
    case None => Failure("token generation failed")
  }
}

=== FILE: environment.dfy ===
/** The collaborators the dealer service calls but whose code is not part
    of this model, reduced to the values they return for one request.
    Token hashing and token parsing are functions, so they are
    deterministic by construction; generated ids are taken to be fresh. */
module Environment {
  import opened Common
  import opened Security

  /** Token and password primitives: bcrypt, HashToken and the token parser
      ExtractIDsFromToken (dealer id, device id). */
  datatype Crypto = Crypto(
    bcrypt: Bcrypt,
    hashToken: string -> string,
    extractIds: string -> Option<(string, string)>)

  /** The replies of the request's collaborators:
      `now` is time.Now; `freshId` the generated uuid; `otpSent` and
      `otpAccepted` the OTP helpers' verdicts; `token` the token generator's
      reply; the remaining flags say whether cache and store calls succeed. */
  datatype Env = Env(
    now: int,
    freshId: string,
    otpSent: bool,
    otpAccepted: bool,
    token: Option<string>,
    cacheWriteOk: bool,
    cacheDeleteOk: bool,
    storeReadOk: bool,
    storeWriteOk: bool)
}

=== FILE: feed_repo.dfy ===
/** database/repository/listing/feed.go: the feed and search queries over
    the listings collection. The text index is not part of this model: it
    is a function giving a listing's relevance score for a query, or None
    when the listing does not match. */
module FeedRepo {
  import opened Common
  import opened ListingModels
  import opened Sequences
  import opened ListingRepo

  type TextIndex = (string, Listing) -> Option<int>

  /** Only these statuses are shown to buyers. */
  predicate Visible(l: Listing) { l.status == Active || l.status == Open }

  /** The GetActiveListings query: make and model match exactly when given,
      the year bounds apply when positive, and the type and price bounds
      of the filter are never consulted. */
  predicate MatchesFilter(l: Listing, f: ListingFilter) {
    && Visible(l)
    && (f.make != "" ==> l.carDetails.make == f.make)
    && (f.model != "" ==> l.carDetails.model == f.model)
    && (f.minYear > 0 ==> l.carDetails.year >= f.minYear)
    && (f.maxYear > 0 ==> l.carDetails.year <= f.maxYear)
  }

  /** The listings the query selects, in store order. */
  function Selected(store: ListingStore, f: ListingFilter): (r: seq<Listing>)
    ensures |r| <= |store|
    ensures forall x | x in r :: MatchesFilter(x, f) && x in store
    ensures forall x | x in store && MatchesFilter(x, f) :: x in r
  {
    if |store| == 0 then []
    else
      var rest := Selected(store[1..], f);
      assert forall x | x in store :: x == store[0] || x in store[1..];
      if MatchesFilter(store[0], f) then [store[0]] + rest else rest
  }

  function ByCreated(l: Listing): Rank { Rank(l.createdAt, 0) }

  /** A find window: the server refuses a negative skip. */
  function FindPage(sorted: seq<Listing>, p: Pagination): (r: Result<seq<Listing>, ListingError>)
    ensures r.Success? <==> p.offset >= 0
    ensures r.Success? ==> forall i | 0 <= i < |r.value| :: r.value[i] in sorted
    ensures r.Success? && p.limit > 0 ==> |r.value| <= p.limit
    ensures r.Success? && p.offset >= |sorted| ==> r.value == []
    ensures r.Success? ==> r.value == Window(sorted, p.offset, p.limit)
  {
    if p.offset < 0 then Failure(DbFailure) else Success(Window(sorted, p.offset, p.limit))
  }

  /** GetActiveListings: the matching listings newest first, then the
      pagination window. */
  function GetActiveListings(store: ListingStore, f: ListingFilter, p: Pagination, readOk: bool)
    : (r: Result<seq<Listing>, ListingError>)
    ensures r.Success? <==> readOk && p.offset >= 0
    ensures r.Success? ==> SortedDesc(r.value, ByCreated)
    ensures r.Success? ==> forall i | 0 <= i < |r.value| :: MatchesFilter(r.value[i], f) && r.value[i] in store
    ensures r.Success? && p.limit > 0 ==> |r.value| <= p.limit
    ensures r.Success? && p.offset == 0 && p.limit == 0 ==>
      forall x | x in store && MatchesFilter(x, f) :: x in r.value
    ensures r.Success? && p.offset >= |store| ==> r.value == []
    ensures r.Success? ==> r.value == Window(SortDesc(Selected(store, f), ByCreated), p.offset, p.limit)
  {
    if !readOk then Failure(DbFailure)
    else
      var sel := Selected(store, f);
      var sorted := SortDesc(sel, ByCreated);
      SameElements(sorted, sel);
      if p.offset < 0 then FindPage(sorted, p)
      else
        WindowSorted(sorted, p.offset, p.limit, ByCreated);
        FindPage(sorted, p)
  }

  /** Consecutive pages of the feed tile it: the page at `offset` followed
      by the page after it is the double-size page at `offset`. */
  lemma ActivePagesTile(store: ListingStore, f: ListingFilter, offset: nat, limit: nat)
    requires limit > 0
    ensures var first := GetActiveListings(store, f, Pagination(limit, offset), true);
      var second := GetActiveListings(store, f, Pagination(limit, offset + limit), true);
      var both := GetActiveListings(store, f, Pagination(2 * limit, offset), true);
      first.Success? && second.Success? && both.Success? && first.value + second.value == both.value
  {
    WindowsTile(SortDesc(Selected(store, f), ByCreated), offset, limit);
  }

  /** The price bounds and type of a filter change nothing. */
  lemma PriceAndTypeIgnored(store: ListingStore, f: ListingFilter, p: Pagination, readOk: bool,
                            kind: ListingType, minPrice: real, maxPrice: real)
    ensures GetActiveListings(store, f, p, readOk)
         == GetActiveListings(store, f.(kind := kind, minPrice := minPrice, maxPrice := maxPrice), p, readOk)
  {
    var g := f.(kind := kind, minPrice := minPrice, maxPrice := maxPrice);
    assert forall l :: MatchesFilter(l, f) == MatchesFilter(l, g);
    SelectedSame(store, f, g);
  }

  lemma {:induction false} SelectedSame(store: ListingStore, f: ListingFilter, g: ListingFilter)
    requires forall l :: MatchesFilter(l, f) == MatchesFilter(l, g)
    ensures Selected(store, f) == Selected(store, g)
  {
    if |store| > 0 {
      SelectedSame(store[1..], f, g);
    }
  }

  /** The visible listings the text index matches, in store order. */
  function TextMatches(store: ListingStore, query: string, text: TextIndex): (r: seq<Listing>)
    ensures forall x | x in r :: Visible(x) && text(query, x).Some? && x in store
    ensures forall x | x in store && Visible(x) && text(query, x).Some? :: x in r
  {
    if |store| == 0 then []
    else
      var rest := TextMatches(store[1..], query, text);
      assert forall x | x in store :: x == store[0] || x in store[1..];
      if Visible(store[0]) && text(query, store[0]).Some? then [store[0]] + rest else rest
  }

  /** The text score of a listing for the query; a listing the index does
      not match scores 0. */
  function ByScore(text: TextIndex, query: string): Listing -> Rank {
    (l: Listing) => Rank(if text(query, l).Some? then text(query, l).value else 0, 0)
  }

  /** TextSearch: the visible matching listings, best score first, then the
      pagination window. */
  function TextSearch(store: ListingStore, query: string, p: Pagination, text: TextIndex, readOk: bool)
    : (r: Result<seq<Listing>, ListingError>)
    ensures r.Success? <==> readOk && p.offset >= 0
    ensures r.Success? ==> SortedDesc(r.value, ByScore(text, query))
    ensures r.Success? ==> forall i | 0 <= i < |r.value| ::
      Visible(r.value[i]) && text(query, r.value[i]).Some? && r.value[i] in store
    ensures r.Success? && p.limit > 0 ==> |r.value| <= p.limit
    ensures r.Success? && p.offset == 0 && p.limit == 0 ==>
      forall x | x in store && Visible(x) && text(query, x).Some? :: x in r.value
    ensures r.Success? ==> r.value == Window(SortDesc(TextMatches(store, query, text), ByScore(text, query)), p.offset, p.limit)
  {
    if !readOk then Failure(DbFailure)
    else
      var hits := TextMatches(store, query, text);
      var sorted := SortDesc(hits, ByScore(text, query));
      SameElements(sorted, hits);
      if p.offset < 0 then FindPage(sorted, p)
      else
        WindowSorted(sorted, p.offset, p.limit, ByScore(text, query));
        FindPage(sorted, p)
  }

  /** Consecutive pages of a text search tile it, as the feed's do. */
  lemma TextPagesTile(store: ListingStore, query: string, text: TextIndex, offset: nat, limit: nat)
    requires limit > 0
    ensures var first := TextSearch(store, query, Pagination(limit, offset), text, true);
      var second := TextSearch(store, query, Pagination(limit, offset + limit), text, true);
      var both := TextSearch(store, query, Pagination(2 * limit, offset), text, true);
      first.Success? && second.Success? && both.Success? && first.value + second.value == both.value
  {
    WindowsTile(SortDesc(TextMatches(store, query, text), ByScore(text, query)), offset, limit);
  }

  /** The distinct values of a field over the matched listings, first
      occurrence first (the order of `$addToSet` is the server's). */
  function Distinct(s: seq<string>): (r: seq<string>)
    ensures forall x | x in r :: x in s
    ensures forall x | x in s :: x in r
    ensures forall i, j | 0 <= i < j < |r| :: r[i] != r[j]
  {
    if |s| == 0 then []
    else
      var rest := Distinct(s[..|s| - 1]);
      assert forall x | x in s :: x in s[..|s| - 1] || x == s[|s| - 1];
      if s[|s| - 1] in rest then rest else rest + [s[|s| - 1]]
  }

  /** Every listing the text index matches, whatever its status. */
  function AnyTextMatches(store: ListingStore, query: string, text: TextIndex): (r: seq<Listing>)
    ensures forall x | x in r :: text(query, x).Some? && x in store
  {
    if |store| == 0 then []
    else
      var rest := AnyTextMatches(store[1..], query, text);
      if text(query, store[0]).Some? then [store[0]] + rest else rest
  }

  function AsSuggestions(texts: seq<string>, kind: SuggestionKind, score: real): (r: seq<SearchSuggestion>)
    ensures |r| == |texts|
    ensures forall i | 0 <= i < |r| :: r[i] == SearchSuggestion(texts[i], kind, score)
  {
    seq(|texts|, i requires 0 <= i < |texts| => SearchSuggestion(texts[i], kind, score))
  }

  /** Make suggestions never follow model suggestions. */
  predicate MakesFirst(s: seq<SearchSuggestion>) {
    forall i, j | 0 <= i < j < |s| :: s[j].kind == MakeSuggestion ==> s[i].kind == MakeSuggestion
  }

  /** A make suggestion scores 1.0 and a model suggestion 0.8. */
  predicate Scored(s: seq<SearchSuggestion>) {
    forall i | 0 <= i < |s| :: s[i].score == if s[i].kind == MakeSuggestion then 1.0 else 0.8
  }

  /** The text a suggestion of the given kind takes from a listing. */
  function FieldOf(l: Listing, kind: SuggestionKind): string {
    if kind == MakeSuggestion then l.carDetails.make else l.carDetails.model
  }

  function Texts(hits: seq<Listing>, kind: SuggestionKind): (r: seq<string>)
    ensures |r| == |hits| && forall i | 0 <= i < |hits| :: r[i] == FieldOf(hits[i], kind)
  {
    seq(|hits|, i requires 0 <= i < |hits| => FieldOf(hits[i], kind))
  }

  lemma TextOfHit(hits: seq<Listing>, kind: SuggestionKind, l: Listing)
    requires l in hits
    ensures FieldOf(l, kind) in Texts(hits, kind)
  {
    var j :| 0 <= j < |hits| && hits[j] == l;
    assert Texts(hits, kind)[j] == FieldOf(l, kind);
  }

  /** The suggestions of one kind: each distinct value of the matched
      listings exactly once. */
  function SuggestionsOf(hits: seq<Listing>, kind: SuggestionKind, score: real): (r: seq<SearchSuggestion>)
    ensures forall i | 0 <= i < |r| :: r[i].kind == kind && r[i].score == score
    ensures forall i | 0 <= i < |r| :: r[i].text in Texts(hits, kind)
    ensures forall x | x in Texts(hits, kind) :: SearchSuggestion(x, kind, score) in r
    ensures forall i, j | 0 <= i < j < |r| :: r[i].text != r[j].text
  {
    var d := Distinct(Texts(hits, kind));
    var r := AsSuggestions(d, kind, score);
    forall x | x in Texts(hits, kind) ensures SearchSuggestion(x, kind, score) in r {
      var i :| 0 <= i < |d| && d[i] == x;
      assert r[i] == SearchSuggestion(x, kind, score);
    }
    r
  }

  /** GetSearchSuggestions: the distinct makes of the matching listings
      (score 1.0), then their distinct models (score 0.8). The text match
      is not limited to visible listings. */
  function GetSearchSuggestions(store: ListingStore, query: string, text: TextIndex, readOk: bool)
    : (r: Result<seq<SearchSuggestion>, ListingError>)
    ensures r.Success? <==> readOk
    ensures r.Success? ==> MakesFirst(r.value) && Scored(r.value)
    ensures r.Success? ==> forall i | 0 <= i < |r.value| ::
      r.value[i].text in Texts(AnyTextMatches(store, query, text), r.value[i].kind)
  {
    if !readOk then Failure(DbFailure)
    else
      var hits := AnyTextMatches(store, query, text);
      var makes := SuggestionsOf(hits, MakeSuggestion, 1.0);
      var models := SuggestionsOf(hits, ModelSuggestion, 0.8);
      var all := makes + models;
      assert forall i | 0 <= i < |makes| :: all[i] == makes[i];
      assert forall i | |makes| <= i < |all| :: all[i] == models[i - |makes|];
      Success(all)
  }

  /** Every suggestion comes from a listing the text index matches. */
  lemma SuggestionsComeFromMatches(store: ListingStore, query: string, text: TextIndex, s: SearchSuggestion)
    requires s in GetSearchSuggestions(store, query, text, true).value
    ensures exists l | l in store && text(query, l).Some? :: s.text == FieldOf(l, s.kind)
  {
    var hits := AnyTextMatches(store, query, text);
    var all := GetSearchSuggestions(store, query, text, true).value;
    var i :| 0 <= i < |all| && all[i] == s;
    var j :| 0 <= j < |hits| && Texts(hits, s.kind)[j] == s.text;
    assert hits[j] in hits;
  }

  /** Every make and model of a matching listing is suggested, whatever
      the listing's status. */
  lemma SuggestionsCoverMatches(store: ListingStore, query: string, text: TextIndex, l: Listing)
    requires l in store && text(query, l).Some?
    ensures SearchSuggestion(l.carDetails.make, MakeSuggestion, 1.0) in GetSearchSuggestions(store, query, text, true).value
    ensures SearchSuggestion(l.carDetails.model, ModelSuggestion, 0.8) in GetSearchSuggestions(store, query, text, true).value
  {
    var hits := AnyTextMatches(store, query, text);
    AnyTextMatchesComplete(store, query, text, l);
    TextOfHit(hits, MakeSuggestion, l);
    TextOfHit(hits, ModelSuggestion, l);
  }

  lemma {:induction false} AnyTextMatchesComplete(store: ListingStore, query: string, text: TextIndex, l: Listing)
    requires l in store && text(query, l).Some?
    ensures l in AnyTextMatches(store, query, text)
  {
    if store[0] != l {
      assert l in store[1..];
      AnyTextMatchesComplete(store[1..], query, text, l);
    }
  }
}

=== FILE: feed_service.dfy ===
/** services/listing/feed.go: the home feed and search. The feed's three
    queries run concurrently in the source; here they are three values,
    and the feed fails when any of them failed. */
module FeedService {
  import opened Common
  import opened ListingModels
  import opened Sequences
  import opened ListingRepo
  import opened FeedRepo

  const DefaultListingLimit: int := 20
  const PromotionLimit: nat := 3
  const BannerLimit: nat := 2

  /** The replies of the promotions and banners queries, whose repository
      code is not part of this model: None is a failed query. */
  datatype FeedSources = FeedSources(promotions: Option<seq<Promotion>>, banners: Option<seq<Banner>>)

  datatype Feed = Feed(listings: seq<Listing>, promotions: seq<Promotion>, banners: seq<Banner>)

  datatype SearchResult = SearchResult(listings: seq<Listing>, suggestions: seq<SearchSuggestion>)

  /** Most viewed first, newer first among equally viewed. */
  function Popularity(l: Listing): Rank { Rank(l.views, l.createdAt) }

  /** prioritizeListings: the same listings, reordered by popularity. */
  function PrioritizeListings(ls: seq<Listing>): (r: seq<Listing>)
    ensures SortedDesc(r, Popularity)
    ensures multiset(r) == multiset(ls)
  {
    SortDesc(ls, Popularity)
  }

  /** A promotion is shown strictly inside its display window. */
  predicate Live(p: Promotion, now: int) { p.displayFrom < now < p.displayTo }

  /** filterActivePromotions: the live promotions in their stored order,
      at most three; a live promotion is dropped only when three are
      already kept. */
  function FilterActivePromotions(ps: seq<Promotion>, now: int): (r: seq<Promotion>)
    ensures |r| <= PromotionLimit
    ensures forall i | 0 <= i < |r| :: Live(r[i], now) && r[i] in ps
    ensures forall p | p in ps && Live(p, now) && p !in r :: |r| == PromotionLimit
  {
    var live := Filter(ps, (p: Promotion) => Live(p, now));
    var r := Prefix(live, PromotionLimit);
    assert forall p | p in live && |live| <= PromotionLimit :: p in r;
    r
  }

  predicate Placed(b: Banner) { b.position == "top" || b.position == "bottom" }

  /** positionBanners: the top and bottom banners in their stored order, at
      most two, whether or not they are marked active. */
  function PositionBanners(bs: seq<Banner>): (r: seq<Banner>)
    ensures |r| <= BannerLimit
    ensures forall i | 0 <= i < |r| :: Placed(r[i]) && r[i] in bs
    ensures forall b | b in bs && Placed(b) && b !in r :: |r| == BannerLimit
  {
    var placed := Filter(bs, Placed);
    var r := Prefix(placed, BannerLimit);
    assert forall b | b in placed && |placed| <= BannerLimit :: b in r;
    r
  }

  /** GetFeed's page: a zero limit means the default of twenty. */
  function FeedPage(p: Pagination): (q: Pagination)
    ensures q.offset == p.offset
    ensures q.limit != 0
    ensures p.limit != 0 ==> q.limit == p.limit
  {
    if p.limit == 0 then p.(limit := DefaultListingLimit) else p
  }

  /** GetFeed: the page of visible listings ranked by popularity, the live
      promotions and the placed banners; any failed query fails the feed. */
  function GetFeed(store: ListingStore, f: ListingFilter, p: Pagination, readOk: bool,
                   src: FeedSources, now: int): (r: Result<Feed, ListingError>)
    ensures r.Success? <==> readOk && p.offset >= 0 && src.promotions.Some? && src.banners.Some?
    ensures r.Success? ==>
      && multiset(r.value.listings) == multiset(GetActiveListings(store, f, FeedPage(p), readOk).value)
      && SortedDesc(r.value.listings, Popularity)
      && r.value.promotions == FilterActivePromotions(src.promotions.value, now)
      && r.value.banners == PositionBanners(src.banners.value)
  {
    var page := FeedPage(p);
    match GetActiveListings(store, f, page, readOk)
    case Failure(e) => Failure(e)
    case Success(ls) =>
      if src.promotions.None? || src.banners.None? then Failure(DbFailure)
      else Success(Feed(PrioritizeListings(ls),
                        FilterActivePromotions(src.promotions.value, now),
                        PositionBanners(src.banners.value)))
  }

  /** A feed page holds at most the requested number of listings, twenty
      when none was requested, and only visible listings that match the
      filter. */
  lemma FeedPageBounded(store: ListingStore, f: ListingFilter, p: Pagination, readOk: bool,
                        src: FeedSources, now: int)
    requires GetFeed(store, f, p, readOk, src, now).Success?
    ensures var feed := GetFeed(store, f, p, readOk, src, now).value;
      && |feed.listings| <= (if p.limit == 0 then DefaultListingLimit else if p.limit < 0 then -p.limit else p.limit)
      && forall x | x in feed.listings :: MatchesFilter(x, f) && x in store
  {
    var page := FeedPage(p);
    var ls := GetActiveListings(store, f, page, readOk).value;
    var feed := GetFeed(store, f, p, readOk, src, now).value;
    assert |feed.listings| == |multiset(feed.listings)| == |multiset(ls)| == |ls|;
    SameElements(feed.listings, ls);
    if p.limit < 0 {
      WindowNegativeLimit(store, f, page);
    }
  }

  lemma WindowNegativeLimit(store: ListingStore, f: ListingFilter, page: Pagination)
    requires page.limit < 0 && page.offset >= 0
    ensures |GetActiveListings(store, f, page, true).value| <= -page.limit
  {
    var sorted := SortDesc(Selected(store, f), ByCreated);
    assert GetActiveListings(store, f, page, true).value == Window(sorted, page.offset, page.limit);
  }

  /** A query with nothing but white space searches by filter instead of
      by text. */
  predicate Blank(query: string) { TrimSpace(query) == "" }

  /** Search: a text search for a non-blank query and the filter query
      otherwise; the suggestions are those of the raw query, and an empty
      list when that query fails. */
  function Search(store: ListingStore, query: string, f: ListingFilter, p: Pagination,
                  text: TextIndex, readOk: bool, suggestOk: bool): (r: Result<SearchResult, ListingError>)
    ensures r.Success? <==> readOk && p.offset >= 0
    ensures r.Success? && (forall i | 0 <= i < |query| :: IsSpace(query[i])) ==>
      r.value.listings == GetActiveListings(store, f, p, readOk).value
    ensures r.Success? && !(forall i | 0 <= i < |query| :: IsSpace(query[i])) ==>
      forall i | 0 <= i < |r.value.listings| ::
        Visible(r.value.listings[i]) && text(query, r.value.listings[i]).Some?
    ensures r.Success? && !(forall i | 0 <= i < |query| :: IsSpace(query[i])) ==>
      r.value.listings == TextSearch(store, query, p, text, readOk).value
    ensures r.Success? && !suggestOk ==> r.value.suggestions == []
    ensures r.Success? && suggestOk ==>
      r.value.suggestions == GetSearchSuggestions(store, query, text, true).value
  {
    TrimSpaceEmpty(query);
    var found := if !Blank(query) then TextSearch(store, query, p, text, readOk)
                 else GetActiveListings(store, f, p, readOk);
    match found
    case Failure(e) => Failure(e)
    case Success(ls) =>
      var suggestions := match GetSearchSuggestions(store, query, text, suggestOk)
                         case Success(ss) => ss
                         case Failure(_) => [];
      Success(SearchResult(ls, suggestions))
  }

  /** The filter never narrows a text search. */
  lemma TextSearchIgnoresFilter(store: ListingStore, query: string, f: ListingFilter, g: ListingFilter,
                                p: Pagination, text: TextIndex, readOk: bool, suggestOk: bool)
    requires !Blank(query)
    ensures Search(store, query, f, p, text, readOk, suggestOk) == Search(store, query, g, p, text, readOk, suggestOk)
  {
  }
}

=== FILE: gate_flow.dfy ===
/** How the request gate interacts with the dealer service's writes: which
    tokens it can ever accept, and which cache entries sign-in and
    revocation leave behind. */
module GateFlow {
  import opened Common
  import opened DealerModels
  import opened Utils
  import opened Environment
  import opened Security
  import opened DealerUtils
  import opened Signup
  import opened Signin
  import opened AuthGate

  /** No dealer carries a dealer-level token hash. */
  ghost predicate NoSecurityHash(store: DealerStore) {
    forall id | id in store :: store[id].security.tokenHash == ""
  }

  /** No cache entry holds a bare text value (the only kind the gate reads). */
  ghost predicate NoCachedHash(cache: Cache) {
    forall k | k in cache :: !cache[k].value.TextValue?
  }

  ghost predicate Quiet(store: DealerStore, cache: Cache) {
    NoSecurityHash(store) && NoCachedHash(cache)
  }

  /* ------------------------------------------ the gate in a quiet state */

  /** In a quiet state the gate as written accepts no request at all: the
      cache has no hash to match and every stored Security.TokenHash is
      empty while a token's hash is not. It writes nothing either. */
  lemma QuietGateRefusesAll(optional: bool, header: string, ctx: CtxValue, cache: Cache, store: DealerStore, prefix: string,
                            b: Backend, crypto: Crypto)
    requires Quiet(store, cache)
    ensures var g := Authorize(optional, header, ctx, cache, store, prefix, b, crypto);
      && !g.verdict.Accepted? && !g.fullAccess && g.cache == cache
      && (!optional ==> g.verdict.Refused?)
  {
    match CheckRequest(header, ctx, crypto)
    case Failure(_) =>
    case Success(c) =>
      var key := GateKey(prefix, c.dealerId, c.deviceId);
      assert !CacheHit(cache, b, key, c.tokenHash) by {
        if key in cache { assert !cache[key].value.TextValue?; }
      }
  }

  /* -------------------------------- every dealer-service write keeps it */

  lemma RegisterBasicKeepsQuiet(cache: Cache, store: DealerStore, basic: BasicData, device: Device, env: Env)
    requires NoCachedHash(cache)
    ensures NoCachedHash(RegisterBasic(cache, store, basic, device, env).cache)
  {
    var b := Sanitize(basic);
    if BasicDataValid(b) && env.storeReadOk && !DealerExists(store, b.email, b.dealerName) {
      StartSessionKeepsQuiet(cache, b, device, env);
    }
  }

  lemma StartSessionKeepsQuiet(cache: Cache, b: BasicData, device: Device, env: Env)
    requires NoCachedHash(cache)
    ensures NoCachedHash(StartSession(cache, b, device, env).cache)
  {
    var s := StartSession(cache, b, device, env);
    if s.result.Success? {
      forall k | k in s.cache ensures !s.cache[k].value.TextValue? {
        if k != env.freshId && k != OtpKey(env.freshId) { assert s.cache[k] == cache[k]; }
      }
    } else {
      forall k | k in s.cache ensures !s.cache[k].value.TextValue? {
        if k != OtpKey(env.freshId) { assert s.cache[k] == cache[k]; }
      }
    }
  }

  lemma VerifyOtpKeepsQuiet(cache: Cache, sessionId: string, deviceId: string, otp: string, env: Env)
    requires NoCachedHash(cache)
    ensures NoCachedHash(VerifyOtp(cache, sessionId, deviceId, otp, env).cache)
  {
    var r := VerifyOtp(cache, sessionId, deviceId, otp, env);
    forall k | k in r.cache ensures !r.cache[k].value.TextValue? {
      if k != sessionId { assert r.cache[k] == cache[k]; }
    }
  }

  lemma VerifyKypKeepsQuiet(cache: Cache, sessionId: string, kyp: KypData, env: Env)
    requires NoCachedHash(cache)
    ensures NoCachedHash(VerifyKyp(cache, sessionId, kyp, env).cache)
  {
    var r := VerifyKyp(cache, sessionId, kyp, env);
    forall k | k in r.cache ensures !r.cache[k].value.TextValue? {
      if k != sessionId { assert r.cache[k] == cache[k]; }
    }
  }

  /** Finalisation inserts a dealer whose Security.TokenHash is empty. */
  lemma FinalizeKeepsQuiet(cache: Cache, store: DealerStore, sessionId: string, catalogue: ServiceCatalogue, env: Env, crypto: Crypto)
    requires Quiet(store, cache)
    requires Finalize(cache, store, sessionId, catalogue, env, crypto).Finalized?
    ensures var r := Finalize(cache, store, sessionId, catalogue, env, crypto);
      Quiet(r.store, r.cache)
  {
    var r := Finalize(cache, store, sessionId, catalogue, env, crypto);
    if r.result.Success? {
      var s := GetRegistrationSession(cache, sessionId).value;
      var d := RegisteredDealer(s, catalogue, crypto.bcrypt.generate(s.basicData.password).value,
                                crypto.hashToken(env.token.value), env.freshId, env.now);
      assert d.security.tokenHash == "";
      assert r.store == store[env.freshId := d];
      InsertKeepsNoSecurityHash(store, env.freshId, d);
      RemovalKeepsNoCachedHash(cache, sessionId);
    }
  }

  lemma InsertKeepsNoSecurityHash(store: DealerStore, id: string, d: Dealer)
    requires NoSecurityHash(store) && d.security.tokenHash == ""
    ensures NoSecurityHash(store[id := d])
  {
  }

  lemma RemovalKeepsNoCachedHash(cache: Cache, key: string)
    requires NoCachedHash(cache)
    ensures NoCachedHash(cache - {key})
  {
  }

  /** Sign-in writes auth sessions, OTP records and per-device hashes only. */
  lemma SigninKeepsQuiet(store: DealerStore, cache: Cache, prefix: string, email: string, password: string,
                         current: Device, providedSessionId: string, found: Option<string>, env: Env, crypto: Crypto)
    requires LookupAgrees(store, email, found)
    requires Quiet(store, cache)
    ensures var r := AuthenticateDealer(store, cache, prefix, email, password, current, providedSessionId, found, env, crypto);
      Quiet(r.store, r.cache)
  {
    var r := AuthenticateDealer(store, cache, prefix, email, password, current, providedSessionId, found, env, crypto);
    if env.storeReadOk && found.Some? && CheckPasswordHash(crypto.bcrypt, password, store[found.value].security.passwordHash)
       && (providedSessionId != "" || env.cacheWriteOk) {
      var id := found.value;
      var d := store[id];
      var sid := SessionIdFor(providedSessionId, id, current.deviceId);
      var c1 := if providedSessionId == "" then SaveAuthSession(cache, sid, PendingAuthSession(id, d, current, env.now), true) else cache;
      assert NoCachedHash(c1) by {
        forall k | k in c1 ensures !c1[k].value.TextValue? {
          if k != sid { assert c1[k] == cache[k]; }
        }
      }
      assert r == ContinueSignin(store, c1, prefix, id, d, current, sid, env, crypto);
      ContinueSigninKeepsQuiet(store, c1, prefix, id, d, current, sid, env, crypto);
    }
  }

  lemma ContinueSigninKeepsQuiet(store: DealerStore, cache: Cache, prefix: string, id: string, d: Dealer, current: Device,
                                 sessionId: string, env: Env, crypto: Crypto)
    requires id in store && store[id] == d
    requires Quiet(store, cache)
    ensures var r := ContinueSignin(store, cache, prefix, id, d, current, sessionId, env, crypto);
      Quiet(r.store, r.cache)
  {
    var r := ContinueSignin(store, cache, prefix, id, d, current, sessionId, env, crypto);
    match GetAuthSession(cache, sessionId)
    case None =>
    case Some(auth) =>
      if !HasDevice(d.devices, current.deviceId) && auth.status != "otp_verified" {
        assert r == ChallengeNewDevice(store, cache, id, d, auth, current, sessionId, env);
        forall k | k in r.cache ensures !r.cache[k].value.TextValue? {
          if k != sessionId && k != OtpKey(id) { assert r.cache[k] == cache[k]; }
        }
      } else {
        forall k | k in r.cache ensures !r.cache[k].value.TextValue? {
          assert r.cache[k] == cache[k];
        }
      }
  }

  /** Revocation clears a per-device hash and deletes a cache key. */
  lemma RevokeKeepsQuiet(store: DealerStore, cache: Cache, dealerId: string, deviceId: string,
                         now: int, readOk: bool, writeOk: bool, deleteOk: bool)
    requires Quiet(store, cache)
    ensures var r := RevokeDealerAuthToken(store, cache, dealerId, deviceId, now, readOk, writeOk, deleteOk);
      Quiet(r.store, r.cache)
  {
  }

  /* ------------------------------------- the token a dealer just received */

  /** The request a client sends with a token: "Bearer <token>". */
  function BearerHeader(token: string): (h: string)
    ensures StartsWith(h, BearerPrefix) && TokenOf(h) == token && h[|BearerPrefix|..] == token
  {
    var h := BearerPrefix + token;
    assert h[..|BearerPrefix|] == BearerPrefix;
    h
  }

  /** A dealer as registration leaves it: one device holding the token's
      hash, no dealer-level hash. */
  ghost predicate JustRegistered(store: DealerStore, dealerId: string, deviceId: string, tokenHash: string) {
    && dealerId in store
    && |store[dealerId].devices| == 1
    && store[dealerId].devices[0].deviceId == deviceId
    && store[dealerId].devices[0].tokenHash == tokenHash
    && store[dealerId].security.tokenHash == ""
  }

  /** A token whose claims the gate's request checks accept. */
  predicate ValidToken(crypto: Crypto, token: string, dealerId: string, deviceId: string) {
    && token != ""
    && crypto.extractIds(token) == Some((dealerId, deviceId))
    && dealerId != "" && deviceId != ""
    && crypto.hashToken(token) != ""
  }

  /** A valid token, sent from its own device, is a well-formed request. */
  lemma ValidTokenWellFormed(crypto: Crypto, token: string, dealerId: string, deviceId: string)
    requires ValidToken(crypto, token, dealerId, deviceId)
    ensures WellFormedRequest(BearerHeader(token), StrValue(deviceId), crypto)
    ensures CheckRequest(BearerHeader(token), StrValue(deviceId), crypto)
            == Success(Claims(token, dealerId, deviceId, crypto.hashToken(token)))
  {
  }

  lemma JustRegisteredRefused(store: DealerStore, dealerId: string, deviceId: string, token: string, prefix: string,
                              b: Backend, gateCache: Cache, crypto: Crypto)
    requires JustRegistered(store, dealerId, deviceId, crypto.hashToken(token)) && ValidToken(crypto, token, dealerId, deviceId)
    requires NoCachedHash(gateCache) && b.storeReadOk
    ensures Authorize(false, BearerHeader(token), StrValue(deviceId), gateCache, store, prefix, b, crypto).verdict == Refused("Token mismatch")
  {
    var key := GateKey(prefix, dealerId, deviceId);
    assert !CacheHit(gateCache, b, key, crypto.hashToken(token)) by {
      if key in gateCache { assert !gateCache[key].value.TextValue?; }
    }
    ValidTokenWellFormed(crypto, token, dealerId, deviceId);
  }

  lemma JustRegisteredAcceptedByDevice(store: DealerStore, dealerId: string, deviceId: string, token: string, prefix: string,
                                       b: Backend, gateCache: Cache, crypto: Crypto)
    requires JustRegistered(store, dealerId, deviceId, crypto.hashToken(token)) && ValidToken(crypto, token, dealerId, deviceId)
    requires b.storeReadOk
    ensures AuthorizeByDevice(false, BearerHeader(token), StrValue(deviceId), gateCache, store, prefix, b, crypto).verdict == Accepted(dealerId)
  {
    ValidTokenWellFormed(crypto, token, dealerId, deviceId);
    assert DeviceHash(store, b, dealerId, deviceId) == Some(crypto.hashToken(token));
  }

  /** Registration leaves the dealer JustRegistered for the returned token. */
  lemma FinalizedIsJustRegistered(cache: Cache, store: DealerStore, sessionId: string, catalogue: ServiceCatalogue, env: Env, crypto: Crypto)
    requires SessionsWellFormed(cache)
    requires FinalizeSucceeds(cache, store, sessionId, catalogue, env, crypto)
    ensures var r := Finalize(cache, store, sessionId, catalogue, env, crypto);
      JustRegistered(r.store, env.freshId, cache[sessionId].value.session.devices[0].deviceId, crypto.hashToken(r.result.value.token))
  {
    FinalizedDealerShape(cache, store, sessionId, catalogue, env, crypto);
  }

  /** The token FinalizeRegistration returns, presented from the
      registering device against a cache without an entry for it, is
      refused by the gate as written ("Token mismatch"): the store fallback
      compares Security.TokenHash, which registration leaves empty. */
  lemma FreshTokenRefused(cache: Cache, store: DealerStore, sessionId: string, catalogue: ServiceCatalogue, env: Env,
                          crypto: Crypto, prefix: string, b: Backend, gateCache: Cache)
    requires SessionsWellFormed(cache)
    requires FinalizeSucceeds(cache, store, sessionId, catalogue, env, crypto)
    requires ValidToken(crypto, env.token.value, env.freshId, cache[sessionId].value.session.devices[0].deviceId)
    requires NoCachedHash(gateCache) && b.storeReadOk
    ensures var r := Finalize(cache, store, sessionId, catalogue, env, crypto);
      Authorize(false, BearerHeader(r.result.value.token), StrValue(cache[sessionId].value.session.devices[0].deviceId),
                gateCache, r.store, prefix, b, crypto).verdict == Refused("Token mismatch")
  {
    FinalizedIsJustRegistered(cache, store, sessionId, catalogue, env, crypto);
    var r := Finalize(cache, store, sessionId, catalogue, env, crypto);
    JustRegisteredRefused(r.store, env.freshId, cache[sessionId].value.session.devices[0].deviceId, r.result.value.token,
                          prefix, b, gateCache, crypto);
  }

  /** With the per-device comparison the same token is accepted. */
  lemma FreshTokenAcceptedByDevice(cache: Cache, store: DealerStore, sessionId: string, catalogue: ServiceCatalogue, env: Env,
                                   crypto: Crypto, prefix: string, b: Backend, gateCache: Cache)
    requires SessionsWellFormed(cache)
    requires FinalizeSucceeds(cache, store, sessionId, catalogue, env, crypto)
    requires ValidToken(crypto, env.token.value, env.freshId, cache[sessionId].value.session.devices[0].deviceId)
    requires b.storeReadOk
    ensures var r := Finalize(cache, store, sessionId, catalogue, env, crypto);
      AuthorizeByDevice(false, BearerHeader(r.result.value.token), StrValue(cache[sessionId].value.session.devices[0].deviceId),
                        gateCache, r.store, prefix, b, crypto).verdict == Accepted(env.freshId)
  {
    FinalizedIsJustRegistered(cache, store, sessionId, catalogue, env, crypto);
    var r := Finalize(cache, store, sessionId, catalogue, env, crypto);
    JustRegisteredAcceptedByDevice(r.store, env.freshId, cache[sessionId].value.session.devices[0].deviceId, r.result.value.token,
                                   prefix, b, gateCache, crypto);
  }

  /** The device-hash lookup finds the hash a rotation stored, because the
      rotated device id occurs once. */
  lemma RotatedHashFound(store: DealerStore, b: Backend, dealerId: string, current: Device, before: seq<Device>, tokenHash: string,
                         now: int)
    requires b.storeReadOk && dealerId in store
    requires RotatedFor(before, store[dealerId].devices, current, tokenHash, now)
    ensures DeviceHash(store, b, dealerId, current.deviceId) == Some(tokenHash)
  {
    var ds := store[dealerId].devices;
    var k :| 0 <= k < |ds| && ds[k].deviceId == current.deviceId && ds[k].tokenHash == tokenHash;
    var j := FindDevice(ds, current.deviceId).value;
    assert ds[j].deviceId == ds[k].deviceId;
    assert j == k;
  }

  /** With the per-device comparison, the token a successful sign-in
      returns is accepted from the signing-in device. */
  lemma SignedInTokenAcceptedByDevice(store: DealerStore, cache: Cache, prefix: string, email: string, password: string,
                                      current: Device, providedSessionId: string, found: Option<string>, env: Env, crypto: Crypto,
                                      b: Backend, gateCache: Cache)
    requires LookupAgrees(store, email, found)
    requires found.Some? && DistinctDeviceIds(store[found.value].devices)
    requires AuthenticateDealer(store, cache, prefix, email, password, current, providedSessionId, found, env, crypto).outcome.Authenticated?
    requires ValidToken(crypto, env.token.value, found.value, current.deviceId)
    requires b.storeReadOk
    ensures var r := AuthenticateDealer(store, cache, prefix, email, password, current, providedSessionId, found, env, crypto);
      AuthorizeByDevice(false, BearerHeader(r.outcome.response.token), StrValue(current.deviceId), gateCache, r.store, prefix, b, crypto).verdict
        == Accepted(found.value)
  {
    SigninRotatesOnlyCurrentDevice(store, cache, prefix, email, password, current, providedSessionId, found, env, crypto);
    var r := AuthenticateDealer(store, cache, prefix, email, password, current, providedSessionId, found, env, crypto);
    RotatedHashFound(r.store, b, found.value, current, store[found.value].devices, crypto.hashToken(env.token.value), env.now);
    ValidTokenWellFormed(crypto, env.token.value, found.value, current.deviceId);
  }

  /* ------------------------------------------------ stale cache entries */

  /** Two strings with a common head are equal only when their tails are. */
  lemma SameHead(head: string, a: string, b: string)
    requires head + a == head + b
    ensures a == b
  {
    assert a == (head + a)[|head|..];
    assert b == (head + b)[|head|..];
  }

  /** Each cache and session key names one device: for the same dealer,
      two devices never share a gate key, a sign-in token key, a default
      session id or a revocation key. */
  lemma KeysSeparateDevices(prefix: string, dealerId: string, d1: string, d2: string)
    requires d1 != d2
    ensures GateKey(prefix, dealerId, d1) != GateKey(prefix, dealerId, d2)
    ensures SigninTokenKey(prefix, dealerId, d1) != SigninTokenKey(prefix, dealerId, d2)
    ensures DefaultSessionId(dealerId, d1) != DefaultSessionId(dealerId, d2)
    ensures RevocationKey(dealerId, d1) != RevocationKey(dealerId, d2)
  {
    if GateKey(prefix, dealerId, d1) == GateKey(prefix, dealerId, d2) {
      SameHead(prefix + dealerId + ":", d1, d2);
    }
    if SigninTokenKey(prefix, dealerId, d1) == SigninTokenKey(prefix, dealerId, d2) {
      SameHead(prefix + ":" + dealerId + ":", d1, d2);
    }
    if DefaultSessionId(dealerId, d1) == DefaultSessionId(dealerId, d2) {
      SameHead("dealer:" + dealerId + ":", d1, d2);
    }
    if RevocationKey(dealerId, d1) == RevocationKey(dealerId, d2) {
      SameHead(dealerId + ":", d1, d2);
    }
  }

  /** Revocation deletes the unprefixed key, so with a non-empty prefix a
      cached hash survives it and the revoked token keeps passing the gate
      from the cache. */
  lemma RevokedTokenStillCached(store: DealerStore, cache: Cache, header: string, ctx: CtxValue, prefix: string, b: Backend,
                                crypto: Crypto, now: int, readOk: bool, writeOk: bool, deleteOk: bool)
    requires prefix != ""
    requires WellFormedRequest(header, ctx, crypto)
    requires var (dealerId, deviceId) := crypto.extractIds(TokenOf(header)).value;
      CacheHit(cache, b, GateKey(prefix, dealerId, deviceId), crypto.hashToken(TokenOf(header)))
    ensures var (dealerId, deviceId) := crypto.extractIds(TokenOf(header)).value;
      var r := RevokeDealerAuthToken(store, cache, dealerId, deviceId, now, readOk, writeOk, deleteOk);
      && Authorize(false, header, ctx, r.cache, r.store, prefix, b, crypto).verdict == Accepted(dealerId)
      && AuthorizeByDevice(false, header, ctx, r.cache, r.store, prefix, b, crypto).verdict == Accepted(dealerId)
  {
    var (dealerId, deviceId) := crypto.extractIds(TokenOf(header)).value;
    assert |GateKey(prefix, dealerId, deviceId)| != |RevocationKey(dealerId, deviceId)|;
    AuthorizeAcceptsIff(false, header, ctx, cache, store, prefix, b, crypto);
    var r := RevokeDealerAuthToken(store, cache, dealerId, deviceId, now, readOk, writeOk, deleteOk);
    AuthorizeAcceptsIff(false, header, ctx, r.cache, r.store, prefix, b, crypto);
    var c := CheckRequest(header, ctx, crypto).value;
    assert c.token == TokenOf(header);
  }

  /** With an empty prefix the keys coincide: a revocation whose delete
      succeeds leaves the per-device gate nothing to accept the token with. */
  lemma RevocationRefusesWhenUnprefixed(store: DealerStore, cache: Cache, header: string, ctx: CtxValue, b: Backend,
                                        crypto: Crypto, now: int, readOk: bool, writeOk: bool)
    requires WellFormedRequest(header, ctx, crypto)
    requires var (dealerId, deviceId) := crypto.extractIds(TokenOf(header)).value;
      RevokeDealerAuthToken(store, cache, dealerId, deviceId, now, readOk, writeOk, true).err.None?
    requires var (dealerId, deviceId) := crypto.extractIds(TokenOf(header)).value;
      DistinctDeviceIds(store[dealerId].devices)
    ensures var (dealerId, deviceId) := crypto.extractIds(TokenOf(header)).value;
      var r := RevokeDealerAuthToken(store, cache, dealerId, deviceId, now, readOk, writeOk, true);
      AuthorizeByDevice(false, header, ctx, r.cache, r.store, "", b, crypto).verdict.Refused?
  {
    var (dealerId, deviceId) := crypto.extractIds(TokenOf(header)).value;
    var r := RevokeDealerAuthToken(store, cache, dealerId, deviceId, now, readOk, writeOk, true);
    var c := CheckRequest(header, ctx, crypto).value;
    assert c.token == TokenOf(header);
    assert GateKey("", dealerId, deviceId) == RevocationKey(dealerId, deviceId);
    var ds := r.store[dealerId].devices;
    if b.storeReadOk {
      var j := FindDevice(ds, deviceId).value;
      var before := store[dealerId].devices;
      assert ds[j] == before[j] || ds[j] == before[j].(tokenHash := "");
      var i :| 0 <= i < |ds| && ds[i].deviceId == deviceId && ds[i].tokenHash == "";
      assert before[j].deviceId == before[i].deviceId;
      assert i == j;
    }
  }

  /** Sign-in clears "prefix:dealer:device", never the gate's
      "prefix" + "dealer:device", so the entry caching the previous token's
      hash outlives the rotation (unless it collides with the session or
      OTP key sign-in itself writes). */
  lemma SigninKeepsGateEntry(store: DealerStore, cache: Cache, prefix: string, email: string, password: string,
                             current: Device, providedSessionId: string, found: Option<string>, env: Env, crypto: Crypto)
    requires LookupAgrees(store, email, found) && found.Some?
    requires var key := GateKey(prefix, found.value, current.deviceId);
      key != SessionIdFor(providedSessionId, found.value, current.deviceId) && key != OtpKey(found.value)
    ensures var key := GateKey(prefix, found.value, current.deviceId);
      var r := AuthenticateDealer(store, cache, prefix, email, password, current, providedSessionId, found, env, crypto);
      (key in r.cache <==> key in cache) && (key in cache ==> r.cache[key] == cache[key])
  {
    var id := found.value;
    var key := GateKey(prefix, id, current.deviceId);
    assert |key| + 1 == |SigninTokenKey(prefix, id, current.deviceId)|;
    if env.storeReadOk && CheckPasswordHash(crypto.bcrypt, password, store[id].security.passwordHash)
       && (providedSessionId != "" || env.cacheWriteOk) {
      var d := store[id];
      var sid := SessionIdFor(providedSessionId, id, current.deviceId);
      var c1 := if providedSessionId == "" then SaveAuthSession(cache, sid, PendingAuthSession(id, d, current, env.now), true) else cache;
      ContinueSigninFrame(store, c1, prefix, id, d, current, sid, env, crypto, key);
    }
  }

  /** The keys ContinueSignin may write or delete. */
  lemma ContinueSigninFrame(store: DealerStore, cache: Cache, prefix: string, id: string, d: Dealer, current: Device,
                            sessionId: string, env: Env, crypto: Crypto, key: string)
    requires id in store && store[id] == d
    requires key != sessionId && key != OtpKey(id) && key != SigninTokenKey(prefix, id, current.deviceId)
    ensures var r := ContinueSignin(store, cache, prefix, id, d, current, sessionId, env, crypto);
      (key in r.cache <==> key in cache) && (key in cache ==> r.cache[key] == cache[key])
  {
    match GetAuthSession(cache, sessionId)
    case None =>
    case Some(auth) =>
      match FindDevice(d.devices, current.deviceId)
      case Some(k) =>
        var refreshed := d.devices[k := d.devices[k].(ip := current.ip, location := current.location)];
        IssueTokenFrame(store, cache, prefix, id, d, refreshed, current, sessionId, env, crypto, key);
      case None =>
        if auth.status == "otp_verified" {
          var enrolled := d.devices + [current.(lastLogin := env.now, creator := false)];
          IssueTokenFrame(store, cache, prefix, id, d, enrolled, current, sessionId, env, crypto, key);
        }
  }

  lemma IssueTokenFrame(store: DealerStore, cache: Cache, prefix: string, id: string, d: Dealer, devices: seq<Device>,
                        current: Device, sessionId: string, env: Env, crypto: Crypto, key: string)
    requires id in store && store[id] == d
    requires key != sessionId && key != SigninTokenKey(prefix, id, current.deviceId)
    ensures var r := IssueToken(store, cache, prefix, id, d, devices, current, sessionId, env, crypto);
      (key in r.cache <==> key in cache) && (key in cache ==> r.cache[key] == cache[key])
  {
  }
}

=== FILE: listing_handlers.dfy ===
/** handlers/listingUtil.go: the HTTP handlers for publishing, closing,
    searching and the feed. A request is reduced to its path and query
    values and the outcome of binding its JSON body (None when binding
    fails); a reply is a status code and a body. */
module ListingHandlers {
  import opened Common
  import opened ListingModels
  import opened ListingRepo
  import opened ListingService
  import opened FeedRepo
  import opened FeedService

  datatype Body =
    | ErrorMessage(text: string)    // {"error": text}
    | ErrorOf(cause: ListingError)  // {"error": cause.Error()}
    | ListingBody(listing: Listing)
    | ListingsBody(listings: seq<Listing>)
    | FeedBody(feed: Feed)
    | NoBody

  datatype Reply = Reply(status: int, body: Body)

  const StatusOK: int := 200
  const StatusBadRequest: int := 400
  const StatusInternalServerError: int := 500

  const DefaultPage: int := 1
  const DefaultLimit: int := 20

  /** A page or limit query value: a positive decimal integer replaces the
      default, anything else (absent, malformed, out of range, zero or
      negative) keeps it. */
  function QueryCount(raw: string, default: int): (r: int)
    requires default >= 1
    ensures 1 <= r <= MaxInt64 || r == default
    ensures r >= 1
    ensures ParseInt(raw).None? ==> r == default
    ensures ParseInt(raw).Some? && ParseInt(raw).value <= 0 ==> r == default
  {
    if raw != "" then
      match ParseInt(raw)
      case Some(n) => if n > 0 then n else default
      case None => default
    else default
  }

  /** A positive count written in decimal is read back as itself. */
  lemma QueryCountReadsDecimal(n: nat, default: int)
    requires 1 <= n <= MaxInt64 && default >= 1
    ensures QueryCount(NatToString(n), default) == n
  {
    ParseIntOfNatToString(n);
  }

  /** The number of listings the pages before `page` hold. */
  function Offset(page: int, limit: int): (o: int)
    requires page >= 1 && limit >= 1
    ensures o >= 0 && o % limit == 0 && o / limit == page - 1
  {
    ExactDivision(page - 1, limit);
    (page - 1) * limit
  }

  lemma ExactDivision(q: nat, d: int)
    requires d >= 1
    ensures q * d >= 0 && (q * d) % d == 0 && (q * d) / d == q
  {
    var a := q * d;
    var k := q - a / d;
    assert d * k == a % d;
  }

  /** The handlers' offset as the source computes it, in Go's 64-bit int,
      where the product wraps. */
  function OffsetAsWritten(page: int, limit: int): (o: int)
    requires 1 <= page <= MaxInt64 && 1 <= limit <= MaxInt64
    ensures MinInt64 <= o <= MaxInt64
    ensures Offset(page, limit) <= MaxInt64 ==> o == Offset(page, limit)
  {
    Wrap64((page - 1) * limit)
  }

  /** The pagination a request asks for. */
  function RequestedPage(pageRaw: string, limitRaw: string): (p: Pagination)
    ensures p.limit >= 1
    ensures p.offset >= 0 && p.offset % p.limit == 0
  {
    var page := QueryCount(pageRaw, DefaultPage);
    var limit := QueryCount(limitRaw, DefaultLimit);
    Pagination(limit, Offset(page, limit))
  }

  function RequestedPageAsWritten(pageRaw: string, limitRaw: string): (p: Pagination)
    ensures p.limit >= 1
    ensures MinInt64 <= p.offset <= MaxInt64
  {
    var page := QueryCount(pageRaw, DefaultPage);
    var limit := QueryCount(limitRaw, DefaultLimit);
    Pagination(limit, OffsetAsWritten(page, limit))
  }

  /** The feed reply for a pagination: 400 when the body does not bind,
      500 with the error when the feed fails, 200 with the feed otherwise. */
  function FeedReply(store: ListingStore, filter: Option<ListingFilter>, p: Pagination,
                     readOk: bool, src: FeedSources, now: int): (r: Reply)
    ensures filter.None? ==> r == Reply(StatusBadRequest, ErrorMessage("Invalid filter"))
    ensures filter.Some? ==> (r.status == StatusOK <==> GetFeed(store, filter.value, p, readOk, src, now).Success?)
    ensures filter.Some? && r.status != StatusOK ==>
      r == Reply(StatusInternalServerError, ErrorOf(GetFeed(store, filter.value, p, readOk, src, now).error))
    ensures filter.Some? && r.status == StatusOK ==> r.body == FeedBody(GetFeed(store, filter.value, p, readOk, src, now).value)
  {
    match filter
    case None => Reply(StatusBadRequest, ErrorMessage("Invalid filter"))
    case Some(f) =>
      match GetFeed(store, f, p, readOk, src, now)
      case Failure(e) => Reply(StatusInternalServerError, ErrorOf(e))
      case Success(feed) => Reply(StatusOK, FeedBody(feed))
  }

  /** GetFeed with the offset kept exact: every well-formed request with
      healthy queries is answered with 200. */
  function GetFeedHandler(store: ListingStore, pageRaw: string, limitRaw: string, filter: Option<ListingFilter>,
                          readOk: bool, src: FeedSources, now: int): (r: Reply)
    ensures filter.None? ==> r == Reply(StatusBadRequest, ErrorMessage("Invalid filter"))
    ensures filter.Some? ==>
      (r.status == StatusOK <==> readOk && src.promotions.Some? && src.banners.Some?)
    ensures filter.Some? && r.status == StatusOK ==>
      r.body == FeedBody(GetFeed(store, filter.value, RequestedPage(pageRaw, limitRaw), readOk, src, now).value)
    ensures filter.Some? && r.status != StatusOK ==>
      r == Reply(StatusInternalServerError,
                 ErrorOf(GetFeed(store, filter.value, RequestedPage(pageRaw, limitRaw), readOk, src, now).error))
  {
    FeedReply(store, filter, RequestedPage(pageRaw, limitRaw), readOk, src, now)
  }

  /** GetFeed as written, with the wrapping offset. */
  function GetFeedHandlerAsWritten(store: ListingStore, pageRaw: string, limitRaw: string, filter: Option<ListingFilter>,
                                   readOk: bool, src: FeedSources, now: int): (r: Reply)
    ensures filter.None? ==> r == Reply(StatusBadRequest, ErrorMessage("Invalid filter"))
    ensures filter.Some? && r.status == StatusOK ==> readOk && src.promotions.Some? && src.banners.Some?
    ensures filter.Some? ==>
      (r.status == StatusOK <==> GetFeed(store, filter.value, RequestedPageAsWritten(pageRaw, limitRaw), readOk, src, now).Success?)
    ensures filter.Some? && r.status == StatusOK ==>
      r.body == FeedBody(GetFeed(store, filter.value, RequestedPageAsWritten(pageRaw, limitRaw), readOk, src, now).value)
    ensures filter.Some? && r.status != StatusOK ==>
      r == Reply(StatusInternalServerError,
                 ErrorOf(GetFeed(store, filter.value, RequestedPageAsWritten(pageRaw, limitRaw), readOk, src, now).error))
  {
    FeedReply(store, filter, RequestedPageAsWritten(pageRaw, limitRaw), readOk, src, now)
  }

  /** On every page whose offset fits in 64 bits the two agree. */
  lemma AsWrittenAgreesWhenInRange(store: ListingStore, pageRaw: string, limitRaw: string,
                                   filter: Option<ListingFilter>, readOk: bool, src: FeedSources, now: int)
    requires Offset(QueryCount(pageRaw, DefaultPage), QueryCount(limitRaw, DefaultLimit)) <= MaxInt64
    ensures GetFeedHandlerAsWritten(store, pageRaw, limitRaw, filter, readOk, src, now)
         == GetFeedHandler(store, pageRaw, limitRaw, filter, readOk, src, now)
  {
  }

  /** Page 2^62 + 1 of two listings per page: the offset 2^63 wraps to
      -2^63, the database refuses the negative skip, and a healthy server
      answers 500. */
  lemma FarFeedPageFails(store: ListingStore, f: ListingFilter, src: FeedSources, now: int)
    requires src.promotions.Some? && src.banners.Some?
    ensures GetFeedHandlerAsWritten(store, NatToString(0x4000_0000_0000_0001), "2", Some(f), true, src, now).status
         == StatusInternalServerError
  {
    FarRequestedPageAsWritten(2);
    FarOffsetsWrap();
    assert NatToString(2) == "2";
    var p := RequestedPageAsWritten(NatToString(0x4000_0000_0000_0001), "2");
    assert p.offset < 0;
    assert !GetFeed(store, f, p, true, src, now).Success?;
  }

  /** Page 2^62 + 1 of four listings per page: the offset 2^64 wraps to 0,
      so the far page serves the first page. */
  lemma FarFeedPageServesFirstPage(store: ListingStore, f: ListingFilter, readOk: bool, src: FeedSources, now: int)
    ensures GetFeedHandlerAsWritten(store, NatToString(0x4000_0000_0000_0001), "4", Some(f), readOk, src, now)
         == GetFeedHandlerAsWritten(store, "1", "4", Some(f), readOk, src, now)
  {
    FarRequestedPageAsWritten(4);
    FarOffsetsWrap();
    FirstRequestedPage();
  }

  /** The far page as the handlers read it, before the product wraps. */
  lemma FarRequestedPageAsWritten(limit: nat)
    requires 1 <= limit <= MaxInt64
    ensures RequestedPageAsWritten(NatToString(0x4000_0000_0000_0001), NatToString(limit))
         == Pagination(limit, Wrap64(0x4000_0000_0000_0000 * limit))
  {
    QueryCountReadsDecimal(0x4000_0000_0000_0001, DefaultPage);
    QueryCountReadsDecimal(limit, DefaultLimit);
  }

  /** 2 * 2^62 wraps to the least int64, 4 * 2^62 to zero. */
  lemma FarOffsetsWrap()
    ensures Wrap64(0x4000_0000_0000_0000 * 2) == MinInt64
    ensures Wrap64(0x4000_0000_0000_0000 * 4) == 0
  {
  }

  /** The first page of four: the request "1", "4" asks for offset 0. */
  lemma FirstRequestedPage()
    ensures NatToString(4) == "4"
    ensures RequestedPageAsWritten("1", "4") == Pagination(4, 0)
  {
    ParseIntOfNatToString(4);
    ParseIntOfNatToString(1);
    assert NatToString(4) == "4";
    assert NatToString(1) == "1";
  }

  /** With the exact offset the far page is simply empty. */
  lemma FarFeedPageIsEmpty(store: ListingStore, f: ListingFilter, src: FeedSources, now: int, limit: nat)
    requires src.promotions.Some? && src.banners.Some?
    requires 1 <= limit <= MaxInt64 && |store| <= 0x4000_0000_0000_0000
    ensures var r := GetFeedHandler(store, NatToString(0x4000_0000_0000_0001), NatToString(limit), Some(f), true, src, now);
      r.status == StatusOK && r.body.FeedBody? && r.body.feed.listings == []
  {
    FarRequestedPage(limit);
    FeedPastTheEndIsEmpty(store, f, Pagination(limit, 0x4000_0000_0000_0000 * limit), src, now);
  }

  lemma FarRequestedPage(limit: nat)
    requires 1 <= limit <= MaxInt64
    ensures RequestedPage(NatToString(0x4000_0000_0000_0001), NatToString(limit))
         == Pagination(limit, 0x4000_0000_0000_0000 * limit)
  {
    QueryCountReadsDecimal(0x4000_0000_0000_0001, DefaultPage);
    QueryCountReadsDecimal(limit, DefaultLimit);
    assert Offset(0x4000_0000_0000_0001, limit) == 0x4000_0000_0000_0000 * limit;
  }

  lemma FeedPastTheEndIsEmpty(store: ListingStore, f: ListingFilter, p: Pagination, src: FeedSources, now: int)
    requires src.promotions.Some? && src.banners.Some?
    requires p.offset >= |store|
    ensures var r := FeedReply(store, Some(f), p, true, src, now);
      r.status == StatusOK && r.body.FeedBody? && r.body.feed.listings == []
  {
    var feed := GetFeed(store, f, p, true, src, now).value;
    assert multiset(feed.listings) == multiset{};
  }

  /** The repository's SearchListings, whose code is not part of this
      model. */
  type SearchRepo = (ListingFilter, Pagination) -> Result<seq<Listing>, ListingError>

  /** SearchListings: 400 when the body does not bind, 500 with the error
      when the search fails, 200 with the results otherwise. The page
      handed to the search is computed as GetFeed computes it, with the
      64-bit wrapping offset. */
  function SearchListingsHandler(pageRaw: string, limitRaw: string, filter: Option<ListingFilter>, search: SearchRepo)
    : (r: Reply)
    ensures filter.None? ==> r == Reply(StatusBadRequest, ErrorMessage("Invalid filter data"))
    ensures filter.Some? ==>
      var res := search(filter.value, RequestedPageAsWritten(pageRaw, limitRaw));
      && (res.Success? ==> r == Reply(StatusOK, ListingsBody(res.value)))
      && (res.Failure? ==> r == Reply(StatusInternalServerError, ErrorOf(res.error)))
  {
    match filter
    case None => Reply(StatusBadRequest, ErrorMessage("Invalid filter data"))
    case Some(f) =>
      match search(f, RequestedPageAsWritten(pageRaw, limitRaw))
      case Failure(e) => Reply(StatusInternalServerError, ErrorOf(e))
      case Success(ls) => Reply(StatusOK, ListingsBody(ls))
  }

  /** While the offset fits in 64 bits the search is asked for exactly the
      requested page. */
  lemma SearchGetsRequestedPageWhenInRange(pageRaw: string, limitRaw: string, filter: Option<ListingFilter>, search: SearchRepo)
    requires Offset(QueryCount(pageRaw, DefaultPage), QueryCount(limitRaw, DefaultLimit)) <= MaxInt64
    ensures filter.Some? ==>
      var res := search(filter.value, RequestedPage(pageRaw, limitRaw));
      var r := SearchListingsHandler(pageRaw, limitRaw, filter, search);
      && (res.Success? ==> r == Reply(StatusOK, ListingsBody(res.value)))
      && (res.Failure? ==> r == Reply(StatusInternalServerError, ErrorOf(res.error)))
  {
  }

  /** PublishListing: 500 with the service's error, or 200 with the
      published listing. */
  function PublishListingHandler(listings: ListingStore, inbox: NotificationStore, listingId: string,
                                 dealerQuery: string, env: ListingEnv, nt: Notifier)
    : (r: (Reply, ListingStore, NotificationStore))
    ensures r.0.status == StatusOK || r.0.status == StatusInternalServerError
    ensures r.0.status == StatusOK ==> r.0.body.ListingBody? && r.0.body.listing.status == Active
    ensures r.0.status == StatusInternalServerError ==> r.2 == inbox
    ensures r.0.status == StatusInternalServerError && env.reloadOk ==> r.1 == listings
    ensures !IsObjectIdHex(dealerQuery) ==>
      r.0 == Reply(StatusInternalServerError, ErrorOf(Message("invalid dealer ID format")))
  {
    var o := PublishListing(listings, inbox, listingId, dealerQuery, env, nt);
    match o.result
    case Failure(e) => (Reply(StatusInternalServerError, ErrorOf(e)), o.listings, o.inbox)
    case Success(l) => (Reply(StatusOK, ListingBody(l)), o.listings, o.inbox)
  }

  /** CloseListing: only the exact query value "true" marks the caller as
      a dealer; 500 with the service's error, or 200 with no body. */
  function CloseListingHandler(listings: ListingStore, inbox: NotificationStore, listingId: string,
                               isDealerQuery: string, ownerQuery: string, env: ListingEnv, nt: Notifier)
    : (r: (Reply, ListingStore, NotificationStore))
    ensures r.0.status == StatusOK <==>
      CloseListing(listings, inbox, listingId, ownerQuery, isDealerQuery == "true", env, nt).result.Success?
    ensures r.0.status == StatusOK ==> r.0.body == NoBody
    ensures r.0.status != StatusOK ==> r.0.status == StatusInternalServerError && r.2 == inbox
    ensures r.0.status != StatusOK && env.reloadOk ==> r.1 == listings
  {
    var o := CloseListing(listings, inbox, listingId, ownerQuery, isDealerQuery == "true", env, nt);
    match o.result
    case Failure(e) => (Reply(StatusInternalServerError, ErrorOf(e)), o.listings, o.inbox)
    case Success(_) => (Reply(StatusOK, NoBody), o.listings, o.inbox)
  }

  /** A 500 from PublishListing does not mean nothing happened: when only
      the read-back fails, the listing is already active in the store. */
  lemma PublishErrorAfterStoredWrite(listings: ListingStore, inbox: NotificationStore, listingId: string,
                                     dealerQuery: string, env: ListingEnv, nt: Notifier)
    requires IsObjectIdHex(listingId) && IsObjectIdHex(dealerQuery) && env.readOk && env.writeOk && !env.reloadOk
    requires HasListing(listings, ObjectId(ToLower(listingId)))
    ensures var r := PublishListingHandler(listings, inbox, listingId, dealerQuery, env, nt);
            var i := FindListing(listings, ObjectId(ToLower(listingId))).value;
            && r.0 == Reply(StatusInternalServerError, ErrorOf(ReloadFailure))
            && |r.1| == |listings| && r.1[i].status == Active
  {
    PublishReloadFailureKeepsStatus(listings, inbox, listingId, dealerQuery, env, nt);
  }

  /** Any other spelling of "true" closes the listing as its user owner. */
  lemma OnlyExactTrueMeansDealer(listings: ListingStore, inbox: NotificationStore, listingId: string,
                                 ownerQuery: string, env: ListingEnv, nt: Notifier)
    ensures CloseListingHandler(listings, inbox, listingId, "True", ownerQuery, env, nt)
         == CloseListingHandler(listings, inbox, listingId, "false", ownerQuery, env, nt)
  {
  }
}

=== FILE: listing_models.dfy ===
/** models/listing.go and models/notification.go: listings with their bids,
    the feed's promotions and banners, and notifications. Times are
    integers; prices and offers are reals. */
module ListingModels {
  import opened Common

  /** A 12-byte ObjectID, held as its lower-case 24-digit hex form. */
  datatype ObjectId = ObjectId(hex: string)

  const NilObjectId: ObjectId := ObjectId("000000000000000000000000")

  predicate IsLowerHexDigit(c: char) { IsDigit(c) || 'a' <= c <= 'f' }

  /** The hex form of an actual ObjectID. */
  predicate Canonical(id: ObjectId) {
    |id.hex| == 24 && forall i | 0 <= i < 24 :: IsLowerHexDigit(id.hex[i])
  }

  /** The ids the driver generates and Hex() prints. */
  type Oid = id: ObjectId | Canonical(id) witness NilObjectId

  /** primitive.ObjectIDFromHex: exactly 24 hex digits of either case. */
  predicate IsObjectIdHex(s: string) {
    |s| == 24 && forall i | 0 <= i < 24 :: IsHexDigit(s[i])
  }

  function ObjectIdFromHex(s: string): (r: Option<ObjectId>)
    ensures r.Some? <==> IsObjectIdHex(s)
    ensures r.Some? ==> Canonical(r.value) && r.value.hex == ToLower(s)
  {
    if IsObjectIdHex(s) then Some(ObjectId(ToLower(s))) else None
  }

  /** Parsing the hex form of an id gives the id back. */
  lemma ObjectIdRoundTrip(id: ObjectId)
    requires Canonical(id)
    ensures ObjectIdFromHex(id.hex) == Some(id)
  {
    ToLowerIdentity(id.hex);
  }

  datatype ListingType = DealerType | UserBidType | OtherType(name: string)

  datatype ListingStatus = Draft | Active | Open | Accepted | Closed | Sold | OtherStatus(name: string)

  /** The stored string of a status. */
  function StatusName(s: ListingStatus): string {
    match s
    case Draft => "draft"
    case Active => "active"
    case Open => "open"
    case Accepted => "accepted"
    case Closed => "closed"
    case Sold => "sold"
    case OtherStatus(name) => name
  }

  /** The status a stored string denotes. */
  function ParseStatus(name: string): (s: ListingStatus)
    ensures StatusName(s) == name
  {
    if name == "draft" then Draft
    else if name == "active" then Active
    else if name == "open" then Open
    else if name == "accepted" then Accepted
    else if name == "closed" then Closed
    else if name == "sold" then Sold
    else OtherStatus(name)
  }

  const StatusNames: set<string> := {"draft", "active", "open", "accepted", "closed", "sold"}

  /** A status value that a stored string can denote: an unknown status
      never carries one of the six known names. */
  predicate WellNamed(s: ListingStatus) {
    s.OtherStatus? ==> s.name !in StatusNames
  }

  /** A status is read back as the status it was stored as. */
  lemma ParseStatusName(s: ListingStatus)
    requires WellNamed(s)
    ensures ParseStatus(StatusName(s)) == s
  {
  }

  datatype CarDetails = CarDetails(vin: string, make: string, model: string, year: int, price: real)

  const NoCarDetails := CarDetails("", "", "", 0, 0.0)

  datatype Bid = Bid(id: ObjectId, dealerId: ObjectId, offer: real, message: string, createdAt: int, updatedAt: int)

  datatype InterestedUser = InterestedUser(userId: string, createdAt: int)

  datatype DealerListing = DealerListing(dealerId: ObjectId, interests: seq<InterestedUser>)

  /** `acceptedBid` is the pointer field; a nil and an empty bid list are
      stored alike (the field is omitted when empty). */
  datatype UserListing = UserListing(userId: ObjectId, bids: seq<Bid>, acceptedBid: Option<ObjectId>)

  const NoDealerListing := DealerListing(NilObjectId, [])
  const NoUserListing := UserListing(NilObjectId, [], None)

  datatype Listing = Listing(
    id: ObjectId,
    kind: ListingType,
    carDetails: CarDetails,
    status: ListingStatus,
    views: int,
    createdAt: int,
    updatedAt: int,
    userListing: UserListing,
    dealerListing: DealerListing)

  /** The listings collection in insertion order. */
  type ListingStore = seq<Listing>

  ghost predicate DistinctListingIds(s: ListingStore) {
    forall i, j | 0 <= i < j < |s| :: s[i].id != s[j].id
  }

  predicate HasListing(s: ListingStore, id: ObjectId) {
    exists i | 0 <= i < |s| :: s[i].id == id
  }

  /** Index of the first listing with this id. */
  function FindListing(s: ListingStore, id: ObjectId): (r: Option<nat>)
    ensures r.Some? ==> r.value < |s| && s[r.value].id == id
    ensures r.Some? ==> forall k | 0 <= k < r.value :: s[k].id != id
    ensures r.None? <==> !HasListing(s, id)
  {
    if |s| == 0 then None
    else if s[0].id == id then Some(0)
    else
      match FindListing(s[1..], id)
      case None => None
      case Some(k) => Some(k + 1)
  }

  /** One value of a dynamically typed update map (`map[string]interface{}`):
      a scalar of one of the dynamic types the code inspects, a time, or a
      nested document of scalars. */
  datatype Field = StrField(s: string) | IntField(i: int) | FloatField(f: real) | OtherField
  datatype UpdateValue = ScalarValue(field: Field) | TimeValue(t: int) | DocValue(doc: map<string, Field>)
  type Updates = map<string, UpdateValue>

  datatype ListingFilter = ListingFilter(
    kind: ListingType, make: string, model: string, minYear: int, maxYear: int, minPrice: real, maxPrice: real)

  datatype Pagination = Pagination(limit: int, offset: int)

  datatype Promotion = Promotion(id: ObjectId, title: string, displayFrom: int, displayTo: int)

  datatype Banner = Banner(id: ObjectId, position: string, isActive: bool)

  datatype SuggestionKind = MakeSuggestion | ModelSuggestion

  datatype SearchSuggestion = SearchSuggestion(text: string, kind: SuggestionKind, score: real)

  /* -------------------------------------------------------- notifications */

  datatype NotificationTarget = UserTarget | DealerTarget

  datatype NotificationType = BidPlaced | BidAccepted | ListingCreated | ListingUpdated | ListingPublished | ListingClosed

  datatype Notification = Notification(
    id: ObjectId,
    recipient: ObjectId,
    target: NotificationTarget,
    kind: NotificationType,
    title: string,
    body: string,
    data: map<string, Field>,   // the payload: listing id, offer or new price
    read: bool,
    createdAt: int,
    updatedAt: int)

  /** The notifications collection in insertion order. */
  type NotificationStore = seq<Notification>
}

=== FILE: listing_repo.dfy ===
/** database/repository/listing/listingMongoCrud.go and
    listingMongoQueries.go: the listings collection as a sequence of
    documents in insertion order. Each driver call's failure is a boolean
    the caller passes in; generated ids and `now` are parameters. */
module ListingRepo {
  import opened Common
  import opened ListingModels
  import opened ListingValidation

  /** The errors of the listing repository and service: the repository's
      sentinels, errors.New texts, fmt.Errorf("context: %w") wrappers, a
      driver error, and the car-details rejections. */
  datatype ListingError =
    | ErrNotFound      // "listing not found"
    | ErrInvalidId     // "invalid listing ID"
    | ErrInvalidType   // "invalid listing type"
    | Message(text: string)
    | Wrapped(context: string, cause: ListingError)
    | DbFailure
    | HexError         // the ObjectID parser's own error
    | CarDetailsRejected(reason: CarDetailsError)

  /** errors.Is: the error or any error it wraps is `target`. */
  predicate Is(e: ListingError, target: ListingError) {
    e == target || (e.Wrapped? && Is(e.cause, target))
  }

  /** The document the repository inserts: a fresh id only when none is
      set, both timestamps, and the status and bids forced by the type. */
  function NormalizeNew(l: Listing, freshId: ObjectId, now: int): (r: Result<Listing, ListingError>)
    ensures r.Success? <==> PriceFits(l.kind, l.carDetails.price)
    ensures l.kind == DealerType && l.carDetails.price <= 0.0 ==>
      r == Failure(Message("dealer listings require positive price"))
    ensures l.kind == UserBidType && l.carDetails.price != 0.0 ==>
      r == Failure(Message("user bid listings must not have price"))
    ensures l.kind.OtherType? ==> r == Failure(ErrInvalidType)
    ensures r.Success? ==>
      var n := r.value;
      && n.id == (if l.id == NilObjectId then freshId else l.id)
      && n.createdAt == now && n.updatedAt == now
      && n.status == (if l.kind == DealerType then Draft else Open)
      && n.userListing.bids == []
      && n.kind == l.kind && n.carDetails == l.carDetails && n.views == l.views
      && n.userListing.userId == l.userListing.userId
      && n.userListing.acceptedBid == l.userListing.acceptedBid
      && n.dealerListing == l.dealerListing
  {
    var stamped := l.(id := if l.id == NilObjectId then freshId else l.id, createdAt := now, updatedAt := now);
    match l.kind
    case DealerType =>
      if l.carDetails.price <= 0.0 then Failure(Message("dealer listings require positive price"))
      else Success(stamped.(status := Draft, userListing := stamped.userListing.(bids := [])))
    case UserBidType =>
      if l.carDetails.price != 0.0 then Failure(Message("user bid listings must not have price"))
      else Success(stamped.(status := Open, userListing := stamped.userListing.(bids := [])))
    case OtherType(_) => Failure(ErrInvalidType)
  }

  /** CreateListing: inserts the normalised document and returns its hex
      id. An insert that the driver refuses (including a duplicate _id)
      stores nothing. */
  function CreateListing(store: ListingStore, l: Listing, freshId: ObjectId, now: int, insertOk: bool)
    : (r: Result<(string, ListingStore), ListingError>)
    ensures NormalizeNew(l, freshId, now).Failure? ==> r == Failure(NormalizeNew(l, freshId, now).error)
    ensures r.Success? <==>
      NormalizeNew(l, freshId, now).Success? && insertOk && !HasListing(store, NormalizeNew(l, freshId, now).value.id)
    ensures r.Success? ==>
      var n := NormalizeNew(l, freshId, now).value;
      r.value == (n.id.hex, store + [n])
    ensures NormalizeNew(l, freshId, now).Success? && r.Failure? ==>
      r.error == Wrapped("failed to create listing", DbFailure)
  {
    match NormalizeNew(l, freshId, now)
    case Failure(e) => Failure(e)
    case Success(n) =>
      if !insertOk || HasListing(store, n.id) then Failure(Wrapped("failed to create listing", DbFailure))
      else Success((n.id.hex, store + [n]))
  }

  /** The unique _id index: a successful insert keeps ids distinct. */
  lemma CreateKeepsIdsDistinct(store: ListingStore, l: Listing, freshId: ObjectId, now: int, insertOk: bool)
    requires DistinctListingIds(store)
    requires CreateListing(store, l, freshId, now, insertOk).Success?
    ensures DistinctListingIds(CreateListing(store, l, freshId, now, insertOk).value.1)
  {
    var n := NormalizeNew(l, freshId, now).value;
    var s' := store + [n];
    forall i, j | 0 <= i < j < |s'|
      ensures s'[i].id != s'[j].id
    {
      if j == |store| {
        assert s'[i] == store[i];
      }
    }
  }

  /** GetListingByID. */
  function GetListingById(store: ListingStore, id: string, readOk: bool): (r: Result<Listing, ListingError>)
    ensures !IsObjectIdHex(id) ==> r == Failure(ErrInvalidId)
    ensures IsObjectIdHex(id) && !readOk ==> r == Failure(Wrapped("failed to get listing", DbFailure))
    ensures IsObjectIdHex(id) && readOk ==>
      (r.Success? <==> HasListing(store, ObjectId(ToLower(id))))
    ensures IsObjectIdHex(id) && readOk && r.Failure? ==> r.error == ErrNotFound
    ensures r.Success? ==> r.value in store && r.value.id == ObjectId(ToLower(id))
  {
    match ObjectIdFromHex(id)
    case None => Failure(ErrInvalidId)
    case Some(oid) =>
      if !readOk then Failure(Wrapped("failed to get listing", DbFailure))
      else match FindListing(store, oid)
        case None => Failure(ErrNotFound)
        case Some(i) => Success(store[i])
  }

  /** The stored car details after `$set` of a "carDetails" document: the
      sub-document is replaced, so a field the update leaves out reads back
      as its zero value. A number decodes into either numeric field; a
      float year reads back as the integer it equals. */
  function StoredCarDetails(doc: map<string, Field>): (r: CarDetails)
    ensures "vin" !in doc ==> r.vin == ""
    ensures "make" !in doc ==> r.make == ""
    ensures "model" !in doc ==> r.model == ""
    ensures "year" !in doc ==> r.year == 0
    ensures "price" !in doc ==> r.price == 0.0
    ensures "vin" in doc && doc["vin"].StrField? ==> r.vin == doc["vin"].s
    ensures "make" in doc && doc["make"].StrField? ==> r.make == doc["make"].s
    ensures "model" in doc && doc["model"].StrField? ==> r.model == doc["model"].s
    ensures "year" in doc && doc["year"].IntField? ==> r.year == doc["year"].i
    ensures "year" in doc && doc["year"].FloatField? && doc["year"].f == doc["year"].f.Floor as real ==>
      r.year as real == doc["year"].f
    ensures "price" in doc && doc["price"].IntField? ==> r.price == doc["price"].i as real
    ensures "price" in doc && doc["price"].FloatField? ==> r.price == doc["price"].f
  {
    CarDetails(
      StrOr(doc, "vin", ""), StrOr(doc, "make", ""), StrOr(doc, "model", ""),
      if "year" in doc && doc["year"].FloatField? then doc["year"].f.Floor else IntOr(doc, "year", 0),
      if "price" in doc && doc["price"].IntField? then doc["price"].i as real else FloatOr(doc, "price", 0.0))
  }

  /** The effect of `$set` with an update map on the fields this model
      tracks: "status", "updatedAt" and "carDetails". */
  function ApplySet(l: Listing, u: Updates): (r: Listing)
    ensures r.id == l.id && r.kind == l.kind && r.views == l.views && r.createdAt == l.createdAt
    ensures r.userListing == l.userListing && r.dealerListing == l.dealerListing
    ensures "status" !in u ==> r.status == l.status
    ensures "status" in u && u["status"].ScalarValue? && u["status"].field.StrField? ==>
      StatusName(r.status) == u["status"].field.s
    ensures "updatedAt" in u && u["updatedAt"].TimeValue? ==> r.updatedAt == u["updatedAt"].t
    ensures "carDetails" !in u ==> r.carDetails == l.carDetails
  {
    l.(status := if "status" in u && u["status"].ScalarValue? && u["status"].field.StrField?
                 then ParseStatus(u["status"].field.s) else l.status,
       updatedAt := if "updatedAt" in u && u["updatedAt"].TimeValue? then u["updatedAt"].t else l.updatedAt,
       carDetails := if "carDetails" in u && u["carDetails"].DocValue?
                     then StoredCarDetails(u["carDetails"].doc) else l.carDetails)
  }

  /** The update map that sets one status. */
  function StatusUpdate(s: ListingStatus): Updates {
    map["status" := ScalarValue(StrField(StatusName(s)))]
  }

  /** UpdateListing: refuses "type", stamps "updatedAt" and applies the
      `$set` to the listing with that id; only that listing changes. */
  function UpdateListing(store: ListingStore, id: string, updates: Updates, now: int, writeOk: bool)
    : (r: Result<ListingStore, ListingError>)
    ensures !IsObjectIdHex(id) ==> r == Failure(ErrInvalidId)
    ensures IsObjectIdHex(id) && "type" in updates ==> r == Failure(Message("cannot modify listing type"))
    ensures r.Success? <==>
      IsObjectIdHex(id) && "type" !in updates && writeOk && HasListing(store, ObjectId(ToLower(id)))
    ensures IsObjectIdHex(id) && "type" !in updates && writeOk && r.Failure? ==> r.error == ErrNotFound
    ensures r.Success? ==>
      var i := FindListing(store, ObjectId(ToLower(id))).value;
      && |r.value| == |store|
      && r.value[i] == ApplySet(store[i], updates["updatedAt" := TimeValue(now)])
      && r.value[i].updatedAt == now && r.value[i].kind == store[i].kind
      && (forall k | 0 <= k < |store| && k != i :: r.value[k] == store[k])
  {
    match ObjectIdFromHex(id)
    case None => Failure(ErrInvalidId)
    case Some(oid) =>
      if "type" in updates then Failure(Message("cannot modify listing type"))
      else if !writeOk then Failure(Wrapped("failed to update listing", DbFailure))
      else match FindListing(store, oid)
        case None => Failure(ErrNotFound)
        case Some(i) => Success(store[i := ApplySet(store[i], updates["updatedAt" := TimeValue(now)])])
  }

  /** DeleteListing: removes the listing with that id. */
  function DeleteListing(store: ListingStore, id: string, deleteOk: bool): (r: Result<ListingStore, ListingError>)
    ensures !IsObjectIdHex(id) ==> r == Failure(ErrInvalidId)
    ensures r.Success? <==> IsObjectIdHex(id) && deleteOk && HasListing(store, ObjectId(ToLower(id)))
    ensures IsObjectIdHex(id) && deleteOk && r.Failure? ==> r.error == ErrNotFound
    ensures r.Success? ==>
      var i := FindListing(store, ObjectId(ToLower(id))).value;
      r.value == store[..i] + store[i + 1..] && |r.value| == |store| - 1
  {
    match ObjectIdFromHex(id)
    case None => Failure(ErrInvalidId)
    case Some(oid) =>
      if !deleteOk then Failure(Wrapped("failed to delete listing", DbFailure))
      else match FindListing(store, oid)
        case None => Failure(ErrNotFound)
        case Some(i) => Success(store[..i] + store[i + 1..])
  }

  /** Whether a listing belongs to the dealer with this hex id. */
  predicate OwnedByDealer(l: Listing, dealerId: string) {
    l.dealerListing.dealerId.hex == dealerId
  }

  /** The listings that do not belong to the dealer, in order. */
  function WithoutDealer(s: ListingStore, dealerId: string): (r: ListingStore)
    ensures |r| <= |s|
    ensures forall i | 0 <= i < |r| :: !OwnedByDealer(r[i], dealerId) && r[i] in s
    ensures forall i | 0 <= i < |s| :: !OwnedByDealer(s[i], dealerId) ==> s[i] in r
  {
    if |s| == 0 then []
    else if OwnedByDealer(s[0], dealerId) then WithoutDealer(s[1..], dealerId)
    else [s[0]] + WithoutDealer(s[1..], dealerId)
  }

  /** DeleteListingsByDealerID: removes every listing of the dealer and
      succeeds whether or not there was one. */
  function DeleteListingsByDealerId(store: ListingStore, dealerId: string, deleteOk: bool)
    : (r: Result<ListingStore, ListingError>)
    ensures r.Success? <==> deleteOk
    ensures r.Success? ==> r.value == WithoutDealer(store, dealerId)
  {
    if !deleteOk then Failure(DbFailure) else Success(WithoutDealer(store, dealerId))
  }

  /** Deleting a dealer that has no listings leaves the collection as it
      was, and still succeeds. */
  lemma {:induction false} DeleteNoneKeepsStore(store: ListingStore, dealerId: string)
    requires forall i | 0 <= i < |store| :: !OwnedByDealer(store[i], dealerId)
    ensures WithoutDealer(store, dealerId) == store
  {
    if |store| > 0 {
      DeleteNoneKeepsStore(store[1..], dealerId);
    }
  }

  /** Updating listings in place keeps the index lookup finds. */
  lemma {:induction false} SameIdsSameFind(s1: ListingStore, s2: ListingStore, id: ObjectId)
    requires |s1| == |s2|
    requires forall k | 0 <= k < |s1| :: s1[k].id == s2[k].id
    ensures FindListing(s1, id) == FindListing(s2, id)
  {
    if |s1| > 0 {
      SameIdsSameFind(s1[1..], s2[1..], id);
    }
  }

  /** The listing AddBid may push to: a user-bid listing that is open. */
  predicate Biddable(l: Listing) { l.kind == UserBidType && l.status == Open }

  /** AddBid: the bid gets a fresh id and both timestamps, whatever the
      client sent, and is appended to the listing's bids. */
  function AddBid(store: ListingStore, listingId: string, bid: Bid, freshBidId: ObjectId, now: int, writeOk: bool)
    : (r: Result<ListingStore, ListingError>)
    ensures !IsObjectIdHex(listingId) ==> r == Failure(ErrInvalidId)
    ensures r.Success? <==>
      && IsObjectIdHex(listingId) && writeOk
      && FindListing(store, ObjectId(ToLower(listingId))).Some?
      && Biddable(store[FindListing(store, ObjectId(ToLower(listingId))).value])
    ensures IsObjectIdHex(listingId) && writeOk && r.Failure? ==> r.error == ErrNotFound
    ensures r.Success? ==>
      var i := FindListing(store, ObjectId(ToLower(listingId))).value;
      && |r.value| == |store|
      && r.value[i].userListing.bids
         == store[i].userListing.bids + [bid.(id := freshBidId, createdAt := now, updatedAt := now)]
      && r.value[i].status == store[i].status && r.value[i].updatedAt == now
      && (forall k | 0 <= k < |store| && k != i :: r.value[k] == store[k])
  {
    match ObjectIdFromHex(listingId)
    case None => Failure(ErrInvalidId)
    case Some(oid) =>
      if !writeOk then Failure(Wrapped("failed to add bid", DbFailure))
      else match FindListing(store, oid)
        case None => Failure(ErrNotFound)
        case Some(i) =>
          if !Biddable(store[i]) then Failure(ErrNotFound)
          else
            var l := store[i];
            var stamped := bid.(id := freshBidId, createdAt := now, updatedAt := now);
            Success(store[i := l.(userListing := l.userListing.(bids := l.userListing.bids + [stamped]), updatedAt := now)])
  }

  predicate HasBid(l: Listing, bidId: ObjectId) {
    exists k | 0 <= k < |l.userListing.bids| :: l.userListing.bids[k].id == bidId
  }

  /** The transaction's lookup: an open listing with that id holding a bid
      with that id. */
  predicate OpenWithBid(store: ListingStore, listingId: ObjectId, bidId: ObjectId) {
    && FindListing(store, listingId).Some?
    && var l := store[FindListing(store, listingId).value];
       l.status == Open && HasBid(l, bidId)
  }

  /** AcceptBid: one transaction that finds the open listing holding the
      bid and marks it accepted with that bid. A session that does not
      start is reported as such; inside the transaction any failure of the
      lookup, a read fault as much as a missing listing, is "not found"
      whatever the store would do with the write, and nothing changes
      unless the whole update happens. */
  function AcceptBid(store: ListingStore, listingId: string, bidId: string, now: int,
                     sessionOk: bool, readOk: bool, writeOk: bool)
    : (r: Result<ListingStore, ListingError>)
    ensures !IsObjectIdHex(listingId) || !IsObjectIdHex(bidId) ==> r == Failure(ErrInvalidId)
    ensures IsObjectIdHex(listingId) && IsObjectIdHex(bidId) && !sessionOk ==>
      r == Failure(Wrapped("failed to start session", DbFailure))
    ensures r.Success? <==>
      && IsObjectIdHex(listingId) && IsObjectIdHex(bidId) && sessionOk && readOk && writeOk
      && FindListing(store, ObjectId(ToLower(listingId))).Some?
      && var l := store[FindListing(store, ObjectId(ToLower(listingId))).value];
         l.status == Open && HasBid(l, ObjectId(ToLower(bidId)))
    ensures IsObjectIdHex(listingId) && IsObjectIdHex(bidId) && sessionOk && writeOk && r.Failure? ==>
      r.error == ErrNotFound
    ensures IsObjectIdHex(listingId) && IsObjectIdHex(bidId) && sessionOk
            && (!readOk || !OpenWithBid(store, ObjectId(ToLower(listingId)), ObjectId(ToLower(bidId)))) ==>
      r == Failure(ErrNotFound)
    ensures IsObjectIdHex(listingId) && IsObjectIdHex(bidId) && sessionOk && readOk && !writeOk
            && OpenWithBid(store, ObjectId(ToLower(listingId)), ObjectId(ToLower(bidId))) ==>
      r == Failure(Wrapped("failed to accept bid", DbFailure))
    ensures r.Success? ==>
      var i := FindListing(store, ObjectId(ToLower(listingId))).value;
      && |r.value| == |store|
      && r.value[i].status == Accepted
      && r.value[i].userListing.acceptedBid == Some(ObjectId(ToLower(bidId)))
      && r.value[i].userListing.bids == store[i].userListing.bids
      && r.value[i].id == store[i].id && r.value[i].kind == store[i].kind
      && (forall k | 0 <= k < |store| && k != i :: r.value[k] == store[k])
  {
    match ObjectIdFromHex(listingId)
    case None => Failure(ErrInvalidId)
    case Some(lid) =>
      match ObjectIdFromHex(bidId)
      case None => Failure(ErrInvalidId)
      case Some(bid) =>
        if !sessionOk then Failure(Wrapped("failed to start session", DbFailure))
        else if !readOk then Failure(ErrNotFound)
        else match FindListing(store, lid)
        case None => Failure(ErrNotFound)
        case Some(i) =>
          var l := store[i];
          if l.status != Open || !HasBid(l, bid) then Failure(ErrNotFound)
          else if !writeOk then Failure(Wrapped("failed to accept bid", DbFailure))
          else
            Success(store[i := l.(status := Accepted,
                                  userListing := l.userListing.(acceptedBid := Some(bid)),
                                  updatedAt := now)])
  }

  /** Once a bid is accepted the listing is no longer open, so no further
      bid can be added to it or accepted on it. */
  lemma AcceptedListingIsClosedToBids(
    store: ListingStore, listingId: string, bidId: string, now: int, ok: bool,
    bid: Bid, freshBidId: ObjectId, otherBidId: string, later: int, ok2: bool)
    requires AcceptBid(store, listingId, bidId, now, true, true, ok).Success?
    ensures var s' := AcceptBid(store, listingId, bidId, now, true, true, ok).value;
      && AddBid(s', listingId, bid, freshBidId, later, ok2).Failure?
      && forall sessionOk: bool, readOk: bool :: AcceptBid(s', listingId, otherBidId, later, sessionOk, readOk, ok2).Failure?
  {
    var oid := ObjectId(ToLower(listingId));
    var i := FindListing(store, oid).value;
    var s' := AcceptBid(store, listingId, bidId, now, true, true, ok).value;
    assert forall k | 0 <= k < i :: s'[k].id != oid;
    assert s'[i].id == oid;
    assert FindListing(s', oid) == Some(i);
  }
}

=== FILE: listing_service.dfy ===
/** services/listing/crud.go, userBid.go and notify.go: the listing
    operations over the listings and notifications collections.
    Notification texts are not part of this model: the body of each
    notification is the value of `compose` on its kind and the listing's
    car details. */
module ListingService {
  import opened Common
  import opened ListingModels
  import opened ListingUtils
  import opened ListingValidation
  import opened ListingRepo
  import opened NotificationService

  /** What one request sees of its collaborators: the clock and its year,
      the generated ObjectID, whether the store read before a write, the
      write itself, the read-back after it and the start of a transaction
      session succeed, and the VIN registry. */
  datatype ListingEnv = ListingEnv(
    now: int,
    currentYear: int,
    freshId: Oid,
    readOk: bool,
    writeOk: bool,
    reloadOk: bool,
    sessionOk: bool,
    registry: VinRegistry)

  /** How notifications fare: their texts, the ids the notification store
      generates (by the store's size), and whether the insert succeeds. */
  datatype Notifier = Notifier(
    compose: (NotificationType, CarDetails) -> string,
    noteId: nat -> ObjectId,
    insertOk: bool)

  /** A service call's reply and the two collections after it. */
  datatype Outcome<T> = Outcome(result: Result<T, ListingError>, listings: ListingStore, inbox: NotificationStore)

  /** A write and its read-back: the reply, and the listings collection,
      which keeps a stored write even when the read-back fails. */
  datatype Stored<T> = Stored(result: Result<T, ListingError>, listings: ListingStore)

  /** What GetListingByID reports when the store read fails. */
  const ReloadFailure: ListingError := Wrapped("failed to get listing", DbFailure)

  /** notifyUser and notifyDealer: a failed send is only logged, so the
      inbox either gains the one notification, carrying the title and the
      data payload, or stays as it was. */
  function Notify(inbox: NotificationStore, target: NotificationTarget, recipient: ObjectId,
                  kind: NotificationType, title: string, details: CarDetails, data: map<string, Field>, now: int, nt: Notifier)
    : (r: NotificationStore)
    ensures r == inbox || (|r| == |inbox| + 1 && r[..|inbox|] == inbox && r[|inbox|].target == target
                           && r[|inbox|].kind == kind && !r[|inbox|].read
                           && r[|inbox|].title == title && r[|inbox|].data == data
                           && (Canonical(recipient) ==> r[|inbox|].recipient == recipient))
  {
    match SendNotification(inbox, target, recipient.hex, kind, title, nt.compose(kind, details), data,
                           nt.noteId(|inbox|), now, nt.insertOk)
    case Success(s) =>
      if Canonical(recipient) then ObjectIdRoundTrip(recipient); s else s
    case Failure(_) => inbox
  }

  /** The payload every listing notification carries: the listing id. */
  function ListingPayload(listingId: string): map<string, Field> {
    map["listingID" := StrField(listingId)]
  }

  /* ------------------------------------------------------------ creation */

  /** The draft CreateDealerListing builds: type dealer, status draft, the
      dealer's id and the submitted car details; the separate price
      argument is not stored. */
  function DealerDraft(dealerId: ObjectId, input: Listing, env: ListingEnv): (l: Listing)
    ensures l.kind == DealerType && l.status == Draft && l.dealerListing.dealerId == dealerId
    ensures l.carDetails == input.carDetails && l.id == env.freshId
  {
    Listing(env.freshId, DealerType, input.carDetails, Draft, 0, env.now, env.now,
            NoUserListing, DealerListing(dealerId, []))
  }

  /** Persisting a built listing and reading it back; `context` is the text
      the create error is wrapped in, `reloadContext` the reload's ("" for
      none). A failed read-back is an error, but the insert stays stored. */
  function Persist(listings: ListingStore, toCreate: Listing, env: ListingEnv, context: string, reloadContext: string)
    : (r: Stored<Listing>)
    requires toCreate.id == env.freshId
    ensures var w := CreateListing(listings, toCreate, env.freshId, env.now, env.writeOk);
      && (w.Failure? ==> r == Stored(Failure(Wrapped(context, w.error)), listings))
      && (w.Success? ==> r.listings == w.value.1)
    ensures r.result.Success? <==> CreateListing(listings, toCreate, env.freshId, env.now, env.writeOk).Success? && env.reloadOk
    ensures CreateListing(listings, toCreate, env.freshId, env.now, env.writeOk).Success? && !env.reloadOk ==>
      r.result == Failure(if reloadContext == "" then ReloadFailure else Wrapped(reloadContext, ReloadFailure))
    ensures r.result.Success? ==>
      var n := NormalizeNew(toCreate, env.freshId, env.now).value;
      r.result.value == n && r.listings == listings + [n]
  {
    match CreateListing(listings, toCreate, env.freshId, env.now, env.writeOk)
    case Failure(e) => Stored(Failure(Wrapped(context, e)), listings)
    case Success((newId, stored)) =>
      var n := NormalizeNew(toCreate, env.freshId, env.now).value;
      assert FindListing(stored, n.id).Some? by {
        assert stored[|listings|].id == n.id;
      }
      FreshIdIsLast(listings, n);
      ObjectIdRoundTrip(n.id);
      match GetListingById(stored, newId, env.reloadOk)
      case Failure(e) => Stored(Failure(if reloadContext == "" then e else Wrapped(reloadContext, e)), stored)
      case Success(l) => Stored(Success(l), stored)
  }

  /** A listing appended under an id no other listing has is the one found
      under that id. */
  lemma {:induction false} FreshIdIsLast(listings: ListingStore, n: Listing)
    requires !HasListing(listings, n.id)
    ensures FindListing(listings + [n], n.id) == Some(|listings|)
  {
    if |listings| > 0 {
      assert listings[0].id != n.id;
      assert (listings + [n])[1..] == listings[1..] + [n];
      assert !HasListing(listings[1..], n.id) by {
        forall k | 0 <= k < |listings[1..]| ensures listings[1..][k].id != n.id {
          assert listings[1..][k] == listings[k + 1];
        }
      }
      FreshIdIsLast(listings[1..], n);
    }
  }

  /** CreateDealerListing. */
  function CreateDealerListing(listings: ListingStore, inbox: NotificationStore, dealerHex: string,
                               input: Listing, price: real, env: ListingEnv, nt: Notifier)
    : (r: Outcome<Listing>)
    ensures !IsObjectIdHex(dealerHex) ==> r.result == Failure(Message("invalid ID format"))
    ensures IsObjectIdHex(dealerHex) && price <= 0.0 ==>
      r.result == Failure(Message("dealer listings require positive price"))
    ensures r.result.Failure? ==> r.inbox == inbox
    ensures r.result.Failure? && env.reloadOk ==> r.listings == listings
    ensures r.result.Failure? && r.listings != listings ==>
      && !env.reloadOk && r.result.error == ReloadFailure
      && |r.listings| == |listings| + 1 && r.listings[..|listings|] == listings
      && r.listings[|listings|].kind == DealerType && r.listings[|listings|].status == Draft
      && r.listings[|listings|].dealerListing.dealerId == ObjectId(ToLower(dealerHex))
      && r.listings[|listings|].carDetails == input.carDetails
    ensures r.result.Success? ==>
      && price > 0.0 && IsObjectIdHex(dealerHex)
      && ValidateCarDetails(DealerDraft(ObjectId(ToLower(dealerHex)), input, env), env.currentYear, env.registry).None?
      && r.listings == listings + [r.result.value]
      && r.result.value.kind == DealerType && r.result.value.status == Draft
      && r.result.value.dealerListing.dealerId == ObjectId(ToLower(dealerHex))
      && r.result.value.carDetails == input.carDetails
  {
    match ConvertAndValidateId(dealerHex)
    case Failure(msg) => Outcome(Failure(Message(msg)), listings, inbox)
    case Success(dealerId) =>
      if price <= 0.0 then Outcome(Failure(Message("dealer listings require positive price")), listings, inbox)
      else
        var toCreate := DealerDraft(dealerId, input, env);
        match ValidateCarDetails(toCreate, env.currentYear, env.registry)
        case Some(e) => Outcome(Failure(CarDetailsRejected(e)), listings, inbox)
        case None =>
          var p := Persist(listings, toCreate, env, "failed to create listing", "");
          match p.result
          case Failure(e) => Outcome(Failure(e), p.listings, inbox)
          case Success(lst) =>
            Outcome(Success(lst), p.listings,
                    Notify(inbox, DealerTarget, dealerId, ListingCreated, "Draft Listing Created", lst.carDetails,
                           ListingPayload(lst.id.hex), env.now, nt))
  }

  /** The open listing CreateUserBidListing builds for the user. */
  function UserBidDraft(userId: ObjectId, input: Listing, env: ListingEnv): (l: Listing)
    ensures l.kind == UserBidType && l.status == Open
    ensures l.userListing == UserListing(userId, [], None)
    ensures l.carDetails == input.carDetails && l.id == env.freshId
  {
    Listing(env.freshId, UserBidType, input.carDetails, Open, 0, env.now, env.now,
            UserListing(userId, [], None), NoDealerListing)
  }

  /** CreateUserBidListing. */
  function CreateUserBidListing(listings: ListingStore, inbox: NotificationStore, userHex: string,
                                input: Listing, env: ListingEnv, nt: Notifier)
    : (r: Outcome<Listing>)
    ensures !IsObjectIdHex(userHex) ==> r.result == Failure(Message("invalid ID format"))
    ensures r.result.Failure? ==> r.inbox == inbox
    ensures r.result.Failure? && env.reloadOk ==> r.listings == listings
    ensures r.result.Failure? && r.listings != listings ==>
      && !env.reloadOk && r.result.error == Wrapped("failed to fetch new listing", ReloadFailure)
      && |r.listings| == |listings| + 1 && r.listings[..|listings|] == listings
      && r.listings[|listings|].kind == UserBidType && r.listings[|listings|].status == Open
      && r.listings[|listings|].userListing == UserListing(ObjectId(ToLower(userHex)), [], None)
      && r.listings[|listings|].carDetails == input.carDetails
    ensures r.result.Success? ==>
      && IsObjectIdHex(userHex)
      && ValidateCarDetails(UserBidDraft(ObjectId(ToLower(userHex)), input, env), env.currentYear, env.registry).None?
      && r.listings == listings + [r.result.value]
      && r.result.value.kind == UserBidType && r.result.value.status == Open
      && r.result.value.userListing == UserListing(ObjectId(ToLower(userHex)), [], None)
      && r.result.value.carDetails == input.carDetails
  {
    match ConvertAndValidateId(userHex)
    case Failure(msg) => Outcome(Failure(Message(msg)), listings, inbox)
    case Success(userId) =>
      var toCreate := UserBidDraft(userId, input, env);
      match ValidateCarDetails(toCreate, env.currentYear, env.registry)
      case Some(e) => Outcome(Failure(CarDetailsRejected(e)), listings, inbox)
      case None =>
        var p := Persist(listings, toCreate, env, "failed to create user\U{2011}bid listing", "failed to fetch new listing");
        match p.result
        case Failure(e) => Outcome(Failure(e), p.listings, inbox)
        case Success(lst) =>
          Outcome(Success(lst), p.listings,
                  Notify(inbox, UserTarget, userId, ListingCreated, "Your Bid Listing Is Live", lst.carDetails,
                         ListingPayload(lst.id.hex), env.now, nt))
  }

  /* ------------------------------------------------------ reading, update */

  /** GetListing: the view counter's asynchronous increment is not part of
      this model. */
  function GetListing(listings: ListingStore, listingId: string, env: ListingEnv): (r: Result<Listing, ListingError>)
    ensures !IsObjectIdHex(listingId) ==> r == Failure(Message("invalid listing ID format"))
    ensures r.Success? <==> IsObjectIdHex(listingId) && env.readOk && HasListing(listings, ObjectId(ToLower(listingId)))
    ensures r.Success? ==> r.value in listings && r.value.id == ObjectId(ToLower(listingId))
  {
    if !IsObjectIdHex(listingId) then Failure(Message("invalid listing ID format"))
    else match GetListingById(listings, listingId, env.readOk)
      case Failure(e) => Failure(Wrapped("failed to get listing", e))
      case Success(l) => Success(l)
  }

  /** The new price an update map carries: the float64 "price" of its
      "carDetails" document, if any. */
  function NewPrice(updates: Updates): Option<real> {
    if "carDetails" in updates && updates["carDetails"].DocValue?
       && "price" in updates["carDetails"].doc && updates["carDetails"].doc["price"].FloatField?
    then Some(updates["carDetails"].doc["price"].f)
    else None
  }

  /** One "Listing Updated" notification per bid, to the bid's dealer,
      carrying the listing id and the new price. */
  function NotifyBidders(inbox: NotificationStore, bids: seq<Bid>, details: CarDetails, listingId: string, newPrice: real,
                         now: int, nt: Notifier)
    : (r: NotificationStore)
    ensures |inbox| <= |r| <= |inbox| + |bids| && r[..|inbox|] == inbox
    decreases |bids|
  {
    if |bids| == 0 then inbox
    else
      var data := ListingPayload(listingId)["newPrice" := FloatField(newPrice)];
      var next := Notify(inbox, DealerTarget, bids[0].dealerId, ListingUpdated, "Listing Updated", details, data, now, nt);
      var r := NotifyBidders(next, bids[1..], details, listingId, newPrice, now, nt);
      assert r[..|inbox|] == r[..|next|][..|inbox|];
      r
  }

  /** The checks UpdateListing makes before it writes. */
  function UpdateChecks(existing: Listing, updates: Updates, env: ListingEnv): (r: Option<ListingError>)
    ensures r.None? <==>
      && ("carDetails" in updates ==>
            ValidateAndUpdateCarDetails(existing, updates["carDetails"], env.currentYear, env.registry).None?)
      && "type" !in updates
  {
    if "carDetails" in updates
       && ValidateAndUpdateCarDetails(existing, updates["carDetails"], env.currentYear, env.registry).Some?
    then Some(CarDetailsRejected(ValidateAndUpdateCarDetails(existing, updates["carDetails"], env.currentYear, env.registry).value))
    else if "type" in updates then Some(Message("cannot modify listing type"))
    else None
  }

  /** Writing the update and reading the listing back. A failed read-back
      is an error, but the update stays stored. */
  function WriteUpdate(listings: ListingStore, listingId: string, updates: Updates, env: ListingEnv)
    : (r: Stored<Listing>)
    requires IsObjectIdHex(listingId) && HasListing(listings, ObjectId(ToLower(listingId)))
    requires "type" !in updates
    ensures r.result.Success? <==> env.writeOk && env.reloadOk
    ensures !env.writeOk ==> r.listings == listings
    ensures env.writeOk ==>
      var i := FindListing(listings, ObjectId(ToLower(listingId))).value;
      r.listings == listings[i := ApplySet(listings[i], updates["updatedAt" := TimeValue(env.now)])]
    ensures env.writeOk && !env.reloadOk ==> r.result == Failure(ReloadFailure)
    ensures r.result.Success? ==> r.result.value == r.listings[FindListing(listings, ObjectId(ToLower(listingId))).value]
  {
    var stamped := updates["updatedAt" := TimeValue(env.now)];
    match ListingRepo.UpdateListing(listings, listingId, stamped, env.now, env.writeOk)
    case Failure(e) => Stored(Failure(Wrapped("failed to update listing", e)), listings)
    case Success(stored) =>
      var oid := ObjectId(ToLower(listingId));
      var i := FindListing(listings, oid).value;
      SameIdsSameFind(listings, stored, oid);
      assert stamped["updatedAt" := TimeValue(env.now)] == stamped;
      assert stored == listings[i := ApplySet(listings[i], stamped)];
      match GetListingById(stored, listingId, env.reloadOk)
      case Failure(e) => Stored(Failure(e), stored)
      case Success(l) => Stored(Success(l), stored)
  }

  /** The update reaches the store: the id is valid, the listing is read,
      the checks pass and the write succeeds. */
  predicate UpdateStored(listings: ListingStore, listingId: string, updates: Updates, env: ListingEnv) {
    && IsObjectIdHex(listingId) && env.readOk && env.writeOk
    && HasListing(listings, ObjectId(ToLower(listingId)))
    && UpdateChecks(listings[FindListing(listings, ObjectId(ToLower(listingId))).value], updates, env).None?
  }

  /** UpdateListing: any "carDetails" must validate once patched onto the
      listing, and a "type" key is refused, all before the write; a price
      change then notifies the dealer of every bid. When only the read-back
      fails, the reply is an error although the update is stored. */
  function UpdateListing(listings: ListingStore, inbox: NotificationStore, listingId: string,
                         updates: Updates, env: ListingEnv, nt: Notifier)
    : (r: Outcome<Listing>)
    ensures !IsObjectIdHex(listingId) ==> r.result == Failure(Message("invalid ID format"))
    ensures r.result.Failure? ==> r.inbox == inbox
    ensures !UpdateStored(listings, listingId, updates, env) ==> r.result.Failure? && r.listings == listings
    ensures r.result.Success? <==> UpdateStored(listings, listingId, updates, env) && env.reloadOk
    ensures UpdateStored(listings, listingId, updates, env) ==>
      var i := FindListing(listings, ObjectId(ToLower(listingId))).value;
      r.listings == listings[i := ApplySet(listings[i], updates["updatedAt" := TimeValue(env.now)])]
    ensures UpdateStored(listings, listingId, updates, env) && !env.reloadOk ==> r.result == Failure(ReloadFailure)
    ensures r.result.Success? ==>
      var i := FindListing(listings, ObjectId(ToLower(listingId))).value;
      && r.result.value == r.listings[i]
      && r.result.value.updatedAt == env.now && r.result.value.kind == listings[i].kind
  {
    match ConvertAndValidateId(listingId)
    case Failure(msg) => Outcome(Failure(Message(msg)), listings, inbox)
    case Success(_) =>
      match GetListingById(listings, listingId, env.readOk)
      case Failure(e) => Outcome(Failure(e), listings, inbox)
      case Success(existing) =>
        match UpdateChecks(existing, updates, env)
        case Some(e) => Outcome(Failure(e), listings, inbox)
        case None =>
          var w := WriteUpdate(listings, listingId, updates, env);
          match w.result
          case Failure(e) => Outcome(Failure(e), w.listings, inbox)
          case Success(updated) =>
            var notified := match NewPrice(updates)
              case Some(price) => NotifyBidders(inbox, updated.userListing.bids, updated.carDetails, listingId, price, env.now, nt)
              case None => inbox;
            Outcome(Success(updated), w.listings, notified)
  }

  /** DeleteListing: accepted listings cannot be deleted. */
  function DeleteListing(listings: ListingStore, listingId: string, env: ListingEnv): (r: Result<ListingStore, ListingError>)
    ensures !IsObjectIdHex(listingId) ==> r == Failure(Message("invalid listing ID format"))
    ensures r.Success? <==>
      && IsObjectIdHex(listingId) && env.readOk && env.writeOk
      && HasListing(listings, ObjectId(ToLower(listingId)))
      && listings[FindListing(listings, ObjectId(ToLower(listingId))).value].status != Accepted
    ensures r.Success? ==>
      var i := FindListing(listings, ObjectId(ToLower(listingId))).value;
      r.value == listings[..i] + listings[i + 1..]
  {
    if !IsObjectIdHex(listingId) then Failure(Message("invalid listing ID format"))
    else match GetListingById(listings, listingId, env.readOk)
      case Failure(e) => Failure(e)
      case Success(l) =>
        if l.status == Accepted then Failure(Message("cannot delete accepted listings"))
        else ListingRepo.DeleteListing(listings, listingId, env.writeOk)
  }

  /* ------------------------------------------------------ publish, close */

  /** Setting a known status, stamped with the clock, leaves that status. */
  lemma StatusWriteEffect(l: Listing, s: ListingStatus, now: int)
    requires !s.OtherStatus?
    ensures ApplySet(l, StatusUpdate(s)["updatedAt" := TimeValue(now)]).status == s
  {
    var stamped := StatusUpdate(s)["updatedAt" := TimeValue(now)];
    assert "status" in stamped && stamped["status"] == ScalarValue(StrField(StatusName(s)));
    ParseStatusName(s);
  }

  /** An update that sets a known status leaves that status on the listing
      it finds, and keeps the collection's length. */
  lemma StatusUpdateEffect(listings: ListingStore, inbox: NotificationStore, listingId: string,
                           s: ListingStatus, env: ListingEnv, nt: Notifier)
    requires !s.OtherStatus?
    requires UpdateListing(listings, inbox, listingId, StatusUpdate(s), env, nt).result.Success?
    ensures IsObjectIdHex(listingId) && HasListing(listings, ObjectId(ToLower(listingId)))
    ensures var u := UpdateListing(listings, inbox, listingId, StatusUpdate(s), env, nt);
      var i := FindListing(listings, ObjectId(ToLower(listingId))).value;
      && u.result.value.status == s
      && |u.listings| == |listings| && u.listings[i].status == s
  {
    StatusWriteEffect(listings[FindListing(listings, ObjectId(ToLower(listingId))).value], s, env.now);
  }


  /** PublishListing: sets the status to active through UpdateListing; the
      transition table is not consulted. */
  function PublishListing(listings: ListingStore, inbox: NotificationStore, listingId: string,
                          dealerHex: string, env: ListingEnv, nt: Notifier)
    : (r: Outcome<Listing>)
    ensures !IsObjectIdHex(dealerHex) ==>
      r.result == Failure(Message("invalid dealer ID format")) && r.listings == listings
    ensures r.result.Failure? ==> r.inbox == inbox
    ensures r.result.Failure? && env.reloadOk ==> r.listings == listings
    ensures r.result.Success? <==>
      IsObjectIdHex(dealerHex) && UpdateListing(listings, inbox, listingId, StatusUpdate(Active), env, nt).result.Success?
    ensures r.result.Success? ==> r.result.value.status == Active
    ensures IsObjectIdHex(dealerHex) ==>
      r.listings == UpdateListing(listings, inbox, listingId, StatusUpdate(Active), env, nt).listings
  {
    match ObjectIdFromHex(dealerHex)
    case None => Outcome(Failure(Message("invalid dealer ID format")), listings, inbox)
    case Some(dealerId) =>
      var u := UpdateListing(listings, inbox, listingId, StatusUpdate(Active), env, nt);
      match u.result
      case Failure(e) => Outcome(Failure(e), u.listings, inbox)
      case Success(published) =>
        StatusUpdateEffect(listings, inbox, listingId, Active, env, nt);
        Outcome(Success(published), u.listings,
                Notify(u.inbox, DealerTarget, dealerId, ListingPublished, "Listing Published", published.carDetails,
                       ListingPayload(listingId), env.now, nt))
  }

  /** The owner CloseListing checks: the dealer of a dealer listing, the
      user of a user listing, chosen by the caller's `isDealer`. */
  predicate OwnedBy(l: Listing, owner: ObjectId, isDealer: bool) {
    if isDealer then l.dealerListing.dealerId == owner else l.userListing.userId == owner
  }

  /** CloseListing: only the owner may close; the status is set to closed
      through UpdateListing without consulting the transition table. */
  function CloseListing(listings: ListingStore, inbox: NotificationStore, listingId: string,
                        ownerHex: string, isDealer: bool, env: ListingEnv, nt: Notifier)
    : (r: Outcome<()>)
    ensures !IsObjectIdHex(ownerHex) ==> r.result == Failure(Message("invalid owner ID format"))
    ensures r.result.Failure? ==> r.inbox == inbox
    ensures r.result.Failure? && env.reloadOk ==> r.listings == listings
    ensures r.result.Failure? && r.listings != listings ==>
      && !env.reloadOk && r.result.error == ReloadFailure
      && IsObjectIdHex(listingId) && HasListing(listings, ObjectId(ToLower(listingId)))
      && var i := FindListing(listings, ObjectId(ToLower(listingId))).value;
         && OwnedBy(listings[i], ObjectId(ToLower(ownerHex)), isDealer)
         && |r.listings| == |listings| && r.listings[i].status == Closed
    ensures r.result.Success? ==>
      && IsObjectIdHex(ownerHex) && IsObjectIdHex(listingId) && HasListing(listings, ObjectId(ToLower(listingId)))
      && var i := FindListing(listings, ObjectId(ToLower(listingId))).value;
         && OwnedBy(listings[i], ObjectId(ToLower(ownerHex)), isDealer)
         && |r.listings| == |listings| && r.listings[i].status == Closed
  {
    match ObjectIdFromHex(ownerHex)
    case None => Outcome(Failure(Message("invalid owner ID format")), listings, inbox)
    case Some(ownerId) =>
      match GetListingById(listings, listingId, env.readOk)
      case Failure(e) => Outcome(Failure(e), listings, inbox)
      case Success(lst) =>
        if isDealer && lst.dealerListing.dealerId != ownerId then
          Outcome(Failure(Message("unauthorized dealer operation")), listings, inbox)
        else if !isDealer && lst.userListing.userId != ownerId then
          Outcome(Failure(Message("unauthorized user operation")), listings, inbox)
        else
          var u := UpdateListing(listings, inbox, listingId, StatusUpdate(Closed), env, nt);
          match u.result
          case Failure(e) =>
            StatusWriteEffect(lst, Closed, env.now);
            Outcome(Failure(e), u.listings, inbox)
          case Success(_) =>
            StatusUpdateEffect(listings, inbox, listingId, Closed, env, nt);
            Outcome(Success(()), u.listings,
                    Notify(u.inbox, if isDealer then DealerTarget else UserTarget, ownerId, ListingClosed,
                           "Listing Closed", lst.carDetails, ListingPayload(listingId), env.now, nt))
  }

  /* ---------------------------------------------------------------- bids */

  /** AddBid: the listing id is checked before the store is called; the
      user who owns the listing is notified. */
  function AddBid(listings: ListingStore, inbox: NotificationStore, listingId: string, bid: Bid, env: ListingEnv, nt: Notifier)
    : (r: Outcome<Listing>)
    ensures !IsObjectIdHex(listingId) ==> r.result == Failure(Wrapped("invalid listing ID", HexError))
    ensures r.result.Failure? ==> r.inbox == inbox
    ensures var w := ListingRepo.AddBid(listings, listingId, bid, env.freshId, env.now, env.writeOk);
      && (w.Failure? ==> r.result.Failure? && r.listings == listings)
      && (w.Success? ==> r.listings == w.value)
      && (r.result.Success? <==> w.Success? && env.reloadOk)
      && (w.Success? && !env.reloadOk ==> r.result == Failure(Wrapped("reload listing", ReloadFailure)))
    ensures r.result.Success? ==> r.result.value in r.listings
  {
    if !IsObjectIdHex(listingId) then Outcome(Failure(Wrapped("invalid listing ID", HexError)), listings, inbox)
    else match ListingRepo.AddBid(listings, listingId, bid, env.freshId, env.now, env.writeOk)
      case Failure(e) => Outcome(Failure(Wrapped("failed to add bid", e)), listings, inbox)
      case Success(stored) =>
        var oid := ObjectId(ToLower(listingId));
        SameIdsSameFind(listings, stored, oid);
        match GetListingById(stored, listingId, env.reloadOk)
        case Failure(e) => Outcome(Failure(Wrapped("reload listing", e)), stored, inbox)
        case Success(lst) =>
          Outcome(Success(lst), stored,
                  Notify(inbox, UserTarget, lst.userListing.userId, BidPlaced, "New Bid Placed", lst.carDetails,
                         ListingPayload(listingId)["offer" := FloatField(bid.offer)], env.now, nt))
  }

  /** The first bid with this id, or Go's zero Bid when there is none. */
  function AcceptedBid(bids: seq<Bid>, id: ObjectId): (b: Bid)
    ensures (exists k | 0 <= k < |bids| :: bids[k].id == id) ==> b.id == id && b in bids
    ensures (forall k | 0 <= k < |bids| :: bids[k].id != id) ==> b.dealerId == NilObjectId
  {
    if |bids| == 0 then Bid(NilObjectId, NilObjectId, 0.0, "", 0, 0)
    else if bids[0].id == id then bids[0]
    else AcceptedBid(bids[1..], id)
  }

  /** AcceptBid: both ids are checked before the store is called, and the
      dealer of the accepted bid is notified. */
  function AcceptBid(listings: ListingStore, inbox: NotificationStore, listingId: string, bidId: string,
                     userHex: string, env: ListingEnv, nt: Notifier)
    : (r: Outcome<Listing>)
    ensures !IsObjectIdHex(listingId) ==> r.result == Failure(Wrapped("invalid listing ID", HexError))
    ensures IsObjectIdHex(listingId) && !IsObjectIdHex(bidId) ==> r.result == Failure(Wrapped("invalid bid ID", HexError))
    ensures r.result.Failure? ==> r.inbox == inbox
    ensures var w := ListingRepo.AcceptBid(listings, listingId, bidId, env.now, env.sessionOk, env.readOk, env.writeOk);
      && (w.Failure? ==> r.result.Failure? && r.listings == listings)
      && (w.Success? ==> r.listings == w.value)
      && (r.result.Success? <==> w.Success? && env.reloadOk)
      && (w.Success? && !env.reloadOk ==> r.result == Failure(Wrapped("reload listing", ReloadFailure)))
    ensures r.result.Success? ==>
      && r.result.value.status == Accepted
      && r.result.value.userListing.acceptedBid == Some(ObjectId(ToLower(bidId)))
      && HasBid(r.result.value, ObjectId(ToLower(bidId)))
  {
    if !IsObjectIdHex(listingId) then Outcome(Failure(Wrapped("invalid listing ID", HexError)), listings, inbox)
    else if !IsObjectIdHex(bidId) then Outcome(Failure(Wrapped("invalid bid ID", HexError)), listings, inbox)
    else match ListingRepo.AcceptBid(listings, listingId, bidId, env.now, env.sessionOk, env.readOk, env.writeOk)
      case Failure(e) => Outcome(Failure(Wrapped("failed to accept bid", e)), listings, inbox)
      case Success(stored) =>
        var oid := ObjectId(ToLower(listingId));
        SameIdsSameFind(listings, stored, oid);
        match GetListingById(stored, listingId, env.reloadOk)
        case Failure(e) => Outcome(Failure(Wrapped("reload listing", e)), stored, inbox)
        case Success(lst) =>
          var accepted := AcceptedBid(lst.userListing.bids, ObjectId(ToLower(bidId)));
          Outcome(Success(lst), stored,
                  Notify(inbox, DealerTarget, accepted.dealerId, BidAccepted,
                         "Congratulations! Your Bid Was Accepted", lst.carDetails,
                         ListingPayload(listingId)["offer" := FloatField(accepted.offer)], env.now, nt))
  }

  /* ----------------------------------------------------------- properties */

  /** A notification that fails to send never changes what a listing
      operation returns or what it stores. */
  lemma CreationIgnoresNotifier(
    listings: ListingStore, inbox1: NotificationStore, inbox2: NotificationStore, hex: string,
    input: Listing, price: real, env: ListingEnv, nt1: Notifier, nt2: Notifier)
    ensures var a := CreateDealerListing(listings, inbox1, hex, input, price, env, nt1);
            var b := CreateDealerListing(listings, inbox2, hex, input, price, env, nt2);
            a.result == b.result && a.listings == b.listings
  {
  }

  lemma UserBidCreationIgnoresNotifier(
    listings: ListingStore, inbox1: NotificationStore, inbox2: NotificationStore, hex: string,
    input: Listing, env: ListingEnv, nt1: Notifier, nt2: Notifier)
    ensures var a := CreateUserBidListing(listings, inbox1, hex, input, env, nt1);
            var b := CreateUserBidListing(listings, inbox2, hex, input, env, nt2);
            a.result == b.result && a.listings == b.listings
  {
  }

  lemma UpdateIgnoresNotifier(
    listings: ListingStore, inbox1: NotificationStore, inbox2: NotificationStore, listingId: string,
    updates: Updates, env: ListingEnv, nt1: Notifier, nt2: Notifier)
    ensures var a := UpdateListing(listings, inbox1, listingId, updates, env, nt1);
            var b := UpdateListing(listings, inbox2, listingId, updates, env, nt2);
            a.result == b.result && a.listings == b.listings
  {
  }

  lemma PublishIgnoresNotifier(
    listings: ListingStore, inbox1: NotificationStore, inbox2: NotificationStore, listingId: string,
    hex: string, env: ListingEnv, nt1: Notifier, nt2: Notifier)
    ensures var a := PublishListing(listings, inbox1, listingId, hex, env, nt1);
            var b := PublishListing(listings, inbox2, listingId, hex, env, nt2);
            a.result == b.result && a.listings == b.listings
  {
    UpdateIgnoresNotifier(listings, inbox1, inbox2, listingId, StatusUpdate(Active), env, nt1, nt2);
  }

  lemma CloseIgnoresNotifier(
    listings: ListingStore, inbox1: NotificationStore, inbox2: NotificationStore, listingId: string,
    hex: string, isDealer: bool, env: ListingEnv, nt1: Notifier, nt2: Notifier)
    ensures var a := CloseListing(listings, inbox1, listingId, hex, isDealer, env, nt1);
            var b := CloseListing(listings, inbox2, listingId, hex, isDealer, env, nt2);
            a.result == b.result && a.listings == b.listings
  {
    match ObjectIdFromHex(hex)
    case None =>
    case Some(ownerId) =>
      match GetListingById(listings, listingId, env.readOk)
      case Failure(_) =>
      case Success(lst) =>
        if !(isDealer && lst.dealerListing.dealerId != ownerId) && !(!isDealer && lst.userListing.userId != ownerId) {
          UpdateIgnoresNotifier(listings, inbox1, inbox2, listingId, StatusUpdate(Closed), env, nt1, nt2);
        }
  }

  lemma AddBidIgnoresNotifier(
    listings: ListingStore, inbox1: NotificationStore, inbox2: NotificationStore, listingId: string,
    bid: Bid, env: ListingEnv, nt1: Notifier, nt2: Notifier)
    ensures var a := AddBid(listings, inbox1, listingId, bid, env, nt1);
            var b := AddBid(listings, inbox2, listingId, bid, env, nt2);
            a.result == b.result && a.listings == b.listings
  {
  }

  lemma AcceptBidIgnoresNotifier(
    listings: ListingStore, inbox1: NotificationStore, inbox2: NotificationStore, listingId: string,
    bidId: string, userHex: string, env: ListingEnv, nt1: Notifier, nt2: Notifier)
    ensures var a := AcceptBid(listings, inbox1, listingId, bidId, userHex, env, nt1);
            var b := AcceptBid(listings, inbox2, listingId, bidId, userHex, env, nt2);
            a.result == b.result && a.listings == b.listings
  {
  }

  /** A dealer listing whose insert is stored but whose read-back fails is
      reported as an error, and the draft stays in the collection with no
      notification sent. */
  lemma DealerListingReloadFailureKeepsInsert(
    listings: ListingStore, inbox: NotificationStore, dealerHex: string, input: Listing, price: real,
    env: ListingEnv, nt: Notifier)
    requires IsObjectIdHex(dealerHex) && price > 0.0
    requires ValidateCarDetails(DealerDraft(ObjectId(ToLower(dealerHex)), input, env), env.currentYear, env.registry).None?
    requires env.writeOk && !env.reloadOk && !HasListing(listings, env.freshId)
    ensures var r := CreateDealerListing(listings, inbox, dealerHex, input, price, env, nt);
      && r.result == Failure(ReloadFailure) && r.inbox == inbox
      && r.listings == listings + [NormalizeNew(DealerDraft(ObjectId(ToLower(dealerHex)), input, env), env.freshId, env.now).value]
  {
    var draft := DealerDraft(ObjectId(ToLower(dealerHex)), input, env);
    assert LocalCheck(draft, env.currentYear).None?;
    assert NormalizeNew(draft, env.freshId, env.now).Success?;
  }

  /** A publish whose status write is stored but whose read-back fails is
      reported as an error, while the listing is active in the store. */
  lemma PublishReloadFailureKeepsStatus(
    listings: ListingStore, inbox: NotificationStore, listingId: string, dealerHex: string,
    env: ListingEnv, nt: Notifier)
    requires IsObjectIdHex(listingId) && IsObjectIdHex(dealerHex) && env.readOk && env.writeOk && !env.reloadOk
    requires HasListing(listings, ObjectId(ToLower(listingId)))
    ensures var r := PublishListing(listings, inbox, listingId, dealerHex, env, nt);
            var i := FindListing(listings, ObjectId(ToLower(listingId))).value;
            && r.result == Failure(ReloadFailure) && r.inbox == inbox
            && |r.listings| == |listings| && r.listings[i].status == Active
  {
    var i := FindListing(listings, ObjectId(ToLower(listingId))).value;
    assert UpdateChecks(listings[i], StatusUpdate(Active), env).None?;
    StatusWriteEffect(listings[i], Active, env.now);
  }

  /** Publishing succeeds from every status, closed and sold included,
      although the transition table allows active only after draft. */
  lemma PublishIgnoresTransitionTable(
    listings: ListingStore, inbox: NotificationStore, listingId: string, dealerHex: string,
    env: ListingEnv, nt: Notifier)
    requires IsObjectIdHex(listingId) && IsObjectIdHex(dealerHex) && env.readOk && env.writeOk && env.reloadOk
    requires HasListing(listings, ObjectId(ToLower(listingId)))
    ensures var r := PublishListing(listings, inbox, listingId, dealerHex, env, nt);
            var i := FindListing(listings, ObjectId(ToLower(listingId))).value;
            && r.result.Success? && r.listings[i].status == Active
            && (listings[i].status != Draft ==> !IsValidStatusTransition(listings[i].status, Active))
  {
    PublishSucceeds(listings, inbox, listingId, dealerHex, env, nt);
    StatusUpdateEffect(listings, inbox, listingId, Active, env, nt);
  }

  lemma PublishSucceeds(
    listings: ListingStore, inbox: NotificationStore, listingId: string, dealerHex: string,
    env: ListingEnv, nt: Notifier)
    requires IsObjectIdHex(listingId) && IsObjectIdHex(dealerHex) && env.readOk && env.writeOk && env.reloadOk
    requires HasListing(listings, ObjectId(ToLower(listingId)))
    ensures PublishListing(listings, inbox, listingId, dealerHex, env, nt).result.Success?
  {
    var i := FindListing(listings, ObjectId(ToLower(listingId))).value;
    assert UpdateChecks(listings[i], StatusUpdate(Active), env).None?;
  }

  /** The owner can close a listing in every status, a sold or closed one
      included, although the table gives those no successor. */
  lemma CloseIgnoresTransitionTable(
    listings: ListingStore, inbox: NotificationStore, listingId: string, ownerHex: string, isDealer: bool,
    env: ListingEnv, nt: Notifier)
    requires IsObjectIdHex(listingId) && IsObjectIdHex(ownerHex) && env.readOk && env.writeOk && env.reloadOk
    requires HasListing(listings, ObjectId(ToLower(listingId)))
    requires OwnedBy(listings[FindListing(listings, ObjectId(ToLower(listingId))).value], ObjectId(ToLower(ownerHex)), isDealer)
    ensures var r := CloseListing(listings, inbox, listingId, ownerHex, isDealer, env, nt);
            var i := FindListing(listings, ObjectId(ToLower(listingId))).value;
            && r.result.Success? && r.listings[i].status == Closed
            && (Terminal(listings[i].status) ==> !IsValidStatusTransition(listings[i].status, Closed))
  {
    CloseSucceedsForOwner(listings, inbox, listingId, ownerHex, isDealer, env, nt);
  }

  lemma CloseSucceedsForOwner(
    listings: ListingStore, inbox: NotificationStore, listingId: string, ownerHex: string, isDealer: bool,
    env: ListingEnv, nt: Notifier)
    requires IsObjectIdHex(listingId) && IsObjectIdHex(ownerHex) && env.readOk && env.writeOk && env.reloadOk
    requires HasListing(listings, ObjectId(ToLower(listingId)))
    requires OwnedBy(listings[FindListing(listings, ObjectId(ToLower(listingId))).value], ObjectId(ToLower(ownerHex)), isDealer)
    ensures CloseListing(listings, inbox, listingId, ownerHex, isDealer, env, nt).result.Success?
  {
    var i := FindListing(listings, ObjectId(ToLower(listingId))).value;
    assert GetListingById(listings, listingId, env.readOk) == Success(listings[i]);
    assert UpdateChecks(listings[i], StatusUpdate(Closed), env).None?;
  }
}

=== FILE: listing_utils.dfy ===
/** services/listing/utils.go: id conversion and the listing status
    transition table. */
module ListingUtils {
  import opened Common
  import opened ListingModels

  /** convertAndValidateID: the ObjectID a hex string denotes, or
      "invalid ID format". */
  function ConvertAndValidateId(id: string): (r: Result<ObjectId, string>)
    ensures r.Failure? <==> !IsObjectIdHex(id)
    ensures r.Failure? ==> r.error == "invalid ID format"
    ensures r.Success? ==> Canonical(r.value) && r.value.hex == ToLower(id)
  {
    match ObjectIdFromHex(id)
    case Some(oid) => Success(oid)
    case None => Failure("invalid ID format")
  }

  /** The table of allowed successors, keyed by the status before the change. */
  const Transitions: map<ListingStatus, seq<ListingStatus>> := map[
    Draft := [Active, Closed],
    Active := [Sold, Closed],
    Open := [Accepted, Closed],
    Accepted := [Closed]]

  /** The membership loop over the allowed successors. */
  function Allows(allowed: seq<ListingStatus>, next: ListingStatus): (ok: bool)
    ensures ok <==> next in allowed
  {
    if |allowed| == 0 then false
    else if allowed[0] == next then true
    else Allows(allowed[1..], next)
  }

  /** isValidStatusTransition: a status without a table entry has no
      successors. */
  function IsValidStatusTransition(current: ListingStatus, next: ListingStatus): (ok: bool)
    ensures ok <==>
      || (current == Draft && (next == Active || next == Closed))
      || (current == Active && (next == Sold || next == Closed))
      || (current == Open && (next == Accepted || next == Closed))
      || (current == Accepted && next == Closed)
  {
    current in Transitions && Allows(Transitions[current], next)
  }

  predicate Terminal(s: ListingStatus) { s == Closed || s == Sold }

  /** Closed and sold listings can go nowhere. */
  lemma TerminalHasNoSuccessor(current: ListingStatus, next: ListingStatus)
    requires Terminal(current)
    ensures !IsValidStatusTransition(current, next)
  {
  }

  /** No status moves to itself, and draft and open are never reached by a
      transition: they are only ever the status a listing is created in. */
  lemma NoSelfOrInitialTargets(current: ListingStatus, next: ListingStatus)
    ensures !IsValidStatusTransition(current, current)
    ensures !IsValidStatusTransition(current, Draft) && !IsValidStatusTransition(current, Open)
  {
  }

  /** Every status in the table can be closed in one step. */
  lemma ClosableFromEveryTableStatus(current: ListingStatus)
    requires current in Transitions
    ensures IsValidStatusTransition(current, Closed)
  {
  }
}

=== FILE: listing_validation.dfy ===
/** services/listing/validateListing.go: the car-details rules every
    listing must pass, the last of which asks the national VIN registry.
    The registry call is not part of this model; it is a function from VIN
    to reply. */
module ListingValidation {
  import opened Common
  import opened ListingModels

  /** The registry's reply to VerifyVIN: a transport or decoding failure,
      or the decoded vehicle with the registry's validity verdict. */
  datatype VinReply = VinUnavailable | VinDecoded(make: string, model: string, modelYear: string, valid: bool)

  type VinRegistry = string -> VinReply

  /** The year of the first motor car; no listing may be older. */
  const FirstCarYear: int := 1886

  /** The rejections of validateCarDetails, in the order it checks them. */
  datatype CarDetailsError =
    | VinRequired             // "vIN is required"
    | MakeRequired            // "make is required"
    | ModelRequired           // "model is required"
    | InvalidYear             // "invalid manufacturing year"
    | DealerPriceNotPositive  // "price must be positive for dealer listings"
    | UserBidPriced           // "user bid listings cannot have fixed price"
    | InvalidListingType      // "invalid listing type"
    | VinLookupFailed         // "VIN verification failed: ..."
    | InvalidVin              // "invalid VIN"
    | MakeMismatch            // "provided make ... does not match registry ..."
    | ModelMismatch           // "provided model ... does not match registry ..."
    | RegistryYearInvalid     // "invalid year from registry: ..."
    | YearMismatch            // "provided year ... does not match registry ..."

  /** strings.EqualFold on the case mapping of Common.ToLower. */
  predicate EqualFold(a: string, b: string) { ToLower(a) == ToLower(b) }

  /** The price a listing of this type must carry. */
  predicate PriceFits(kind: ListingType, price: real) {
    (kind == DealerType && price > 0.0) || (kind == UserBidType && price == 0.0)
  }

  /** The checks made before the registry is asked. */
  function LocalCheck(l: Listing, currentYear: int): (r: Option<CarDetailsError>)
    ensures r.None? <==>
      l.carDetails.vin != "" && l.carDetails.make != "" && l.carDetails.model != ""
      && FirstCarYear <= l.carDetails.year <= currentYear + 1
      && PriceFits(l.kind, l.carDetails.price)
    ensures r == Some(VinRequired) <==> l.carDetails.vin == ""
    ensures r == Some(MakeRequired) <==> l.carDetails.vin != "" && l.carDetails.make == ""
    ensures r == Some(ModelRequired) <==>
      l.carDetails.vin != "" && l.carDetails.make != "" && l.carDetails.model == ""
    ensures r.Some? ==> r.value in {VinRequired, MakeRequired, ModelRequired, InvalidYear,
                                    DealerPriceNotPositive, UserBidPriced, InvalidListingType}
    ensures r == Some(InvalidListingType) ==> l.kind.OtherType?
  {
    var cd := l.carDetails;
    if cd.vin == "" then Some(VinRequired)
    else if cd.make == "" then Some(MakeRequired)
    else if cd.model == "" then Some(ModelRequired)
    else if cd.year < FirstCarYear || cd.year > currentYear + 1 then Some(InvalidYear)
    else match l.kind
      case DealerType => if cd.price <= 0.0 then Some(DealerPriceNotPositive) else None
      case UserBidType => if cd.price != 0.0 then Some(UserBidPriced) else None
      case OtherType(_) => Some(InvalidListingType)
  }

  /** What the registry must say for the details to be accepted. */
  predicate RegistryAgrees(reply: VinReply, cd: CarDetails) {
    && reply.VinDecoded?
    && reply.valid
    && EqualFold(reply.make, cd.make)
    && EqualFold(reply.model, cd.model)
    && ParseInt(reply.modelYear) == Some(cd.year)
  }

  /** validateCarDetails: the local rules, then the registry's verdict and
      its make, model and year. `currentYear` is the year of time.Now. */
  function ValidateCarDetails(l: Listing, currentYear: int, registry: VinRegistry): (r: Option<CarDetailsError>)
    ensures LocalCheck(l, currentYear).Some? ==> r == LocalCheck(l, currentYear)
    ensures r.None? <==> LocalCheck(l, currentYear).None? && RegistryAgrees(registry(l.carDetails.vin), l.carDetails)
    ensures LocalCheck(l, currentYear).None? && registry(l.carDetails.vin).VinUnavailable? ==> r == Some(VinLookupFailed)
    ensures (LocalCheck(l, currentYear).None? && registry(l.carDetails.vin).VinDecoded?
             && !registry(l.carDetails.vin).valid) ==> r == Some(InvalidVin)
  {
    match LocalCheck(l, currentYear)
    case Some(e) => Some(e)
    case None =>
      match registry(l.carDetails.vin)
      case VinUnavailable => Some(VinLookupFailed)
      case VinDecoded(mk, md, year, valid) =>
        if !valid then Some(InvalidVin)
        else if !EqualFold(mk, l.carDetails.make) then Some(MakeMismatch)
        else if !EqualFold(md, l.carDetails.model) then Some(ModelMismatch)
        else match ParseInt(year)
          case None => Some(RegistryYearInvalid)
          case Some(y) => if y != l.carDetails.year then Some(YearMismatch) else None
  }

  /** The registry is asked only once every local check has passed: a
      listing that fails one is rejected the same way whatever the registry
      would have said. */
  lemma RegistryConsultedLast(l: Listing, currentYear: int, r1: VinRegistry, r2: VinRegistry)
    requires LocalCheck(l, currentYear).Some?
    ensures ValidateCarDetails(l, currentYear, r1) == ValidateCarDetails(l, currentYear, r2)
  {
  }

  /** The key's value when the update map holds it with the expected
      dynamic type, else the default. */
  function StrOr(doc: map<string, Field>, key: string, dflt: string): string {
    if key in doc && doc[key].StrField? then doc[key].s else dflt
  }

  function IntOr(doc: map<string, Field>, key: string, dflt: int): int {
    if key in doc && doc[key].IntField? then doc[key].i else dflt
  }

  function FloatOr(doc: map<string, Field>, key: string, dflt: real): real {
    if key in doc && doc[key].FloatField? then doc[key].f else dflt
  }

  /** The car details validateAndUpdateCarDetails builds: each of make,
      model, year, vin and price is taken from the update when the update
      holds that key with the expected dynamic type (string, int, string,
      float64), and kept otherwise. A value that is not a document changes
      nothing. */
  function PatchCarDetails(cd: CarDetails, raw: UpdateValue): (r: CarDetails)
    ensures !raw.DocValue? ==> r == cd
    ensures raw.DocValue? ==>
      && (("make" !in raw.doc || !raw.doc["make"].StrField?) ==> r.make == cd.make)
      && ("make" in raw.doc && raw.doc["make"].StrField? ==> r.make == raw.doc["make"].s)
      && (("model" !in raw.doc || !raw.doc["model"].StrField?) ==> r.model == cd.model)
      && ("model" in raw.doc && raw.doc["model"].StrField? ==> r.model == raw.doc["model"].s)
      && (("year" !in raw.doc || !raw.doc["year"].IntField?) ==> r.year == cd.year)
      && ("year" in raw.doc && raw.doc["year"].IntField? ==> r.year == raw.doc["year"].i)
      && (("vin" !in raw.doc || !raw.doc["vin"].StrField?) ==> r.vin == cd.vin)
      && ("vin" in raw.doc && raw.doc["vin"].StrField? ==> r.vin == raw.doc["vin"].s)
      && (("price" !in raw.doc || !raw.doc["price"].FloatField?) ==> r.price == cd.price)
      && ("price" in raw.doc && raw.doc["price"].FloatField? ==> r.price == raw.doc["price"].f)
  {
    match raw
    case DocValue(doc) =>
      CarDetails(StrOr(doc, "vin", cd.vin), StrOr(doc, "make", cd.make), StrOr(doc, "model", cd.model),
                 IntOr(doc, "year", cd.year), FloatOr(doc, "price", cd.price))
    case _ => cd
  }

  /** validateAndUpdateCarDetails: validates a copy of the listing carrying
      the patched details; the listing it was given is a value and is left
      as it was. */
  function ValidateAndUpdateCarDetails(existing: Listing, raw: UpdateValue, currentYear: int, registry: VinRegistry)
    : (r: Option<CarDetailsError>)
    ensures r.None? <==>
      var cd := PatchCarDetails(existing.carDetails, raw);
      LocalCheck(existing.(carDetails := cd), currentYear).None? && RegistryAgrees(registry(cd.vin), cd)
  {
    ValidateCarDetails(existing.(carDetails := PatchCarDetails(existing.carDetails, raw)), currentYear, registry)
  }

  /** An update whose "carDetails" is not a document re-validates the
      listing's current details unchanged. */
  lemma NonDocumentRevalidatesExisting(existing: Listing, raw: UpdateValue, currentYear: int, registry: VinRegistry)
    requires !raw.DocValue?
    ensures ValidateAndUpdateCarDetails(existing, raw, currentYear, registry)
         == ValidateCarDetails(existing, currentYear, registry)
  {
    assert existing.(carDetails := existing.carDetails) == existing;
  }
}

=== FILE: notification_repo.dfy ===
/** database/repository/notifications/notifications.go: the notifications
    collection as a sequence of documents in insertion order. */
module NotificationRepo {
  import opened Common
  import opened ListingModels
  import opened Sequences

  /** A repository failure: mongo.ErrNoDocuments, or an error from the
      driver or the server (among them the server's refusal of a negative
      skip). */
  datatype RepoError = ErrNoDocuments | DbError

  predicate HasNotification(s: NotificationStore, id: ObjectId) {
    exists i | 0 <= i < |s| :: s[i].id == id
  }

  /** CreateNotification: the document gets a fresh id and both timestamps,
      and is stored unread whatever the caller set. */
  function CreateNotification(store: NotificationStore, n: Notification, freshId: ObjectId, now: int, insertOk: bool)
    : (r: Result<NotificationStore, RepoError>)
    ensures r.Success? <==> insertOk && !HasNotification(store, freshId)
    ensures r.Success? ==>
      && |r.value| == |store| + 1 && r.value[..|store|] == store
      && r.value[|store|].id == freshId && !r.value[|store|].read
      && r.value[|store|].createdAt == now && r.value[|store|].updatedAt == now
      && r.value[|store|].(id := n.id, read := n.read, createdAt := n.createdAt, updatedAt := n.updatedAt) == n
  {
    if !insertOk || HasNotification(store, freshId) then Failure(DbError)
    else Success(store + [n.(id := freshId, read := false, createdAt := now, updatedAt := now)])
  }

  predicate Addressed(n: Notification, recipient: ObjectId, target: NotificationTarget) {
    n.recipient == recipient && n.target == target
  }

  /** The newest-first key of the `createdAt` descending sort. */
  function ByCreated(n: Notification): Rank { Rank(n.createdAt, 0) }

  /** The recipient's notifications of one target, in store order. */
  function Mine(store: NotificationStore, recipient: ObjectId, target: NotificationTarget): (r: seq<Notification>)
    ensures |r| <= |store|
    ensures forall x | x in r :: Addressed(x, recipient, target) && x in store
    ensures forall x | x in store && Addressed(x, recipient, target) :: x in r
  {
    if |store| == 0 then []
    else
      var rest := Mine(store[1..], recipient, target);
      assert forall x | x in store :: x == store[0] || x in store[1..];
      if Addressed(store[0], recipient, target) then [store[0]] + rest else rest
  }

  /** All of one recipient's notifications of one target, newest first;
      notifications created at the same instant come in an order the
      store chooses. */
  function Inbox(store: NotificationStore, recipient: ObjectId, target: NotificationTarget): (r: seq<Notification>)
    ensures SortedDesc(r, ByCreated)
    ensures |r| <= |store|
    ensures forall x | x in r :: Addressed(x, recipient, target) && x in store
    ensures forall x | x in store && Addressed(x, recipient, target) :: x in r
  {
    var mine := Mine(store, recipient, target);
    var sorted := SortDesc(mine, ByCreated);
    SameElements(sorted, mine);
    sorted
  }

  /** One page of the inbox: `skip` documents are passed over and at most
      `limit` returned; the server refuses a negative skip. */
  function PageOf(inbox: seq<Notification>, skip: int, limit: int): (r: Result<seq<Notification>, RepoError>)
    ensures r.Success? <==> skip >= 0
    ensures r.Success? && limit > 0 ==> |r.value| <= limit
    ensures r.Success? ==> forall i | 0 <= i < |r.value| :: r.value[i] in inbox
    ensures r.Success? && skip >= |inbox| ==> r.value == []
    ensures r.Success? ==> r.value == Window(inbox, skip, limit)
  {
    if skip < 0 then Failure(DbError) else Success(Window(inbox, skip, limit))
  }

  /** FindByRecipient with its skip, (page-1)*limit, computed without
      overflow. */
  function FindByRecipient(store: NotificationStore, recipient: ObjectId, target: NotificationTarget,
                           page: int, limit: int, readOk: bool)
    : (r: Result<seq<Notification>, RepoError>)
    ensures page >= 1 && limit >= 1 ==> (r.Success? <==> readOk)
    ensures r.Success? ==> SortedDesc(r.value, ByCreated)
    ensures r.Success? ==> forall i | 0 <= i < |r.value| :: Addressed(r.value[i], recipient, target) && r.value[i] in store
    ensures r.Success? && limit > 0 ==> |r.value| <= limit
    ensures r.Success? && page >= 1 && limit >= 1 ==>
      r == PageOf(Inbox(store, recipient, target), (page - 1) * limit, limit)
  {
    if !readOk then Failure(DbError)
    else
      var inbox := Inbox(store, recipient, target);
      var skip := (page - 1) * limit;
      WindowSorted(inbox, if skip < 0 then 0 else skip, limit, ByCreated);
      assert page >= 1 && limit >= 1 ==> skip >= 0 by {
        if page >= 1 && limit >= 1 {
          SkipOfNextPage(page, limit);
        }
      }
      PageOf(inbox, skip, limit)
  }

  /** Consecutive pages tile the inbox: page `page` followed by page
      `page + 1` is the double-size window at the same skip. */
  lemma InboxPagesTile(store: NotificationStore, recipient: ObjectId, target: NotificationTarget, page: int, limit: int)
    requires page >= 1 && limit >= 1
    ensures var first := FindByRecipient(store, recipient, target, page, limit, true);
      var second := FindByRecipient(store, recipient, target, page + 1, limit, true);
      && first.Success? && second.Success?
      && first.value + second.value == Window(Inbox(store, recipient, target), (page - 1) * limit, 2 * limit)
  {
    var inbox := Inbox(store, recipient, target);
    var skip := (page - 1) * limit;
    SkipOfNextPage(page, limit);
    PageIsWindow(store, recipient, target, page, limit);
    PageIsWindow(store, recipient, target, page + 1, limit);
    assert FindByRecipient(store, recipient, target, page + 1, limit, true) == Success(Window(inbox, skip + limit, limit));
    WindowsTile(inbox, skip, limit);
  }

  /** A readable page is the inbox window at its skip. */
  lemma PageIsWindow(store: NotificationStore, recipient: ObjectId, target: NotificationTarget, page: int, limit: int)
    requires page >= 1 && limit >= 1
    ensures FindByRecipient(store, recipient, target, page, limit, true)
         == Success(Window(Inbox(store, recipient, target), (page - 1) * limit, limit))
  {
    SkipOfNextPage(page, limit);
  }

  /** The skip of a page is non-negative, and the next page skips `limit`
      more. */
  lemma SkipOfNextPage(page: int, limit: int)
    requires page >= 1 && limit >= 1
    ensures (page - 1) * limit >= 0
    ensures (page + 1 - 1) * limit == (page - 1) * limit + limit
  {
    assert (page - 1) * limit >= 0 * limit;
  }

  /** FindByRecipient as the source computes its skip: in a 64-bit `int`,
      where (page-1)*limit wraps around. */
  function FindByRecipientAsWritten(store: NotificationStore, recipient: ObjectId, target: NotificationTarget,
                                    page: int, limit: int, readOk: bool)
    : (r: Result<seq<Notification>, RepoError>)
    ensures MinInt64 <= (page - 1) * limit <= MaxInt64 ==> r == FindByRecipient(store, recipient, target, page, limit, readOk)
    ensures r.Success? <==> readOk && Wrap64((page - 1) * limit) >= 0
    ensures r.Success? ==> r.value == Window(Inbox(store, recipient, target), Wrap64((page - 1) * limit), limit)
    ensures r.Success? ==> SortedDesc(r.value, ByCreated)
  {
    if !readOk then Failure(DbError)
    else
      var skip := Wrap64((page - 1) * limit);
      assert skip >= 0 ==> SortedDesc(Window(Inbox(store, recipient, target), skip, limit), ByCreated) by {
        if skip >= 0 {
          WindowSorted(Inbox(store, recipient, target), skip, limit, ByCreated);
        }
      }
      PageOf(Inbox(store, recipient, target), skip, limit)
  }

  /** A page far past the end: 2^62 with 100 per page (a page the service
      lets through) overflows to a skip of -100, so the as-written query
      fails, where the page is evidently meant to be empty. */
  lemma FarPageOverflows(store: NotificationStore, recipient: ObjectId, target: NotificationTarget)
    ensures FindByRecipientAsWritten(store, recipient, target, 0x4000_0000_0000_0000, 100, true) == Failure(DbError)
  {
    var skip := (0x4000_0000_0000_0000 - 1) * 100;
    assert skip - (-100) == 25 * TwoTo64;
    assert Wrap64(skip) == -100 by {
      var w := Wrap64(skip);
      assert (skip - w) % TwoTo64 == 0;
      assert w - (-100) == (skip - (-100)) - (skip - w);
    }
  }

  /** The corrected query returns the empty page for the same request. */
  lemma FarPageIsEmpty(store: NotificationStore, recipient: ObjectId, target: NotificationTarget)
    requires |store| <= MaxInt64
    ensures FindByRecipient(store, recipient, target, 0x4000_0000_0000_0000, 100, true) == Success([])
  {
  }

  /** The first notification with this id. */
  function FindNotification(s: NotificationStore, id: ObjectId): (r: Option<nat>)
    ensures r.Some? ==> r.value < |s| && s[r.value].id == id
    ensures r.None? <==> !HasNotification(s, id)
  {
    if |s| == 0 then None
    else if s[0].id == id then Some(0)
    else
      match FindNotification(s[1..], id)
      case None => None
      case Some(k) => Some(k + 1)
  }

  /** MarkOneRead: marks the notification with that id read, or reports
      that no document matched. */
  function MarkOneRead(store: NotificationStore, id: ObjectId, now: int, writeOk: bool)
    : (r: Result<NotificationStore, RepoError>)
    ensures writeOk && !HasNotification(store, id) ==> r == Failure(ErrNoDocuments)
    ensures r.Success? <==> writeOk && HasNotification(store, id)
    ensures r.Success? ==>
      var i := FindNotification(store, id).value;
      && |r.value| == |store| && r.value[i] == store[i].(read := true, updatedAt := now)
      && (forall k | 0 <= k < |store| && k != i :: r.value[k] == store[k])
  {
    if !writeOk then Failure(DbError)
    else match FindNotification(store, id)
      case None => Failure(ErrNoDocuments)
      case Some(i) => Success(store[i := store[i].(read := true, updatedAt := now)])
  }

  /** The update of MarkAllRead over every document. */
  function MarkAll(s: NotificationStore, recipient: ObjectId, target: NotificationTarget, now: int)
    : (r: NotificationStore)
    ensures |r| == |s|
    ensures forall i | 0 <= i < |s| && Addressed(s[i], recipient, target) ::
      r[i].read && r[i].(read := s[i].read, updatedAt := s[i].updatedAt) == s[i]
    ensures forall i | 0 <= i < |s| && (!Addressed(s[i], recipient, target) || s[i].read) :: r[i] == s[i]
  {
    seq(|s|, i requires 0 <= i < |s| =>
      if Addressed(s[i], recipient, target) && !s[i].read then s[i].(read := true, updatedAt := now) else s[i])
  }

  /** MarkAllRead: every unread notification of that recipient and target
      becomes read; nothing else changes. */
  function MarkAllRead(store: NotificationStore, recipient: ObjectId, target: NotificationTarget, now: int, writeOk: bool)
    : (r: Result<NotificationStore, RepoError>)
    ensures r.Success? <==> writeOk
    ensures r.Success? ==> r.value == MarkAll(store, recipient, target, now)
  {
    if !writeOk then Failure(DbError) else Success(MarkAll(store, recipient, target, now))
  }

  /** Marking everything read a second time changes nothing, whenever it
      happens. */
  lemma MarkAllIdempotent(s: NotificationStore, recipient: ObjectId, target: NotificationTarget, now: int, later: int)
    ensures MarkAll(MarkAll(s, recipient, target, now), recipient, target, later) == MarkAll(s, recipient, target, now)
  {
    var once := MarkAll(s, recipient, target, now);
    var twice := MarkAll(once, recipient, target, later);
    forall i | 0 <= i < |s|
      ensures twice[i] == once[i]
    {
      if Addressed(s[i], recipient, target) {
        assert once[i].read;
        assert Addressed(once[i], recipient, target);
      } else {
        assert once[i] == s[i];
      }
    }
  }
}

=== FILE: notification_service.dfy ===
/** services/notification/crud.go: the notification service over the
    notification repository. The user and dealer entry points share one
    implementation and differ only in the target they pass. */
module NotificationService {
  import opened Common
  import opened ListingModels
  import opened NotificationRepo
  import opened Sequences

  datatype NotificationError =
    | ErrInvalidRecipient(hex: string)  // "invalid recipient ID format: <hex>"
    | ErrInvalidNotification            // "notification must include title and body"
    | ErrNotificationNotFound           // "notification not found"
    | StoreFailed                       // "sendNotification: failed to store: ..."
    | Repo(cause: RepoError)            // a repository error passed through

  /** sendNotification: title and body are checked before the recipient id;
      the stored notification is unread and copies everything else. */
  function SendNotification(
    store: NotificationStore, target: NotificationTarget, recipientHex: string,
    kind: NotificationType, title: string, body: string, data: map<string, Field>, freshId: ObjectId, now: int,
    insertOk: bool)
    : (r: Result<NotificationStore, NotificationError>)
    ensures title == "" || body == "" ==> r == Failure(ErrInvalidNotification)
    ensures title != "" && body != "" && !IsObjectIdHex(recipientHex) ==> r == Failure(ErrInvalidRecipient(recipientHex))
    ensures r.Success? <==>
      title != "" && body != "" && IsObjectIdHex(recipientHex) && insertOk && !HasNotification(store, freshId)
    ensures r.Success? ==>
      r.value == store + [Notification(freshId, ObjectId(ToLower(recipientHex)), target, kind, title, body, data, false, now, now)]
    ensures r.Failure? && title != "" && body != "" && IsObjectIdHex(recipientHex) ==> r.error == StoreFailed
  {
    if title == "" || body == "" then Failure(ErrInvalidNotification)
    else match ObjectIdFromHex(recipientHex)
      case None => Failure(ErrInvalidRecipient(recipientHex))
      case Some(recipient) =>
        var n := Notification(NilObjectId, recipient, target, kind, title, body, data, false, now, now);
        match CreateNotification(store, n, freshId, now, insertOk)
        case Failure(_) => Failure(StoreFailed)
        case Success(s) => Success(s)
  }

  function CreateUserNotification(
    store: NotificationStore, userId: string, kind: NotificationType, title: string, body: string,
    data: map<string, Field>, freshId: ObjectId, now: int, insertOk: bool)
    : (r: Result<NotificationStore, NotificationError>)
    ensures r.Success? ==> |r.value| == |store| + 1 && r.value[|store|].target == UserTarget
  {
    SendNotification(store, UserTarget, userId, kind, title, body, data, freshId, now, insertOk)
  }

  function CreateDealerNotification(
    store: NotificationStore, dealerId: string, kind: NotificationType, title: string, body: string,
    data: map<string, Field>, freshId: ObjectId, now: int, insertOk: bool)
    : (r: Result<NotificationStore, NotificationError>)
    ensures r.Success? ==> |r.value| == |store| + 1 && r.value[|store|].target == DealerTarget
  {
    SendNotification(store, DealerTarget, dealerId, kind, title, body, data, freshId, now, insertOk)
  }

  /** The user and dealer variants succeed or fail together, and what they
      store differs in the target alone. */
  lemma UserAndDealerDifferOnlyInTarget(
    store: NotificationStore, id: string, kind: NotificationType, title: string, body: string, data: map<string, Field>,
    freshId: ObjectId, now: int, insertOk: bool)
    ensures var u := CreateUserNotification(store, id, kind, title, body, data, freshId, now, insertOk);
            var d := CreateDealerNotification(store, id, kind, title, body, data, freshId, now, insertOk);
            && (u.Success? <==> d.Success?)
            && (u.Failure? ==> u == d)
            && (u.Success? ==> u.value[..|store|] == d.value[..|store|]
                               && u.value[|store|].(target := DealerTarget) == d.value[|store|])
  {
  }

  /** The page number the store is asked for: at least 1. */
  function ClampPage(page: int): (p: int)
    ensures p >= 1
    ensures page >= 1 ==> p == page
    ensures page < 1 ==> p == 1
  {
    if page < 1 then 1 else page
  }

  /** The page size the store is asked for: a size outside [1, 100] becomes
      the default of 20. */
  function ClampLimit(limit: int): (l: int)
    ensures 1 <= l <= 100
    ensures 1 <= limit <= 100 ==> l == limit
    ensures (limit < 1 || limit > 100) ==> l == 20
  {
    if limit < 1 || limit > 100 then 20 else limit
  }

  /** The skip of the clamped page, (page - 1) * limit, is never negative. */
  function ClampedSkip(page: int, limit: int): nat {
    SkipOfNextPage(ClampPage(page), ClampLimit(limit));
    (ClampPage(page) - 1) * ClampLimit(limit)
  }

  /** fetchNotifications (behind GetUserNotifications and
      GetDealerNotifications), over the corrected query whose skip does not
      wrap; FetchNotificationsAsWritten is the source's own. */
  function FetchNotifications(store: NotificationStore, target: NotificationTarget, recipientHex: string,
                              page: int, limit: int, readOk: bool)
    : (r: Result<seq<Notification>, NotificationError>)
    ensures !IsObjectIdHex(recipientHex) ==> r == Failure(ErrInvalidRecipient(recipientHex))
    ensures r.Success? <==> IsObjectIdHex(recipientHex) && readOk
    ensures r.Success? ==> |r.value| <= ClampLimit(limit)
    ensures r.Success? ==>
      forall i | 0 <= i < |r.value| ::
        r.value[i] in store && Addressed(r.value[i], ObjectId(ToLower(recipientHex)), target)
    ensures r.Success? ==> SortedDesc(r.value, ByCreated)
    ensures r.Success? ==>
      r.value == Window(Inbox(store, ObjectId(ToLower(recipientHex)), target), ClampedSkip(page, limit), ClampLimit(limit))
  {
    match ObjectIdFromHex(recipientHex)
    case None => Failure(ErrInvalidRecipient(recipientHex))
    case Some(recipient) =>
      assert recipient == ObjectId(ToLower(recipientHex));
      ClampedPage(store, recipient, target, page, limit, readOk);
      match FindByRecipient(store, recipient, target, ClampPage(page), ClampLimit(limit), readOk)
      case Failure(e) => Failure(Repo(e))
      case Success(items) => Success(items)
  }

  /** The repository query at the clamped page and limit. */
  lemma ClampedPage(store: NotificationStore, recipient: ObjectId, target: NotificationTarget,
                    page: int, limit: int, readOk: bool)
    ensures var r := FindByRecipient(store, recipient, target, ClampPage(page), ClampLimit(limit), readOk);
      && (r.Success? <==> readOk)
      && (r.Success? ==> r.value == Window(Inbox(store, recipient, target), ClampedSkip(page, limit), ClampLimit(limit)))
  {
    if readOk {
      PageIsWindow(store, recipient, target, ClampPage(page), ClampLimit(limit));
    }
  }

  /** fetchNotifications as written: the repository computes the skip
      (page-1)*limit in a 64-bit int, so a far page can wrap to a negative
      skip, which the store refuses. */
  function FetchNotificationsAsWritten(store: NotificationStore, target: NotificationTarget, recipientHex: string,
                                       page: int, limit: int, readOk: bool)
    : (r: Result<seq<Notification>, NotificationError>)
    ensures !IsObjectIdHex(recipientHex) ==> r == Failure(ErrInvalidRecipient(recipientHex))
    ensures r.Success? <==>
      IsObjectIdHex(recipientHex) && readOk && Wrap64((ClampPage(page) - 1) * ClampLimit(limit)) >= 0
    ensures r.Success? ==> SortedDesc(r.value, ByCreated)
    ensures r.Success? ==>
      r.value == Window(Inbox(store, ObjectId(ToLower(recipientHex)), target),
                        Wrap64((ClampPage(page) - 1) * ClampLimit(limit)), ClampLimit(limit))
  {
    match ObjectIdFromHex(recipientHex)
    case None => Failure(ErrInvalidRecipient(recipientHex))
    case Some(recipient) =>
      match FindByRecipientAsWritten(store, recipient, target, ClampPage(page), ClampLimit(limit), readOk)
      case Failure(e) => Failure(Repo(e))
      case Success(items) => Success(items)
  }

  /** While the skip fits in 64 bits the source's fetch is the corrected
      one. */
  lemma FetchAgreesWhenInRange(store: NotificationStore, target: NotificationTarget, recipientHex: string,
                               page: int, limit: int, readOk: bool)
    requires (ClampPage(page) - 1) * ClampLimit(limit) <= MaxInt64
    ensures FetchNotificationsAsWritten(store, target, recipientHex, page, limit, readOk)
         == FetchNotifications(store, target, recipientHex, page, limit, readOk)
  {
    SkipOfNextPage(ClampPage(page), ClampLimit(limit));
  }

  /** Page 2^62 of 100 passes the clamps unchanged, and its skip wraps to
      -100: the source's fetch fails on a healthy store. */
  lemma FarFetchFails(store: NotificationStore, target: NotificationTarget, recipientHex: string)
    requires IsObjectIdHex(recipientHex)
    ensures FetchNotificationsAsWritten(store, target, recipientHex, 0x4000_0000_0000_0000, 100, true)
         == Failure(Repo(DbError))
  {
    FarPageOverflows(store, ObjectId(ToLower(recipientHex)), target);
  }

  /** The corrected fetch answers the same request with an empty page. */
  lemma FarFetchIsEmpty(store: NotificationStore, target: NotificationTarget, recipientHex: string)
    requires IsObjectIdHex(recipientHex) && |store| <= MaxInt64
    ensures FetchNotifications(store, target, recipientHex, 0x4000_0000_0000_0000, 100, true) == Success([])
  {
    FarPageIsEmpty(store, ObjectId(ToLower(recipientHex)), target);
  }

  /** MarkNotificationRead: a malformed id is reported with the recipient
      error, and "no documents" becomes "notification not found". */
  function MarkNotificationRead(store: NotificationStore, notificationHex: string, now: int, writeOk: bool)
    : (r: Result<NotificationStore, NotificationError>)
    ensures !IsObjectIdHex(notificationHex) ==> r == Failure(ErrInvalidRecipient(notificationHex))
    ensures IsObjectIdHex(notificationHex) && writeOk && !HasNotification(store, ObjectId(ToLower(notificationHex)))
            ==> r == Failure(ErrNotificationNotFound)
    ensures r.Success? <==>
      IsObjectIdHex(notificationHex) && writeOk && HasNotification(store, ObjectId(ToLower(notificationHex)))
    ensures r.Success? ==> r.value == MarkOneRead(store, ObjectId(ToLower(notificationHex)), now, writeOk).value
  {
    match ObjectIdFromHex(notificationHex)
    case None => Failure(ErrInvalidRecipient(notificationHex))
    case Some(id) =>
      match MarkOneRead(store, id, now, writeOk)
      case Failure(ErrNoDocuments) => Failure(ErrNotificationNotFound)
      case Failure(e) => Failure(Repo(e))
      case Success(s) => Success(s)
  }

  /** markAllRead (behind the user and dealer variants). */
  function MarkAllNotificationsRead(store: NotificationStore, target: NotificationTarget, recipientHex: string,
                                    now: int, writeOk: bool)
    : (r: Result<NotificationStore, NotificationError>)
    ensures !IsObjectIdHex(recipientHex) ==> r == Failure(ErrInvalidRecipient(recipientHex))
    ensures r.Success? <==> IsObjectIdHex(recipientHex) && writeOk
    ensures r.Success? ==>
      var who := ObjectId(ToLower(recipientHex));
      && |r.value| == |store|
      && (forall i | 0 <= i < |store| && Addressed(store[i], who, target) :: r.value[i].read)
      && (forall i | 0 <= i < |store| && !Addressed(store[i], who, target) :: r.value[i] == store[i])
  {
    match ObjectIdFromHex(recipientHex)
    case None => Failure(ErrInvalidRecipient(recipientHex))
    case Some(recipient) =>
      match MarkAllRead(store, recipient, target, now, writeOk)
      case Failure(e) => Failure(Repo(e))
      case Success(s) => Success(s)
  }
}

=== FILE: security.dfy ===
/** utils/security.go: password hashing with bcrypt and the password
    strength rule. The unicode category tables and bcrypt itself are not
    part of this model; they are passed in as values. */
module Security {
  import opened Common

  /** The unicode category predicates the strength check consults. */
  datatype RuneClasses = RuneClasses(
    isUpper: char -> bool,
    isLower: char -> bool,
    isNumber: char -> bool,
    isPunct: char -> bool,
    isSymbol: char -> bool)

  /** bcrypt's two entry points: hashing (which may fail) and comparison. */
  datatype Bcrypt = Bcrypt(generate: string -> Option<string>, compare: (string, string) -> bool)

  /** A sound bcrypt accepts the password a hash was generated from. */
  ghost predicate SoundBcrypt(b: Bcrypt) {
    forall pw, h | b.generate(pw) == Some(h) :: b.compare(h, pw)
  }

  /** HashPassword: the bcrypt hash of the password, or the library's error. */
  function HashPassword(b: Bcrypt, password: string): (r: Result<string, string>)
    ensures r.Success? <==> b.generate(password).Some?
    ensures r.Success? ==> b.generate(password) == Some(r.value)
  {
    match b.generate(password)
    case Some(h) => Success(h)
    case None => Failure("bcrypt: hashing failed")
  }

  /** CheckPasswordHash: whether the password matches the stored hash. */
  function CheckPasswordHash(b: Bcrypt, password: string, hash: string): (ok: bool)
    ensures ok <==> b.compare(hash, password)
  {
    b.compare(hash, password)
  }

  /** Whatever HashPassword stores, CheckPasswordHash later accepts for the
      same password. */
  lemma HashThenCheck(b: Bcrypt, password: string)
    requires SoundBcrypt(b)
    requires HashPassword(b, password).Success?
    ensures CheckPasswordHash(b, password, HashPassword(b, password).value)
  {
    var h := HashPassword(b, password).value;
    assert b.generate(password) == Some(h);
  }

  /** The arm of the strength check's `switch` a rune lands in: the first
      category that holds wins, so an upper-case rune never counts as a
      letter of another kind. */
  datatype RuneKind = Upper | Lower | Number | Special | OtherRune

  function Classify(u: RuneClasses, c: char): (k: RuneKind)
    ensures k == Upper <==> u.isUpper(c)
    ensures k == Lower <==> !u.isUpper(c) && u.isLower(c)
    ensures k == Number <==> !u.isUpper(c) && !u.isLower(c) && u.isNumber(c)
    ensures k == Special <==> !u.isUpper(c) && !u.isLower(c) && !u.isNumber(c) && (u.isPunct(c) || u.isSymbol(c))
  {
    if u.isUpper(c) then Upper
    else if u.isLower(c) then Lower
    else if u.isNumber(c) then Number
    else if u.isPunct(c) || u.isSymbol(c) then Special
    else OtherRune
  }

  ghost predicate HasKind(u: RuneClasses, s: string, k: RuneKind) {
    exists i | 0 <= i < |s| :: Classify(u, s[i]) == k
  }

  datatype PasswordError =
    | TooShort        // "password must be at least 8 characters"
    | MissingClasses  // "password must contain uppercase, lowercase, number, and special character"

  /** ValidatePasswordStrength: at least eight bytes, then one rune of each
      of the four kinds. */
  method ValidatePasswordStrength(u: RuneClasses, password: string) returns (r: Option<PasswordError>)
    ensures ByteLen(password) < 8 ==> r == Some(TooShort)
    ensures ByteLen(password) >= 8 ==>
      (r.None? <==> HasKind(u, password, Upper) && HasKind(u, password, Lower)
                    && HasKind(u, password, Number) && HasKind(u, password, Special))
    ensures ByteLen(password) >= 8 && r.Some? ==> r == Some(MissingClasses)
  {
    if ByteLen(password) < 8 {
      return Some(TooShort);
    }
    var hasUpper, hasLower, hasNumber, hasSpecial := false, false, false, false;
    var i := 0;
    while i < |password|
      invariant 0 <= i <= |password|
      invariant hasUpper <==> HasKind(u, password[..i], Upper)
      invariant hasLower <==> HasKind(u, password[..i], Lower)
      invariant hasNumber <==> HasKind(u, password[..i], Number)
      invariant hasSpecial <==> HasKind(u, password[..i], Special)
    {
      assert forall k | 0 <= k < i :: password[..i + 1][k] == password[..i][k];
      assert password[..i + 1][i] == password[i];
      match Classify(u, password[i]) {
        case Upper => hasUpper := true;
        case Lower => hasLower := true;
        case Number => hasNumber := true;
        case Special => hasSpecial := true;
        case OtherRune =>
      }
      i := i + 1;
    }
    assert password[..i] == password;
    if !hasUpper || !hasLower || !hasNumber || !hasSpecial {
      return Some(MissingClasses);
    }
    return None;
  }
}

=== FILE: sequences.dfy ===
/** The collection operations the repositories delegate to the document
    store: filtering, sorting on a descending key (`SetSort(... -1)`,
    sort.Slice with a "greater" comparator), and the skip/limit window of a
    find (`SetSkip`, `SetLimit`). */
module Sequences {

  /** A lexicographic sort key: `major` first, then `minor`. */
  datatype Rank = Rank(major: int, minor: int)

  predicate AtLeast(a: Rank, b: Rank) {
    a.major > b.major || (a.major == b.major && a.minor >= b.minor)
  }

  ghost predicate SortedDesc<T>(s: seq<T>, key: T -> Rank) {
    forall i, j | 0 <= i < j < |s| :: AtLeast(key(s[i]), key(s[j]))
  }

  function Insert<T>(x: T, s: seq<T>, key: T -> Rank): (r: seq<T>)
    requires SortedDesc(s, key)
    ensures SortedDesc(r, key)
    ensures multiset(r) == multiset(s) + multiset{x}
    ensures forall i | 0 <= i < |r| :: r[i] == x || r[i] in s
  {
    if |s| == 0 then [x]
    else if AtLeast(key(x), key(s[0])) then [x] + s
    else
      var rest := Insert(x, s[1..], key);
      assert forall i | 0 <= i < |rest| :: AtLeast(key(s[0]), key(rest[i])) by {
        forall i | 0 <= i < |rest|
          ensures AtLeast(key(s[0]), key(rest[i]))
        {
          if rest[i] != x {
            var j :| 0 <= j < |s[1..]| && s[1..][j] == rest[i];
            assert s[j + 1] == rest[i];
          }
        }
      }
      assert s == [s[0]] + s[1..];
      [s[0]] + rest
  }

  /** Insertion sort: a permutation of `s` in non-increasing key order. */
  function SortDesc<T>(s: seq<T>, key: T -> Rank): (r: seq<T>)
    ensures SortedDesc(r, key)
    ensures multiset(r) == multiset(s)
    ensures |r| == |s|
  {
    if |s| == 0 then []
    else
      assert s == [s[0]] + s[1..];
      Insert(s[0], SortDesc(s[1..], key), key)
  }

  /** Two sequences with the same multiset hold the same elements. */
  lemma SameElements<T>(a: seq<T>, b: seq<T>)
    requires multiset(a) == multiset(b)
    ensures forall x :: x in a <==> x in b
  {
    forall x
      ensures x in a <==> x in b
    {
      assert x in a <==> x in multiset(a);
      assert x in b <==> x in multiset(b);
    }
  }

  /** The elements of `s` that satisfy `p`, in their order in `s`. */
  function Filter<T>(s: seq<T>, p: T -> bool): (r: seq<T>)
    ensures |r| <= |s|
    ensures forall i | 0 <= i < |r| :: p(r[i])
    ensures forall i | 0 <= i < |r| :: r[i] in s
    ensures forall i | 0 <= i < |s| :: p(s[i]) ==> s[i] in r
    ensures multiset(r) <= multiset(s)
  {
    if |s| == 0 then []
    else
      assert s == [s[0]] + s[1..];
      if p(s[0]) then [s[0]] + Filter(s[1..], p) else Filter(s[1..], p)
  }

  /** Filtering distributes over concatenation, so it keeps input order. */
  lemma {:induction false} FilterAppend<T>(a: seq<T>, b: seq<T>, p: T -> bool)
    ensures Filter(a + b, p) == Filter(a, p) + Filter(b, p)
  {
    if |a| > 0 {
      assert (a + b)[1..] == a[1..] + b;
      FilterAppend(a[1..], b, p);
    } else {
      assert a + b == b;
    }
  }

  /** Filtering keeps a sequence whose elements all pass. */
  lemma {:induction false} FilterKeepsAll<T>(s: seq<T>, p: T -> bool)
    requires forall i | 0 <= i < |s| :: p(s[i])
    ensures Filter(s, p) == s
  {
    if |s| > 0 {
      FilterKeepsAll(s[1..], p);
    }
  }

  /** The first `n` elements, or all of them when there are fewer. */
  function Prefix<T>(s: seq<T>, n: nat): (r: seq<T>)
    ensures |r| == if |s| < n then |s| else n
    ensures r == s[..|r|]
  {
    if |s| <= n then s else s[..n]
  }

  /** A document-store find window: skip `offset` documents, then return at
      most `limit` of them; a limit of 0 means "no limit" and a negative
      limit means its absolute value. */
  function Window<T>(s: seq<T>, offset: nat, limit: int): (r: seq<T>)
    ensures offset >= |s| ==> r == []
    ensures offset < |s| && limit == 0 ==> r == s[offset..]
    ensures offset < |s| && limit != 0 ==>
      var m := if limit < 0 then -limit else limit;
      r == s[offset..offset + (if |s| - offset < m then |s| - offset else m)]
  {
    if offset >= |s| then []
    else
      var rest := s[offset..];
      if limit == 0 then rest
      else Prefix(rest, if limit < 0 then -limit else limit)
  }

  /** Two consecutive windows of the same size make up the window of twice
      that size. */
  lemma WindowsTile<T>(s: seq<T>, offset: nat, n: nat)
    requires n > 0
    ensures Window(s, offset, n) + Window(s, offset + n, n) == Window(s, offset, 2 * n)
  {
    var a, b, c := Window(s, offset, n), Window(s, offset + n, n), Window(s, offset, 2 * n);
    if offset + n < |s| {
      assert a == s[offset..offset + n];
      assert c == s[offset..offset + |a| + |b|];
    } else if offset < |s| {
      assert a == s[offset..];
    }
  }

  /** A window of a sorted sequence is sorted. */
  lemma WindowSorted<T>(s: seq<T>, offset: nat, limit: int, key: T -> Rank)
    requires SortedDesc(s, key)
    ensures SortedDesc(Window(s, offset, limit), key)
  {
    var r := Window(s, offset, limit);
    if offset < |s| {
      forall i, j | 0 <= i < j < |r|
        ensures AtLeast(key(r[i]), key(r[j]))
      {
        assert r[i] == s[offset + i] && r[j] == s[offset + j];
      }
    }
  }
}

=== FILE: signin.dfy ===
/** services/dealer/signin.go: password sign-in bound to a device. A known
    device gets a fresh token; a new device must first pass an OTP
    challenge, and at most three devices are enrolled that way. */
module Signin {
  import opened Common
  import opened DealerModels
  import opened Utils
  import opened Security
  import opened Environment

  datatype SigninOutcome =
    | Authenticated(response: AuthResponse)
    | OtpPending(sessionId: string)   // OTPPendingError{SessionID}
    | Rejected(reason: string)

  datatype Signin = Signin(outcome: SigninOutcome, store: DealerStore, cache: Cache)

  const OtpPendingMessage := "OTP verification required for new device"

  /** The store's answer to the lookup by email: the matching dealer's id,
      or None when no dealer has that email. */
  predicate LookupAgrees(store: DealerStore, email: string, found: Option<string>) {
    match found
    case Some(id) => id in store && store[id].profile.contact.email == email
    case None => forall id | id in store :: store[id].profile.contact.email != email
  }

  /** Session id used when the client supplies none. */
  function DefaultSessionId(dealerId: string, deviceId: string): string {
    "dealer:" + dealerId + ":" + deviceId
  }

  /** Cache key sign-in clears before issuing a token ("%s:%s:%s"). */
  function SigninTokenKey(prefix: string, dealerId: string, deviceId: string): string {
    prefix + ":" + dealerId + ":" + deviceId
  }

  function PendingAuthSession(id: string, d: Dealer, current: Device, now: int): AuthSession {
    AuthSession(id, d.profile.contact.email, current.deviceId, current.deviceName, current.ip, current.location,
                "pending", now, now)
  }

  /** Step 8: the current device gets the token hash and login time; a
      device still missing is appended. */
  function StampToken(devices: seq<Device>, current: Device, tokenHash: string, now: int): (r: seq<Device>)
    ensures HasDevice(devices, current.deviceId) ==> |r| == |devices|
    ensures !HasDevice(devices, current.deviceId) ==> r == devices + [current.(tokenHash := tokenHash, lastLogin := now)]
    ensures forall k | 0 <= k < |devices| :: r[k].deviceId == devices[k].deviceId
    ensures forall k | 0 <= k < |devices| && devices[k].deviceId != current.deviceId :: r[k] == devices[k]
    ensures forall k | 0 <= k < |devices| ::
      r[k] == devices[k] || r[k] == devices[k].(tokenHash := tokenHash, lastLogin := now)
    ensures HasDevice(devices, current.deviceId) ==>
      var k := FindDevice(devices, current.deviceId).value;
      r[k] == devices[k].(tokenHash := tokenHash, lastLogin := now)
  {
    match FindDevice(devices, current.deviceId)
    case Some(k) => devices[k := devices[k].(tokenHash := tokenHash, lastLogin := now)]
    case None => devices + [current.(tokenHash := tokenHash, lastLogin := now)]
  }

  /** Steps 7-10: clear the token cache key, generate the token, stamp the
      device list, persist it and drop the auth session. */
  function IssueToken(store: DealerStore, cache: Cache, prefix: string, id: string, d: Dealer, devices: seq<Device>,
                      current: Device, sessionId: string, env: Env, crypto: Crypto): (r: Signin)
    requires id in store && store[id] == d
    ensures !r.outcome.Authenticated? ==> r.store == store
    ensures r.outcome.Authenticated? ==>
      && env.token.Some? && env.storeWriteOk
      && r.outcome.response == AuthResponse(id, env.token.value, d.profile, d.createdAt)
      && r.store == store[id := store[id].(devices := StampToken(devices, current, crypto.hashToken(env.token.value), env.now),
                                               updatedAt := env.now)]
    ensures forall key | key in r.cache :: key in cache && r.cache[key] == cache[key]
    ensures forall key | key in cache && key != SigninTokenKey(prefix, id, current.deviceId) && key != sessionId :: key in r.cache
    ensures env.cacheDeleteOk ==> SigninTokenKey(prefix, id, current.deviceId) !in r.cache
    ensures r.outcome.Authenticated? && env.cacheDeleteOk ==> sessionId !in r.cache
    ensures !r.outcome.Authenticated? && sessionId in cache && sessionId != SigninTokenKey(prefix, id, current.deviceId) ==>
      sessionId in r.cache
  {
    var cleared := if env.cacheDeleteOk then cache - {SigninTokenKey(prefix, id, current.deviceId)} else cache;
    match env.token
    case None => Signin(Rejected("authentication failed"), store, cleared)
    case Some(token) =>
      var stamped := StampToken(devices, current, crypto.hashToken(token), env.now);
      if !env.storeWriteOk then Signin(Rejected("authentication failed"), store, cleared)
      else
        var store' := store[id := store[id].(devices := stamped, updatedAt := env.now)];
        var cache' := if env.cacheDeleteOk then cleared - {sessionId} else cleared;
        Signin(Authenticated(AuthResponse(id, token, d.profile, d.createdAt)), store', cache')
  }

  /** Step 6 for a device the dealer does not have, without a verified OTP:
      enforce the cap, send the OTP once per session key, and ask for it. */
  function ChallengeNewDevice(store: DealerStore, cache: Cache, id: string, d: Dealer, auth: AuthSession, current: Device,
                              sessionId: string, env: Env): (r: Signin)
    ensures r.store == store
    ensures |d.devices| >= MaxDevices ==> r.outcome == Rejected("maximum 3 devices allowed") && r.cache == cache
    ensures |d.devices| < MaxDevices && OtpKey(sessionId) in cache ==> r.outcome == OtpPending(sessionId) && r.cache == cache
    ensures |d.devices| < MaxDevices && OtpKey(sessionId) !in cache ==>
      if env.otpSent then
        && r.outcome == OtpPending(sessionId)
        && var withOtp := cache[OtpKey(id) := Entry(OtpValue(current.deviceId, d.profile.contact.phone), HelperTtl)];
           r.cache == SaveAuthSession(withOtp, sessionId, auth.(status := "pending_otp"), env.cacheWriteOk)
      else r.outcome == Rejected("failed to send OTP") && r.cache == cache
  {
    if |d.devices| >= MaxDevices then Signin(Rejected("maximum 3 devices allowed"), store, cache)
    else if OtpKey(sessionId) in cache then Signin(OtpPending(sessionId), store, cache)
    else
      match InitiateDeviceOtp(cache, id, current.deviceId, d.profile.contact.phone, env.otpSent)
      case Failure(_) => Signin(Rejected("failed to send OTP"), store, cache)
      case Success(withOtp) =>
        Signin(OtpPending(sessionId), store, SaveAuthSession(withOtp, sessionId, auth.(status := "pending_otp"), env.cacheWriteOk))
  }

  /** Steps 4-6: the auth session must exist; a known device has its IP and
      location refreshed; a new device is challenged unless the session is
      OTP-verified, in which case it is appended without a cap check. */
  function ContinueSignin(store: DealerStore, cache: Cache, prefix: string, id: string, d: Dealer, current: Device,
                          sessionId: string, env: Env, crypto: Crypto): (r: Signin)
    requires id in store && store[id] == d
    ensures GetAuthSession(cache, sessionId).None? ==> r == Signin(Rejected("authentication session expired"), store, cache)
    ensures !r.outcome.Authenticated? ==> r.store == store
    ensures r.outcome.Authenticated? ==>
      && r.outcome.response.id == id && id in r.store && r.store == store[id := r.store[id]]
    ensures r.outcome.Authenticated? && env.cacheDeleteOk ==> sessionId !in r.cache
  {
    match GetAuthSession(cache, sessionId)
    case None => Signin(Rejected("authentication session expired"), store, cache)
    case Some(auth) =>
      match FindDevice(d.devices, current.deviceId)
      case Some(k) =>
        var refreshed := d.devices[k := d.devices[k].(ip := current.ip, location := current.location)];
        IssueToken(store, cache, prefix, id, d, refreshed, current, sessionId, env, crypto)
      case None =>
        if auth.status != "otp_verified" then ChallengeNewDevice(store, cache, id, d, auth, current, sessionId, env)
        else
          var enrolled := d.devices + [current.(lastLogin := env.now, creator := false)];
          IssueToken(store, cache, prefix, id, d, enrolled, current, sessionId, env, crypto)
  }

  /** AuthenticateDealer. `found` is the store's reply to the lookup by
      email; `prefix` is the token cache prefix. */
  function AuthenticateDealer(store: DealerStore, cache: Cache, prefix: string, email: string, password: string,
                              current: Device, providedSessionId: string, found: Option<string>, env: Env, crypto: Crypto)
    : (r: Signin)
    requires LookupAgrees(store, email, found)
    ensures !env.storeReadOk || found.None? ==> r == Signin(Rejected("authentication failed"), store, cache)
    ensures env.storeReadOk && found.Some? && !CheckPasswordHash(crypto.bcrypt, password, store[found.value].security.passwordHash)
      ==> r == Signin(Rejected("invalid credentials"), store, cache)
    ensures !r.outcome.Authenticated? ==> r.store == store
    ensures r.outcome.Authenticated? ==>
      && env.storeReadOk && found.Some?
      && CheckPasswordHash(crypto.bcrypt, password, store[found.value].security.passwordHash)
      && r.outcome.response.id == found.value
      && r.store.Keys == store.Keys
      && (forall id | id in store && id != found.value :: r.store[id] == store[id])
    ensures r.outcome.Authenticated? && env.cacheDeleteOk ==>
      SessionIdFor(providedSessionId, found.value, current.deviceId) !in r.cache
  {
    if !env.storeReadOk || found.None? then Signin(Rejected("authentication failed"), store, cache)
    else
      var d := store[found.value];
      if !CheckPasswordHash(crypto.bcrypt, password, d.security.passwordHash) then
        Signin(Rejected("invalid credentials"), store, cache)
      else if providedSessionId == "" then
        var sessionId := DefaultSessionId(found.value, current.deviceId);
        if !env.cacheWriteOk then Signin(Rejected("failed to start auth session"), store, cache)
        else
          var started := SaveAuthSession(cache, sessionId, PendingAuthSession(found.value, d, current, env.now), true);
          ContinueSignin(store, started, prefix, found.value, d, current, sessionId, env, crypto)
      else ContinueSignin(store, cache, prefix, found.value, d, current, providedSessionId, env, crypto)
  }

  /* -------------------------------------------------------------- lemmas */

  /** The session id sign-in works under. */
  function SessionIdFor(providedSessionId: string, dealerId: string, deviceId: string): string {
    if providedSessionId == "" then DefaultSessionId(dealerId, deviceId) else providedSessionId
  }

  /** Stamping a present device gives it the hash and keeps ids distinct. */
  lemma StampTokenFacts(devices: seq<Device>, current: Device, tokenHash: string, now: int)
    requires HasDevice(devices, current.deviceId)
    ensures var r := StampToken(devices, current, tokenHash, now);
      exists k | 0 <= k < |r| :: r[k].deviceId == current.deviceId && r[k].tokenHash == tokenHash
    ensures DistinctDeviceIds(devices) ==> DistinctDeviceIds(StampToken(devices, current, tokenHash, now))
  {
    var k := FindDevice(devices, current.deviceId).value;
    var r := StampToken(devices, current, tokenHash, now);
    assert r[k].deviceId == current.deviceId && r[k].tokenHash == tokenHash;
  }

  /** Steps 5-6 on the device list, for a sign-in that goes on to issue a
      token: a known device has its IP and location refreshed; otherwise the
      current device is appended as a non-creator with the login time. */
  function Prepared(devices: seq<Device>, current: Device, now: int): seq<Device> {
    match FindDevice(devices, current.deviceId)
    case Some(k) => devices[k := devices[k].(ip := current.ip, location := current.location)]
    case None => devices + [current.(lastLogin := now, creator := false)]
  }

  /** `after` is `before` rotated for `current`: a known device keeps its
      place and gets the current IP and location, the token hash and the
      login time; an unknown device is appended as a non-creator holding the
      hash and the login time; every other device is as it was; ids are
      distinct. */
  ghost predicate RotatedFor(before: seq<Device>, after: seq<Device>, current: Device, tokenHash: string, now: int) {
    && DistinctDeviceIds(after)
    && (exists k | 0 <= k < |after| :: after[k].deviceId == current.deviceId && after[k].tokenHash == tokenHash)
    && |before| <= |after|
    && (forall k | 0 <= k < |before| && before[k].deviceId != current.deviceId :: after[k] == before[k])
    && match FindDevice(before, current.deviceId)
       case Some(k) =>
         && |after| == |before|
         && after[k] == before[k].(ip := current.ip, location := current.location, tokenHash := tokenHash, lastLogin := now)
       case None => after == before + [current.(creator := false, tokenHash := tokenHash, lastLogin := now)]
  }

  /** Refreshing a known device keeps every id, so it is found at the same
      index. */
  lemma RefreshKeepsIndex(before: seq<Device>, current: Device, now: int, k: nat)
    requires FindDevice(before, current.deviceId) == Some(k)
    ensures FindDevice(Prepared(before, current, now), current.deviceId) == Some(k)
  {
    var m := Prepared(before, current, now);
    assert m[k].deviceId == current.deviceId;
    var j := FindDevice(m, current.deviceId).value;
    assert m[j].deviceId == before[j].deviceId;
  }

  /** Stamping a refreshed known device is the rotation. */
  lemma KnownDeviceRotates(before: seq<Device>, current: Device, tokenHash: string, now: int, k: nat)
    requires DistinctDeviceIds(before) && FindDevice(before, current.deviceId) == Some(k)
    ensures RotatedFor(before, StampToken(Prepared(before, current, now), current, tokenHash, now), current, tokenHash, now)
  {
    var m := Prepared(before, current, now);
    RefreshKeepsIndex(before, current, now, k);
    assert forall j | 0 <= j < |m| :: m[j].deviceId == before[j].deviceId;
    StampTokenFacts(m, current, tokenHash, now);
  }

  /** Stamping an enrolled device is the rotation. */
  lemma EnrolledDeviceRotates(before: seq<Device>, current: Device, tokenHash: string, now: int)
    requires DistinctDeviceIds(before) && FindDevice(before, current.deviceId).None?
    ensures RotatedFor(before, StampToken(Prepared(before, current, now), current, tokenHash, now), current, tokenHash, now)
  {
    var m := Prepared(before, current, now);
    var after := StampToken(m, current, tokenHash, now);
    assert m[|before|].deviceId == current.deviceId;
    assert FindDevice(m, current.deviceId) == Some(|before|);
    assert after == before + [current.(creator := false, tokenHash := tokenHash, lastLogin := now)];
    StampTokenFacts(m, current, tokenHash, now);
  }

  /** IssueToken on the prepared device list stores the rotation of the
      stored one. */
  lemma IssueTokenRotates(store: DealerStore, cache: Cache, prefix: string, id: string, d: Dealer,
                          current: Device, sessionId: string, env: Env, crypto: Crypto)
    requires id in store && store[id] == d && DistinctDeviceIds(d.devices)
    requires IssueToken(store, cache, prefix, id, d, Prepared(d.devices, current, env.now), current, sessionId, env, crypto)
               .outcome.Authenticated?
    ensures RotatedFor(d.devices,
                       IssueToken(store, cache, prefix, id, d, Prepared(d.devices, current, env.now), current, sessionId, env, crypto)
                         .store[id].devices,
                       current, crypto.hashToken(env.token.value), env.now)
  {
    match FindDevice(d.devices, current.deviceId)
    case Some(k) => KnownDeviceRotates(d.devices, current, crypto.hashToken(env.token.value), env.now, k);
    case None => EnrolledDeviceRotates(d.devices, current, crypto.hashToken(env.token.value), env.now);
  }

  /** The same one level up, for both the known-device and the enrolment
      branch. */
  lemma ContinueSigninRotates(store: DealerStore, cache: Cache, prefix: string, id: string, d: Dealer, current: Device,
                              sessionId: string, env: Env, crypto: Crypto)
    requires id in store && store[id] == d && DistinctDeviceIds(d.devices)
    requires ContinueSignin(store, cache, prefix, id, d, current, sessionId, env, crypto).outcome.Authenticated?
    ensures env.token.Some?
    ensures RotatedFor(d.devices, ContinueSignin(store, cache, prefix, id, d, current, sessionId, env, crypto).store[id].devices,
                       current, crypto.hashToken(env.token.value), env.now)
  {
    var m := Prepared(d.devices, current, env.now);
    assert ContinueSignin(store, cache, prefix, id, d, current, sessionId, env, crypto)
        == IssueToken(store, cache, prefix, id, d, m, current, sessionId, env, crypto);
    IssueTokenRotates(store, cache, prefix, id, d, current, sessionId, env, crypto);
  }

  /** A successful sign-in rotates the token of the signing-in device only:
      that device ends up holding HashToken of the returned token and the
      login time (and, when it was known, the current IP and location),
      every other device is untouched, at most one device is added and
      device ids stay distinct. */
  lemma SigninRotatesOnlyCurrentDevice(store: DealerStore, cache: Cache, prefix: string, email: string, password: string,
                                       current: Device, providedSessionId: string, found: Option<string>, env: Env, crypto: Crypto)
    requires LookupAgrees(store, email, found)
    requires found.Some? && DistinctDeviceIds(store[found.value].devices)
    requires AuthenticateDealer(store, cache, prefix, email, password, current, providedSessionId, found, env, crypto).outcome.Authenticated?
    ensures var r := AuthenticateDealer(store, cache, prefix, email, password, current, providedSessionId, found, env, crypto);
      && env.token.Some? && r.outcome.response.token == env.token.value
      && RotatedFor(store[found.value].devices, r.store[found.value].devices, current, crypto.hashToken(env.token.value), env.now)
  {
    var id := found.value;
    var sid := SessionIdFor(providedSessionId, id, current.deviceId);
    var c1 := if providedSessionId == "" then SaveAuthSession(cache, sid, PendingAuthSession(id, store[id], current, env.now), true) else cache;
    ContinueSigninRotates(store, c1, prefix, id, store[id], current, sid, env, crypto);
  }

  /** A device the dealer does not have is never signed in unless the auth
      session was already OTP-verified; without that, the dealer record is
      untouched and the answer is the cap error, the OTP challenge, or an
      OTP delivery failure. */
  lemma NewDeviceNeedsVerifiedSession(store: DealerStore, cache: Cache, prefix: string, email: string, password: string,
                                      current: Device, providedSessionId: string, found: Option<string>, env: Env, crypto: Crypto)
    requires LookupAgrees(store, email, found)
    requires found.Some? && !HasDevice(store[found.value].devices, current.deviceId)
    requires env.storeReadOk && CheckPasswordHash(crypto.bcrypt, password, store[found.value].security.passwordHash)
    ensures var r := AuthenticateDealer(store, cache, prefix, email, password, current, providedSessionId, found, env, crypto);
      var sid := SessionIdFor(providedSessionId, found.value, current.deviceId);
      var c1 := if providedSessionId == "" then SaveAuthSession(cache, sid, PendingAuthSession(found.value, store[found.value], current, env.now), true) else cache;
      r.outcome.Authenticated? ==> GetAuthSession(c1, sid).Some? && GetAuthSession(c1, sid).value.status == "otp_verified"
    ensures var r := AuthenticateDealer(store, cache, prefix, email, password, current, providedSessionId, found, env, crypto);
      var sid := SessionIdFor(providedSessionId, found.value, current.deviceId);
      providedSessionId == "" && env.cacheWriteOk ==>
        && !r.outcome.Authenticated?
        && r.store == store
        && (|store[found.value].devices| >= MaxDevices ==> r.outcome == Rejected("maximum 3 devices allowed"))
        && (|store[found.value].devices| < MaxDevices ==> r.outcome in {OtpPending(sid), Rejected("failed to send OTP")})
  {
  }

  /** The cap is not re-checked once the session is OTP-verified: a dealer
      with three or more devices gains one more. */
  lemma VerifiedSessionBypassesCap(store: DealerStore, cache: Cache, prefix: string, email: string, password: string,
                                   current: Device, sessionId: string, found: Option<string>, env: Env, crypto: Crypto)
    requires LookupAgrees(store, email, found)
    requires found.Some? && !HasDevice(store[found.value].devices, current.deviceId)
    requires |store[found.value].devices| >= MaxDevices
    requires sessionId != ""
    requires GetAuthSession(cache, sessionId).Some? && GetAuthSession(cache, sessionId).value.status == "otp_verified"
    requires env.storeReadOk && env.storeWriteOk && env.token.Some?
    requires CheckPasswordHash(crypto.bcrypt, password, store[found.value].security.passwordHash)
    ensures var r := AuthenticateDealer(store, cache, prefix, email, password, current, sessionId, found, env, crypto);
      && r.outcome.Authenticated?
      && |r.store[found.value].devices| == |store[found.value].devices| + 1 > MaxDevices
  {
    var d := store[found.value];
    var m := d.devices + [current.(lastLogin := env.now, creator := false)];
    assert m[|d.devices|].deviceId == current.deviceId;
    assert HasDevice(m, current.deviceId);
  }

  /** The OTP is filed under the dealer id but looked for under the session
      id: when the two differ, a challenge leaves no record under the key
      that is checked, so every retry sends a new OTP. */
  lemma ChallengeResendsOtp(store: DealerStore, cache: Cache, id: string, d: Dealer, auth: AuthSession, current: Device,
                            sessionId: string, env: Env)
    requires |d.devices| < MaxDevices && env.otpSent
    requires OtpKey(sessionId) !in cache && sessionId != id
    ensures var r := ChallengeNewDevice(store, cache, id, d, auth, current, sessionId, env);
      && r.outcome == OtpPending(sessionId)
      && OtpKey(id) in r.cache
      && OtpKey(sessionId) !in r.cache
      && ChallengeNewDevice(store, r.cache, id, d, auth, current, sessionId, env).cache[OtpKey(id)] == r.cache[OtpKey(id)]
  {
    assert OtpKey(sessionId) != OtpKey(id) by {
      assert OtpKey(sessionId)[4..] == sessionId && OtpKey(id)[4..] == id;
    }
    assert OtpKey(sessionId) != sessionId by {
      assert |OtpKey(sessionId)| != |sessionId|;
    }
  }
}

=== FILE: signup.dfy ===
/** services/dealer/signup.go: the four registration steps (basic data,
    OTP, know-your-partner documents, service catalogue) as transitions over
    the session cache and the dealer store. */
module Signup {
  import opened Common
  import opened DealerModels
  import opened Utils
  import opened Security
  import opened DealerUtils
  import opened Environment

  /* ------------------------------------------------------------ outcomes */

  /** Result of a step that only touches the cache. */
  datatype Step<T> = Step(result: Result<T, string>, cache: Cache)

  /** Result of finalisation. `Aborted` is the run-time panic of indexing an
      empty device list. */
  datatype Finalization =
    | Finalized(result: Result<AuthResponse, string>, cache: Cache, store: DealerStore)
    | Aborted

  const BasicDoneCode: int := 100
  const OtpDoneCode: int := 105
  const KypDoneCode: int := 101

  /** IsDealerAvailable, with the store's notion of "already taken": some
      dealer has this contact email or this dealer name. */
  predicate DealerExists(store: DealerStore, email: string, dealerName: string) {
    exists id | id in store :: store[id].profile.contact.email == email || store[id].profile.dealerName == dealerName
  }

  /** The sanitising RegisterBasic applies before validation. */
  function Sanitize(b: BasicData): (s: BasicData)
    ensures s.email == ToLower(TrimSpace(b.email))
    ensures s.phoneNumber == NormalizePhoneNumber(b.phoneNumber)
    ensures s.(email := b.email, phoneNumber := b.phoneNumber) == b
  {
    b.(email := ToLower(TrimSpace(b.email)), phoneNumber := NormalizePhoneNumber(b.phoneNumber))
  }

  /** The session RegisterBasic records for a new registration. */
  function NewSession(id: string, b: BasicData, device: Device, now: int): RegistrationSession {
    RegistrationSession(
      tempId := id, basicData := b, kypData := NoKyp, serviceCatalogue := NoCatalogue,
      otpStatus := "pending", verificationStatus := "", verificationLevel := "",
      createdAt := now, lastUpdatedAt := now, devices := [device])
  }

  /* --------------------------------------------------------------- steps */

  /** The second half of RegisterBasic, once the data passed validation
      and the availability check: send the OTP, then save the session. */
  function StartSession(cache: Cache, b: BasicData, device: Device, env: Env): (r: Step<(string, int)>)
    ensures !env.otpSent ==> r.result.Failure? && r.cache == cache
    ensures r.result.Failure? ==>
      r.cache == cache || r.cache == cache[OtpKey(env.freshId) := Entry(OtpValue(device.deviceId, b.phoneNumber), HelperTtl)]
    ensures r.result.Success? ==>
      && r.result.value == (env.freshId, BasicDoneCode)
      && r.cache == cache[OtpKey(env.freshId) := Entry(OtpValue(device.deviceId, b.phoneNumber), HelperTtl)]
                         [env.freshId := Entry(RegistrationValue(NewSession(env.freshId, b, device, env.now)), RegistrationTtl)]
  {
    var sessionId := env.freshId;
    match InitiateDeviceOtp(cache, sessionId, device.deviceId, b.phoneNumber, env.otpSent)
    case Failure(_) => Step(Failure("failed to initiate OTP"), cache)
    case Success(withOtp) =>
      var session := NewSession(sessionId, b, device, env.now);
      match SaveRegistrationSession(withOtp, sessionId, session, RegistrationTtl, env.cacheWriteOk)
      case Failure(_) => Step(Failure("failed to save registration session"), withOtp)
      case Success(saved) => Step(Success((sessionId, BasicDoneCode)), saved)
  }

  /** RegisterBasic: sanitise, validate, refuse a taken email or name, send
      the OTP, then record a pending session for the registering device. */
  function RegisterBasic(cache: Cache, store: DealerStore, basic: BasicData, device: Device, env: Env)
    : (r: Step<(string, int)>)
    ensures var b := Sanitize(basic);
      (!BasicDataValid(b) || !env.storeReadOk || DealerExists(store, b.email, b.dealerName)) ==> r.result.Failure? && r.cache == cache
    ensures r.result.Success? ==>
      var b := Sanitize(basic);
      BasicDataValid(b) && !DealerExists(store, b.email, b.dealerName) && env.storeReadOk
    ensures var b := Sanitize(basic);
      BasicDataValid(b) && env.storeReadOk && !DealerExists(store, b.email, b.dealerName) ==> r == StartSession(cache, b, device, env)
  {
    var b := Sanitize(basic);
    match ValidateBasicRegistrationData(b)
    case Some(e) => Step(Failure("validation error: " + e), cache)
    case None =>
      if !env.storeReadOk then Step(Failure("availability check failed"), cache)
      else if DealerExists(store, b.email, b.dealerName) then
        Step(Failure("a dealer with this email or phone already exists"), cache)
      else StartSession(cache, b, device, env)
  }

  /** VerifyOTP: a present session whose OTP the helper accepts is marked
      verified; nothing else about it changes. */
  function VerifyOtp(cache: Cache, sessionId: string, deviceId: string, otp: string, env: Env): (r: Step<int>)
    ensures GetRegistrationSession(cache, sessionId).Failure? ==> r.result.Failure? && r.cache == cache
    ensures !env.otpAccepted ==> r.result.Failure? && r.cache == cache
    ensures r.result.Failure? ==> r.cache == cache
    ensures r.result.Success? ==>
      && r.result.value == OtpDoneCode
      && GetRegistrationSession(cache, sessionId).Success?
      && var s := GetRegistrationSession(cache, sessionId).value;
         r.cache == cache[sessionId := Entry(RegistrationValue(s.(otpStatus := "verified", lastUpdatedAt := env.now)), RegistrationTtl)]
  {
    match GetRegistrationSession(cache, sessionId)
    case Failure(_) => Step(Failure("failed to retrieve registration session"), cache)
    case Success(session) =>
      if !env.otpAccepted then Step(Failure("OTP verification failed"), cache)
      else
        var updated := session.(otpStatus := "verified", lastUpdatedAt := env.now);
        match SaveRegistrationSession(cache, sessionId, updated, RegistrationTtl, env.cacheWriteOk)
        case Failure(_) => Step(Failure("failed to update OTP status"), cache)
        case Success(saved) => Step(Success(OtpDoneCode), saved)
  }

  predicate KypComplete(k: KypData) { k.legalName != "" && k.documentUrl != "" && k.selfieUrl != "" }

  /** VerifyKYP: requires a verified OTP and all three documents; records
      them and marks the session verified at level "basic". */
  function VerifyKyp(cache: Cache, sessionId: string, kyp: KypData, env: Env): (r: Step<int>)
    ensures r.result.Failure? ==> r.cache == cache
    ensures r.result.Success? ==>
      && r.result.value == KypDoneCode
      && KypComplete(kyp)
      && GetRegistrationSession(cache, sessionId).Success?
      && var s := GetRegistrationSession(cache, sessionId).value;
         && s.otpStatus == "verified"
         && r.cache == cache[sessionId := Entry(RegistrationValue(
              s.(kypData := kyp, verificationStatus := "verified", verificationLevel := "basic", lastUpdatedAt := env.now)),
              RegistrationTtl)]
    ensures GetRegistrationSession(cache, sessionId).Success? && GetRegistrationSession(cache, sessionId).value.otpStatus != "verified"
      ==> r.result == Failure("OTP verification required first")
  {
    match GetRegistrationSession(cache, sessionId)
    case Failure(_) => Step(Failure("failed to retrieve session"), cache)
    case Success(session) =>
      if session.otpStatus != "verified" then Step(Failure("OTP verification required first"), cache)
      else if !KypComplete(kyp) then Step(Failure("all KYP documents are required"), cache)
      else
        var updated := session.(kypData := kyp, verificationStatus := "verified", verificationLevel := "basic",
                                lastUpdatedAt := env.now);
        match SaveRegistrationSession(cache, sessionId, updated, RegistrationTtl, env.cacheWriteOk)
        case Failure(_) => Step(Failure("failed to update session"), cache)
        case Success(saved) => Step(Success(KypDoneCode), saved)
  }

  /** The dealer FinalizeRegistration stores for a session, before the
      registering device's token is attached. */
  function FinalDealer(session: RegistrationSession, catalogue: ServiceCatalogue, passwordHash: string, id: string, now: int): Dealer {
    var withCatalogue := session.(serviceCatalogue := catalogue, lastUpdatedAt := now);
    var d := CreateDealerFromSession(withCatalogue, id, now);
    d.(security := d.security.(passwordHash := passwordHash))
  }

  /** The dealer FinalizeRegistration inserts: the session's dealer with the
      password hash and the registering (first) device's token hash. */
  function RegisteredDealer(session: RegistrationSession, catalogue: ServiceCatalogue, passwordHash: string,
                            tokenHash: string, id: string, now: int): Dealer
    requires |session.devices| > 0
  {
    var dealer := FinalDealer(session, catalogue, passwordHash, id, now);
    var device := session.devices[0];
    dealer.(devices := UpdateDeviceToken(dealer.devices, device.deviceId, device.deviceName, tokenHash, now))
  }

  /** The dealer collection's unique indexes on profile.dealerName and
      profile.slug (database/repository/dealer/indexes.go): an insert is
      refused when a stored dealer already has the name or its slug. */
  predicate NameTaken(store: DealerStore, dealerName: string) {
    exists id | id in store :: store[id].profile.dealerName == dealerName || store[id].profile.slug == GenerateSlug(dealerName)
  }

  /** The inserted dealer carries the session's name and its slug. */
  lemma RegisteredDealerNamed(session: RegistrationSession, catalogue: ServiceCatalogue, passwordHash: string,
                              tokenHash: string, id: string, now: int)
    requires |session.devices| > 0
    ensures RegisteredDealer(session, catalogue, passwordHash, tokenHash, id, now).profile.dealerName == session.basicData.dealerName
    ensures RegisteredDealer(session, catalogue, passwordHash, tokenHash, id, now).profile.slug == GenerateSlug(session.basicData.dealerName)
  {
  }

  /** The part of FinalizeRegistration after the session checks: hash the
      password, issue the first device's token, insert the dealer, then
      remove the session. */
  function CompleteRegistration(cache: Cache, store: DealerStore, sessionId: string, session: RegistrationSession,
                                catalogue: ServiceCatalogue, env: Env, crypto: Crypto): (r: Finalization)
    ensures r.Finalized? && r.result.Failure? ==> r.cache == cache && r.store == store
    ensures r.Aborted? ==> session.devices == []
    ensures r.Finalized? && r.result.Success? ==>
      && |session.devices| > 0
      && env.freshId !in store
      && !NameTaken(store, session.basicData.dealerName)
      && crypto.bcrypt.generate(session.basicData.password).Some?
      && env.token.Some?
      && r.result.value.token == env.token.value
      && r.store == store[env.freshId := RegisteredDealer(session, catalogue, crypto.bcrypt.generate(session.basicData.password).value,
                                                          crypto.hashToken(env.token.value), env.freshId, env.now)]
      && r.cache == (if env.cacheDeleteOk then cache - {sessionId} else cache)
  {
    match HashPassword(crypto.bcrypt, session.basicData.password)
    case Failure(_) => Finalized(Failure("password hashing failed"), cache, store)
    case Success(passwordHash) =>
      if |session.devices| == 0 then Aborted
      else
        match GenerateAuthToken(env.token, crypto.hashToken)
        case Failure(e) => Finalized(Failure(e), cache, store)
        case Success((token, tokenHash)) =>
          if !env.storeWriteOk || env.freshId in store || NameTaken(store, session.basicData.dealerName) then
            Finalized(Failure("database creation failed"), cache, store)
          else
            var dealer := RegisteredDealer(session, catalogue, passwordHash, tokenHash, env.freshId, env.now);
            var cache' := if env.cacheDeleteOk then cache - {sessionId} else cache;
            Finalized(Success(AuthResponse(env.freshId, token, dealer.profile, dealer.createdAt)),
                      cache', store[env.freshId := dealer])
  }

  /** FinalizeRegistration: requires a KYP-verified session and at least one
      service before anything is written. A failed session removal is only
      logged. */
  function Finalize(cache: Cache, store: DealerStore, sessionId: string, catalogue: ServiceCatalogue, env: Env, crypto: Crypto)
    : (r: Finalization)
    ensures r.Finalized? && r.result.Failure? ==> r.cache == cache && r.store == store
    ensures r.Aborted? || r.result.Success? ==>
      && GetRegistrationSession(cache, sessionId).Success?
      && GetRegistrationSession(cache, sessionId).value.verificationStatus == "verified"
      && |catalogue.services| > 0
      && r == CompleteRegistration(cache, store, sessionId, GetRegistrationSession(cache, sessionId).value, catalogue, env, crypto)
  {
    match GetRegistrationSession(cache, sessionId)
    case Failure(_) => Finalized(Failure("failed to retrieve session"), cache, store)
    case Success(session) =>
      if session.verificationStatus != "verified" then Finalized(Failure("KYP verification required"), cache, store)
      else if |catalogue.services| == 0 then Finalized(Failure("at least one service is required"), cache, store)
      else CompleteRegistration(cache, store, sessionId, session, catalogue, env, crypto)
  }

  /** What FinalizeRegistration needs in order to insert a dealer: a
      KYP-verified session holding a device, a non-empty catalogue, a
      password bcrypt can hash, a generated token, a working store, an
      unused id and a dealer name whose name and slug are not yet stored. */
  predicate FinalizeSucceeds(cache: Cache, store: DealerStore, sessionId: string, catalogue: ServiceCatalogue,
                             env: Env, crypto: Crypto) {
    && GetRegistrationSession(cache, sessionId).Success?
    && var s := GetRegistrationSession(cache, sessionId).value;
       && s.verificationStatus == "verified"
       && |catalogue.services| > 0
       && crypto.bcrypt.generate(s.basicData.password).Some?
       && |s.devices| > 0
       && env.token.Some? && env.storeWriteOk && env.freshId !in store
       && !NameTaken(store, s.basicData.dealerName)
  }

  /** Finalisation inserts a dealer exactly when those conditions hold. */
  lemma FinalizeSuccessIff(cache: Cache, store: DealerStore, sessionId: string, catalogue: ServiceCatalogue,
                           env: Env, crypto: Crypto)
    ensures (Finalize(cache, store, sessionId, catalogue, env, crypto).Finalized?
             && Finalize(cache, store, sessionId, catalogue, env, crypto).result.Success?)
        <==> FinalizeSucceeds(cache, store, sessionId, catalogue, env, crypto)
  {
  }

  /* ------------------------------------------------------------ invariant */

  /** What every registration session in the cache satisfies: exactly one
      (the registering) device, and KYP verification only after OTP. */
  ghost predicate SessionsWellFormed(cache: Cache) {
    forall k | k in cache && cache[k].value.RegistrationValue? ::
      var s := cache[k].value.session;
      |s.devices| == 1 && (s.verificationStatus == "verified" ==> s.otpStatus == "verified")
  }

  lemma StartSessionPreserves(cache: Cache, b: BasicData, device: Device, env: Env)
    requires SessionsWellFormed(cache)
    ensures SessionsWellFormed(StartSession(cache, b, device, env).cache)
  {
    var r := StartSession(cache, b, device, env);
    assert |OtpKey(env.freshId)| != |env.freshId|;
    forall k | k in r.cache && r.cache[k].value.RegistrationValue?
      ensures |r.cache[k].value.session.devices| == 1
      ensures r.cache[k].value.session.verificationStatus == "verified" ==> r.cache[k].value.session.otpStatus == "verified"
    {
      if k != env.freshId && k != OtpKey(env.freshId) {
        assert k in cache && r.cache[k] == cache[k];
      }
    }
  }

  lemma RegisterBasicPreserves(cache: Cache, store: DealerStore, basic: BasicData, device: Device, env: Env)
    requires SessionsWellFormed(cache)
    ensures SessionsWellFormed(RegisterBasic(cache, store, basic, device, env).cache)
  {
    StartSessionPreserves(cache, Sanitize(basic), device, env);
  }

  lemma {:induction false} VerifyOtpPreserves(cache: Cache, sessionId: string, deviceId: string, otp: string, env: Env)
    requires SessionsWellFormed(cache)
    ensures SessionsWellFormed(VerifyOtp(cache, sessionId, deviceId, otp, env).cache)
  {
    var r := VerifyOtp(cache, sessionId, deviceId, otp, env);
    if r.result.Success? {
      assert sessionId in cache && cache[sessionId].value.RegistrationValue?;
      forall k | k in r.cache && r.cache[k].value.RegistrationValue?
        ensures |r.cache[k].value.session.devices| == 1
        ensures r.cache[k].value.session.verificationStatus == "verified" ==> r.cache[k].value.session.otpStatus == "verified"
      {
        if k != sessionId {
          assert r.cache[k] == cache[k];
        }
      }
    }
  }

  lemma {:induction false} VerifyKypPreserves(cache: Cache, sessionId: string, kyp: KypData, env: Env)
    requires SessionsWellFormed(cache)
    ensures SessionsWellFormed(VerifyKyp(cache, sessionId, kyp, env).cache)
  {
    var r := VerifyKyp(cache, sessionId, kyp, env);
    if r.result.Success? {
      assert sessionId in cache && cache[sessionId].value.RegistrationValue?;
      forall k | k in r.cache && r.cache[k].value.RegistrationValue?
        ensures |r.cache[k].value.session.devices| == 1
        ensures r.cache[k].value.session.verificationStatus == "verified" ==> r.cache[k].value.session.otpStatus == "verified"
      {
        if k != sessionId {
          assert r.cache[k] == cache[k];
        }
      }
    }
  }

  lemma FinalizePreserves(cache: Cache, store: DealerStore, sessionId: string, catalogue: ServiceCatalogue, env: Env, crypto: Crypto)
    requires SessionsWellFormed(cache)
    ensures var r := Finalize(cache, store, sessionId, catalogue, env, crypto);
      r.Finalized? && SessionsWellFormed(r.cache)
  {
    if sessionId in cache && cache[sessionId].value.RegistrationValue? {
      assert |cache[sessionId].value.session.devices| == 1;
    }
  }

  /** Stage ordering: on well-formed sessions, finalisation succeeds only
      for a session that passed OTP and then KYP verification. */
  lemma FinalizeOnlyAfterOtpAndKyp(cache: Cache, store: DealerStore, sessionId: string, catalogue: ServiceCatalogue, env: Env, crypto: Crypto)
    requires SessionsWellFormed(cache)
    requires FinalizeSucceeds(cache, store, sessionId, catalogue, env, crypto)
    ensures sessionId in cache && cache[sessionId].value.RegistrationValue?
    ensures cache[sessionId].value.session.otpStatus == "verified"
    ensures cache[sessionId].value.session.verificationStatus == "verified"
  {
  }

  /** The dealer built for a single-device session carries that device, now
      holding the given token hash, and the given password hash. */
  lemma RegisteredDealerShape(session: RegistrationSession, catalogue: ServiceCatalogue, passwordHash: string,
                              tokenHash: string, id: string, now: int)
    requires |session.devices| == 1
    ensures var d := RegisteredDealer(session, catalogue, passwordHash, tokenHash, id, now);
      && d.id == id
      && |d.devices| == 1
      && d.devices[0] == session.devices[0].(tokenHash := tokenHash, lastLogin := now)
      && d.devices[0].creator == session.devices[0].creator
      && d.security == Security(passwordHash, "")
      && d.profile.slug == GenerateSlug(session.basicData.dealerName)
      && d.store.serviceCatalog == catalogue
  {
    assert HasDevice(session.devices, session.devices[0].deviceId);
  }

  /** The finalised dealer: one device, the registering one, holding the
      hash of the returned token; the password kept only as its bcrypt
      hash; the slug is generateSlug of the name. */
  lemma FinalizedDealerShape(cache: Cache, store: DealerStore, sessionId: string, catalogue: ServiceCatalogue, env: Env, crypto: Crypto)
    requires SessionsWellFormed(cache)
    requires FinalizeSucceeds(cache, store, sessionId, catalogue, env, crypto)
    ensures var r := Finalize(cache, store, sessionId, catalogue, env, crypto);
      var s := cache[sessionId].value.session;
      var d := r.store[env.freshId];
      && r.result.value.id == env.freshId
      && |d.devices| == 1
      && d.devices[0].deviceId == s.devices[0].deviceId
      && d.devices[0].tokenHash == crypto.hashToken(r.result.value.token)
      && crypto.bcrypt.generate(s.basicData.password) == Some(d.security.passwordHash)
      && d.security.tokenHash == ""
      && d.profile.slug == GenerateSlug(s.basicData.dealerName)
      && d.store.serviceCatalog == catalogue
  {
    var s := cache[sessionId].value.session;
    RegisteredDealerShape(s, catalogue, crypto.bcrypt.generate(s.basicData.password).value,
                          crypto.hashToken(env.token.value), env.freshId, env.now);
  }

  /** A finalisation whose cleanup succeeded cannot be repeated: the session
      is gone, so a second attempt fails at session lookup. */
  lemma FinalizeIsSingleShot(cache: Cache, store: DealerStore, sessionId: string, catalogue: ServiceCatalogue,
                             env: Env, env2: Env, crypto: Crypto)
    requires env.cacheDeleteOk
    requires FinalizeSucceeds(cache, store, sessionId, catalogue, env, crypto)
    ensures var r := Finalize(cache, store, sessionId, catalogue, env, crypto);
      Finalize(r.cache, r.store, sessionId, catalogue, env2, crypto)
        == Finalized(Failure("failed to retrieve session"), r.cache, r.store)
  {
  }

  /** When cleanup fails the session survives, so the client can finalise
      it again; the retry is refused at the insert by the unique name and
      slug indexes, and the first dealer stays the only one. */
  lemma FinalizeRetryRefusedWhenCleanupFails(cache: Cache, store: DealerStore, sessionId: string, catalogue: ServiceCatalogue,
                                             env: Env, env2: Env, crypto: Crypto)
    requires !env.cacheDeleteOk
    requires FinalizeSucceeds(cache, store, sessionId, catalogue, env, crypto)
    ensures var r := Finalize(cache, store, sessionId, catalogue, env, crypto);
      && r.cache == cache
      && GetRegistrationSession(r.cache, sessionId) == GetRegistrationSession(cache, sessionId)
      && Finalize(r.cache, r.store, sessionId, catalogue, env2, crypto).Finalized?
      && Finalize(r.cache, r.store, sessionId, catalogue, env2, crypto).result.Failure?
      && Finalize(r.cache, r.store, sessionId, catalogue, env2, crypto).store == r.store
      && (env2.token.Some? ==>
            Finalize(r.cache, r.store, sessionId, catalogue, env2, crypto)
              == Finalized(Failure("database creation failed"), r.cache, r.store))
  {
    var r := Finalize(cache, store, sessionId, catalogue, env, crypto);
    var session := GetRegistrationSession(cache, sessionId).value;
    var pw := crypto.bcrypt.generate(session.basicData.password).value;
    RegisteredDealerNamed(session, catalogue, pw, crypto.hashToken(env.token.value), env.freshId, env.now);
    assert r.store[env.freshId].profile.dealerName == session.basicData.dealerName;
    assert NameTaken(r.store, session.basicData.dealerName);
  }
}

=== FILE: utils.dfy ===
/** utils/utils.go: phone normalisation and the registration-session
    helpers over the shared cache, plus the cache-side contracts of the
    helpers the dealer service calls but whose code is not part of this
    model (auth sessions, OTP initiation). Expiry is modelled as absence of
    the key; a time-to-live is recorded with each entry. */
module Utils {
  import opened Common
  import opened DealerModels

  /** A sign-in session (the AuthSession record of the utils package). */
  datatype AuthSession = AuthSession(
    userId: string,
    email: string,
    deviceId: string,
    deviceName: string,
    ip: string,
    location: string,
    status: string,
    createdAt: int,
    lastUpdatedAt: int)

  /** The cache holds several kinds of value under one key space. */
  datatype CacheValue =
    | RegistrationValue(session: RegistrationSession)
    | AuthSessionValue(auth: AuthSession)
    | OtpValue(deviceId: string, address: string)
    | TextValue(text: string)

  /** `HelperTtl` is the lifetime chosen by a helper outside this model. */
  datatype Ttl = Seconds(seconds: nat) | HelperTtl

  datatype Entry = Entry(value: CacheValue, ttl: Ttl)

  type Cache = map<string, Entry>

  datatype CacheError =
    | SessionStorageError      // "session storage error"
    | SessionExpiredOrInvalid  // "session expired or invalid"
    | InvalidSessionData       // "invalid session data"
    | ClearSessionFailed       // "failed to clear session"

  const RegistrationTtl: Ttl := Seconds(30 * 60)

  /** SaveRegistrationSession: a SET with the given lifetime; `writeOk`
      is the cache server's reply. */
  function SaveRegistrationSession(cache: Cache, sessionId: string, session: RegistrationSession, ttl: Ttl, writeOk: bool)
    : (r: Result<Cache, CacheError>)
    ensures r.Success? <==> writeOk
    ensures r.Success? ==> sessionId in r.value && r.value[sessionId] == Entry(RegistrationValue(session), ttl)
    ensures r.Success? ==> forall k | k != sessionId :: (k in r.value <==> k in cache)
    ensures r.Success? ==> forall k | k in cache && k != sessionId :: r.value[k] == cache[k]
  {
    if writeOk then Success(cache[sessionId := Entry(RegistrationValue(session), ttl)])
    else Failure(SessionStorageError)
  }

  /** GetRegistrationSession: an absent (or expired) key, or a key that
      holds something other than a registration session, is an error. */
  function GetRegistrationSession(cache: Cache, sessionId: string): (r: Result<RegistrationSession, CacheError>)
    ensures sessionId !in cache ==> r == Failure(SessionExpiredOrInvalid)
    ensures r.Success? ==> sessionId in cache && cache[sessionId].value == RegistrationValue(r.value)
    ensures sessionId in cache && cache[sessionId].value.RegistrationValue? ==> r.Success?
  {
    if sessionId !in cache then Failure(SessionExpiredOrInvalid)
    else match cache[sessionId].value
      case RegistrationValue(s) => Success(s)
      case _ => Failure(InvalidSessionData)
  }

  /** DeleteRegistrationSession: a DEL; `deleteOk` is the server's reply. */
  function DeleteRegistrationSession(cache: Cache, sessionId: string, deleteOk: bool): (r: Result<Cache, CacheError>)
    ensures r.Success? <==> deleteOk
    ensures r.Success? ==> sessionId !in r.value
    ensures r.Success? ==> forall k | k != sessionId :: (k in r.value <==> k in cache)
    ensures r.Success? ==> forall k | k in r.value :: r.value[k] == cache[k]
  {
    if deleteOk then Success(cache - {sessionId}) else Failure(ClearSessionFailed)
  }

  /** The map contract of the three session helpers: a read after a save
      returns what was saved, and a read after a delete fails. */
  lemma SessionMapContract(cache: Cache, id: string, other: string, s: RegistrationSession, ttl: Ttl)
    requires other != id
    ensures var saved := SaveRegistrationSession(cache, id, s, ttl, true).value;
      && GetRegistrationSession(saved, id) == Success(s)
      && GetRegistrationSession(saved, other) == GetRegistrationSession(cache, other)
    ensures var deleted := DeleteRegistrationSession(cache, id, true).value;
      && GetRegistrationSession(deleted, id) == Failure(SessionExpiredOrInvalid)
      && GetRegistrationSession(deleted, other) == GetRegistrationSession(cache, other)
  {
  }

  /** The auth-session helpers keep their record under the session id with
      their own lifetime; a read of anything else fails. */
  function SaveAuthSession(cache: Cache, sessionId: string, s: AuthSession, writeOk: bool): (r: Cache)
    ensures writeOk ==> sessionId in r && r[sessionId].value == AuthSessionValue(s)
    ensures !writeOk ==> r == cache
    ensures forall k | k != sessionId :: (k in r <==> k in cache) && (k in r ==> r[k] == cache[k])
  {
    if writeOk then cache[sessionId := Entry(AuthSessionValue(s), HelperTtl)] else cache
  }

  function GetAuthSession(cache: Cache, sessionId: string): (r: Option<AuthSession>)
    ensures r.Some? <==> sessionId in cache && cache[sessionId].value.AuthSessionValue?
    ensures r.Some? ==> cache[sessionId].value.auth == r.value
  {
    if sessionId in cache && cache[sessionId].value.AuthSessionValue? then Some(cache[sessionId].value.auth) else None
  }

  /** Key under which an OTP challenge for `key` is kept. */
  function OtpKey(key: string): (k: string)
    ensures |k| == |key| + 4
    ensures k[..4] == "otp:"
  {
    "otp:" + key
  }

  /** InitiateDeviceOTP(key, device, address): on success a challenge for
      the device is stored under OtpKey(key); on failure nothing changes. */
  function InitiateDeviceOtp(cache: Cache, key: string, deviceId: string, address: string, sent: bool): (r: Result<Cache, string>)
    ensures r.Success? <==> sent
    ensures r.Success? ==> r.value == cache[OtpKey(key) := Entry(OtpValue(deviceId, address), HelperTtl)]
  {
    if sent then Success(cache[OtpKey(key) := Entry(OtpValue(deviceId, address), HelperTtl)])
    else Failure("failed to send OTP")
  }

  /** The digits of a string, in order (the regexp `\D` removes every
      other character). */
  function DigitsOf(s: string): (r: string)
    ensures AllDigits(r)
    ensures |r| <= |s|
    ensures AllDigits(s) ==> r == s
  {
    if |s| == 0 then ""
    else if IsDigit(s[0]) then [s[0]] + DigitsOf(s[1..])
    else DigitsOf(s[1..])
  }

  lemma {:induction false} DigitsOfAppend(a: string, b: string)
    ensures DigitsOf(a + b) == DigitsOf(a) + DigitsOf(b)
  {
    if |a| == 0 {
      assert a + b == b;
    } else {
      assert (a + b)[1..] == a[1..] + b;
      DigitsOfAppend(a[1..], b);
    }
  }

  /** E.164 country calling code of Kenya. */
  const KenyaPrefix: string := "+254"

  /** NormalizePhoneNumber: keep the digits; a ten-digit national number
      with a trunk '0' and a bare nine-digit subscriber number get the
      Kenyan country code; anything else is prefixed with '+'. */
  function NormalizePhoneNumber(phone: string): (r: string)
    ensures |r| >= 1 && r[0] == '+' && AllDigits(r[1..])
  {
    var cleaned := DigitsOf(phone);
    if |cleaned| > 0 && cleaned[0] == '0' && |cleaned| == 10 then
      AllDigitsConcat("254", cleaned[1..]);
      assert (KenyaPrefix + cleaned[1..])[1..] == "254" + cleaned[1..];
      KenyaPrefix + cleaned[1..]
    else if !(|cleaned| > 0 && cleaned[0] == '+') && |cleaned| == 9 then
      AllDigitsConcat("254", cleaned);
      assert (KenyaPrefix + cleaned)[1..] == "254" + cleaned;
      KenyaPrefix + cleaned
    else
      assert ("+" + cleaned)[1..] == cleaned;
      "+" + cleaned
  }

  /** Normalisation never invents or drops subscriber digits: a ten-digit
      national number loses its trunk '0' to the country code, a nine-digit
      subscriber number gains the country code, and every other digit
      string is kept whole behind '+'. */
  lemma NormalizeKeepsDigits(phone: string)
    ensures var d := DigitsOf(phone); var r := NormalizePhoneNumber(phone);
      r[1..] == d || (|d| >= 9 && r[1..] == "254" + d[|d| - 9..])
    ensures var d := DigitsOf(phone);
      |d| == 10 && d[0] == '0' ==> NormalizePhoneNumber(phone) == KenyaPrefix + d[1..]
    ensures var d := DigitsOf(phone);
      |d| == 9 ==> NormalizePhoneNumber(phone) == KenyaPrefix + d
    ensures var d := DigitsOf(phone);
      !(|d| == 10 && d[0] == '0') && |d| != 9 ==> NormalizePhoneNumber(phone) == "+" + d
  {
    var d := DigitsOf(phone);
    if |d| == 10 && d[0] == '0' {
      assert d[1..] == d[|d| - 9..];
      assert (KenyaPrefix + d[1..])[1..] == "254" + d[1..];
    } else if |d| == 9 {
      assert d == d[|d| - 9..];
      assert (KenyaPrefix + d)[1..] == "254" + d;
    } else {
      assert ("+" + d)[1..] == d;
    }
  }

  lemma AllDigitsConcat(a: string, b: string)
    requires AllDigits(a) && AllDigits(b)
    ensures AllDigits(a + b)
  {
    assert forall i | |a| <= i < |a + b| :: (a + b)[i] == b[i - |a|];
  }

  /** Normalising a normalised number changes nothing. */
  lemma NormalizePhoneIdempotent(phone: string)
    ensures NormalizePhoneNumber(NormalizePhoneNumber(phone)) == NormalizePhoneNumber(phone)
  {
    var r := NormalizePhoneNumber(phone);
    assert r == [r[0]] + r[1..];
    DigitsOfAppend([r[0]], r[1..]);
    assert DigitsOf(r) == r[1..];
  }

  /** The national form, the bare subscriber number and the international
      form of one Kenyan number all normalise alike. */
  lemma KenyanFormsAgree(subscriber: string)
    requires |subscriber| == 9 && AllDigits(subscriber)
    ensures NormalizePhoneNumber("0" + subscriber) == KenyaPrefix + subscriber
    ensures NormalizePhoneNumber(subscriber) == KenyaPrefix + subscriber
    ensures NormalizePhoneNumber(KenyaPrefix + subscriber) == KenyaPrefix + subscriber
  {
    NationalFormNormalizes(subscriber);
    InternationalFormNormalizes(subscriber);
  }

  lemma NationalFormNormalizes(subscriber: string)
    requires |subscriber| == 9 && AllDigits(subscriber)
    ensures NormalizePhoneNumber("0" + subscriber) == KenyaPrefix + subscriber
  {
    var national := "0" + subscriber;
    assert AllDigits(national) by {
      assert forall i | 1 <= i < |national| :: national[i] == subscriber[i - 1];
    }
    assert DigitsOf(national) == national;
    assert national[1..] == subscriber;
  }

  lemma InternationalFormNormalizes(subscriber: string)
    requires |subscriber| == 9 && AllDigits(subscriber)
    ensures NormalizePhoneNumber(KenyaPrefix + subscriber) == KenyaPrefix + subscriber
  {
    var code := "254" + subscriber;
    AllDigitsConcat("254", subscriber);
    assert KenyaPrefix + subscriber == "+" + code;
    DigitsOfAppend("+", code);
    assert DigitsOf("+") == "";
    assert DigitsOf(KenyaPrefix + subscriber) == code;
  }

  /** A string without digits normalises to "+". */
  lemma NoDigitsNormalizeToPlus(phone: string)
    requires forall i | 0 <= i < |phone| :: !IsDigit(phone[i])
    ensures NormalizePhoneNumber(phone) == "+"
  {
    if |phone| > 0 {
      assert phone == [phone[0]] + phone[1..];
      DigitsOfAppend([phone[0]], phone[1..]);
      NoDigitsNormalizeToPlus(phone[1..]);
    }
  }
}
